=== FILE: README.md ===
# barc: a verified model of the archive compositor and its job runners

barc turns a recorded video-call archive into a single composed MP4. The
archive is a zip holding a JSON manifest and one media file per
participant stream. Two programs take part:

- the job runners in JavaScript: `task/index.js` is a one-shot task and
  `webapp/worker.js` is a queue worker. They download the archive, run the
  `barc` binary with an argument vector, report progress, upload the
  output and post back the outcome;
- the compositor in C and C++. It parses the command line and the
  manifest, opens one stream per manifest entry, and keeps a two-track
  clock (audio and video). On every video tick it lays the streams out
  with a CSS style sheet, positions each frame (object fit, border,
  z-order) and mixes the audio of every stream with clamping.

This project models the decision logic of both halves as pure Dafny
functions over immutable datatypes, and proves what the code promises:

- round trips: shell escaping read back by a POSIX shell, `atoi` of
  printed numbers, setters read back through their getters, serialisation;
- invariants: the tick scheduler's clock, distinct listener and stream
  lists, reference counts;
- reference definitions: frame catch-up against "the first frame not
  earlier than the target", the audio mix against a per-sample fold, the
  command line against "the last occurrence wins";
- the error paths of the manifest, archive and command-line readers.

FFmpeg, ImageMagick, litehtml, the network, storage and the process
runtime are represented by function-typed parameters or by the values
they return.

Modules (one file each):

- `Common`, `Text` and `Sorting`: shared helpers. These are `Option`,
  truthiness, `Filter`, truncation toward zero, decimal text, C `atoi`,
  `path.basename`, and a sort by key.
- `ShellEscape`, `TaskRunner`, `Worker`, `Progress` and `JobHelper`: the
  JavaScript runners.
- `Scheduler`: `barc.cc`.
- `Geometry` and `Presets`: `Geometry.h` and `Geometry.cpp`, plus the
  preset rules.
- `VideoMixer`: `video_mixer.cc`.
- `Json`, `Manifest` and `ArchivePackage`: the manifest and archive
  readers.
- `FrameQueue`, `ArchiveStream`, `MediaStream` and `FileSource`: the
  stream records and frame queues.
- `SmartFrame`: `smart_avframe.c`.
- `AudioMixer`: `audio_mixer.c`.
- `ObjectFit`: `magic_frame.c`.
- `Cli`: `main.c`.
- `Float32`: IEEE 754 single-precision multiplication, division and
  conversion, rounding to nearest with ties to even, as used by
  `samples_per_pts` in `archive_stream.cc`.

## Model

The rows below cover every modelled operation. The headline properties
are the round trips (shell readings such as `ShellEscape.ReadQuoteRuns`, `atoi` of
printed numbers, setter/getter pairs), the reference definitions (frame
catch-up, the per-sample audio mix, the last-occurrence command line)
and the whole-run postback results of the runners. A few rows are small
one-step consequences of a definition, kept as supporting facts:
`ShellEscape.SafeUnchanged`, `ShellEscape.SafeishQuoted`, the three
`Progress` bands, `Scheduler.SingleTrackTickReturnsZero`,
`Presets.MixerAndPackageAgree`, `Geometry.FitCodeRoundTrip`,
`Geometry.DocumentTagsHaveElements` and `Text.AtoiNoDigits`.

| member | source | states |
|---|---|---|
| ShellEscape.SafeUnchanged | task/index.js:34-38 | Text made only of safe characters is returned unchanged, so escaping is idempotent on it. |
| ShellEscape.SafeishQuoted | task/index.js:35-41 | Text that is safe-ish but not safe is wrapped in double quotes. |
| ShellEscape.QuoteRunsWithoutQuotes | task/index.js:44-53 | In the third tier, a string without single quotes comes back unchanged and with no outer quotes. |
| ShellEscape.ReadShortRun | task/index.js:47-48 | Inside single quotes, a rewritten run of one or two quotes reads back as that many quote characters. |
| ShellEscape.ReadLongRun | task/index.js:50-51 | Inside single quotes, a run of three or more quotes, re-quoted in double quotes, reads back as the run itself. |
| ShellEscape.ReadQuoteRuns | task/index.js:44-53 | Read inside single quotes, the rewritten text of any string reads back as that string. |
| ShellEscape.AsWrittenDollarNotPreserved | task/index.js:44-53 | As written, `$x` escapes to itself, and a shell does not read it back as `$x`. |
| ShellEscape.AsWrittenLoneQuoteUnterminated | task/index.js:44-53 | As written, the escape of a quote followed by `"` leaves an unterminated quotation. |
| ShellEscape.BashEscapeKeeps | task/index.js:36-54 | `bashEscape` returns its argument unchanged exactly for safe text and for text that takes the strong escaping but has no single quote. |
| ShellEscape.DoubleQuotedReadsBack | task/index.js:35-41 | A safe-ish string in double quotes reads back exactly. |
| ShellEscape.QuotedEscapeRoundTrip | task/index.js:36-54 | The corrected escape (the rewritten runs inside single quotes) reads back as the original string for every input. |
| TaskRunner.OptionArgs | task/index.js:66-72 | One `--key=<bashEscape(value)>` argument for each option other than `_`, in option order. |
| TaskRunner.ArgVector | task/index.js:62-73 | The vector is `-i<input>`, then `-o<cwd>/<taskId>.mp4`, then the option arguments. Its length is 2 plus the number of non-`_` options. |
| TaskRunner.SplitLongOption | barc/main.c:35-56 | `getopt_long` splits `--name=value` at the first `=`, and the argument is the name, `=` and the value. |
| TaskRunner.SplitAtFirstEquals | barc/main.c:35-56 | A name without `=` is recovered exactly, whatever the value holds. |
| TaskRunner.OptionValueAsReceived | task/index.js:67-83 | `spawn` uses no shell, so `barc` reads the value `bashEscape(v)`. That is `v` exactly for safe text and for quote-free text that takes the strong escaping. |
| TaskRunner.AsWrittenQuotesReachBarc | task/index.js:67-83 | As written, custom CSS `p {}` reaches `barc` as `"p {}"`, quotes included. |
| TaskRunner.DirectOptionReadsBack | task/index.js:67-83 | The corrected argument, with the value passed as it is, reads back as the option exactly. |
| TaskRunner.OnChildEnd | task/index.js:119-125 | Only exit code 0 reports the output path, and a spawn failure reports its own error. |
| TaskRunner.UnknownCodeNamed | task/index.js:119-125 | A non-zero exit reports `error - unknown return code <code>`, and the code can be read back from that text. |
| TaskRunner.ExitCleanup | task/index.js:126-140 | Compressing the log starts first, then the log is deleted. With CLEAN_ARTIFACTS the input path is deleted, and a `null` path throws instead. |
| TaskRunner.UploadKeyOfOutput | task/index.js:186-187 | For a task id without `/`, the upload key is `<prefix>/<taskId>/<taskId>.mp4`. |
| TaskRunner.TryPostback | task/index.js:221-233 | A request is made exactly when the callback URL is truthy and valid. Its body is `{job, result}`. |
| TaskRunner.UploadKeyOfLog | task/index.js:153 | For a task id without `/`, the compressed log is stored under `<prefix>/<taskId>/<taskId>.log.gz`. |
| TaskRunner.LogUpload | task/index.js:148-179 | Nothing without S3 configuration. Otherwise the compressed log is stored, and it is deleted exactly when its upload ends and CLEAN_ARTIFACTS is set. It never posts back. |
| TaskRunner.ExitHandling | task/index.js:126-140 | The cleanup comes first. The process ends there exactly for a `null` input with CLEAN_ARTIFACTS or an unreadable log. Otherwise the log is uploaded when S3 is configured. |
| TaskRunner.PostedExitOk | task/index.js:181-219 | After exit 0 the upload's result is posted exactly when S3 is configured and the process outlives the exit handler. |
| TaskRunner.PostedExitError | task/index.js:119-125 | After a non-zero exit exactly the error naming the code is posted, whatever the exit handling does. |
| TaskRunner.PostedIsChainResult | task/index.js:283-303 | A run posts back at most once. It posts the result of the first failing phase, or the upload's outcome when the process is still running. |
| TaskRunner.StartupFailureDoesNothing | task/index.js:273-281 | A missing or invalid archive URL or task id starts no effect at all. |
| TaskRunner.DownloadErrorStops | task/index.js:249-288 | A download error starts deleting the partial download, posts `download error: <e>`, and never runs the transform. |
| TaskRunner.ProcessErrorStops | task/index.js:119-145 | A failed transform posts `process error: <e>`, and then only the exit handling follows. The output is never uploaded. |
| TaskRunner.NullInputCleanupThrows | task/index.js:135-140 | After a download error with an empty message, `barc` gets `-inull`. With CLEAN_ARTIFACTS the exit handler throws on the `null` path, and nothing is posted after exit 0. |
| Worker.ArgVector | webapp/worker.js:74-86 | The vector is input, output, then `-w`, `-h` and `-p` in that order, each present exactly when its field is truthy. |
| Worker.UploadKeyOfOutput | webapp/worker.js:189-190 | The upload key is `<prefix>/<jobId>/<jobId>.mp4`. |
| Worker.ProcessJob | webapp/worker.js:44-96 | An invalid URL reports `Missing archiveURL.` before any download. An exception while the download starts is caught and reported. Spawning needs a download. `barc` is spawned exactly after a download that did not report a truthy error, with `ArgVector` of the downloaded path (`null` for a falsy error). An upload needs exit 0, and success carries the upload key. Every failure is one of the four messages. |
| Worker.StartThrowReported | webapp/worker.js:44-49 | An exception from opening the download file or from `https.get` reaches `done`, and nothing is downloaded, spawned or uploaded. |
| Worker.DownloadErrorStops | webapp/worker.js:55-61 | A download error reports `Failed to download archive` and spawns nothing. |
| Worker.NonZeroExitReported | webapp/worker.js:131-137 | A non-zero exit reports `Process exited with code N` and uploads nothing. |
| Worker.ZeroExitUploads | webapp/worker.js:188-221 | Exit 0 starts a private upload under the job's key. Only a completed upload reports success, with that key. |
| Worker.SpawnErrorNeverDone | webapp/worker.js:154-156 | A spawn failure never calls `done`. |
| Progress.DownloadReport | webapp/worker.js:236-241 | A download report's total is three times the content length. |
| Progress.DownloadBand | webapp/worker.js:236-241 | While no more than the content length has arrived, the download fraction is in [0, 1/3]. |
| Progress.TransformBand | webapp/worker.js:111-114 | For 0 <= complete <= total, the transform fraction is in [1/3, 2/3]. |
| Progress.UploadBand | webapp/worker.js:207-209 | For 0 <= amount <= total, the upload fraction is in [2/3, 1]. |
| Progress.PhasesMonotone | webapp/worker.js:111-114 | Within each phase, more progress never reports a smaller fraction. |
| Progress.PhasesOrdered | webapp/worker.js:111-114 | Any download fraction is at most any transform fraction, which is at most any upload fraction. |
| Progress.DownloadReports | webapp/worker.js:236-241 | Each chunk raises the reported byte count by exactly its length. |
| Progress.DownloadReportsMonotone | webapp/worker.js:236-241 | Successive download reports never go backwards. |
| Progress.DownloadReportsInBand | webapp/worker.js:236-241 | If the chunks add up to at most the content length, every report lies in the first third. |
| JobHelper.StripLow | webapp/helpers/job_helper.js:12 | The result has no low control character, and text without one is unchanged. |
| JobHelper.StripLowIsFilter | webapp/helpers/job_helper.js:12 | Stripping keeps exactly the characters that are not low control characters, in order. |
| JobHelper.StripLowIdempotent | webapp/helpers/job_helper.js:12 | Stripping twice is stripping once. |
| JobHelper.Dimension | webapp/helpers/job_helper.js:24-31 | An integer within the bounds is kept, and anything else gives the default. |
| JobHelper.ParseJobArgs | webapp/helpers/job_helper.js:5-43 | With an invalid URL, the result carries only the error. With a valid one, it has no error and the preset only when it is allowed. Width and height are each the requested integer when it lies within the bounds, and the configured default otherwise. |
| JobHelper.DimensionsWithinBounds | webapp/helpers/job_helper.js:24-40 | When the configured defaults lie within the bounds, so do the width and height. |
| JobHelper.DimensionsRoundTrip | webapp/helpers/job_helper.js:24-40 | A width and height within the bounds, sent as decimal text, come through unchanged. |
| JobHelper.AbsentDimensionsDefault | webapp/helpers/job_helper.js:24-40 | An absent width or height takes the configured default. |
| Text.IntToStringRoundTrip | webapp/worker.js:79-82 | Printing an integer and reading it back gives the integer. |
| Text.AtoiRoundTrip | barc/main.c:66-76 | `atoi` reads back the decimal text of any integer. |
| Text.AtoiNoDigits | barc/main.c:66-76 | Text that does not start, after white space, with a sign or a digit reads as 0. |
| Text.BasenameOfJoin | webapp/worker.js:189-190 | The basename of `dir/name` is `name`. |
| Sorting.SortBy | barc/Geometry.cpp:52-57 | The result is a permutation of the input, sorted by ascending key. |
| Sorting.SortByMembers | barc/video_mixer.cc:66 | Sorting keeps exactly the elements of the input. |
| Scheduler.AddSource | barc/barc.cc:98-105 | After adding, the stream is present. It is appended when it was absent, and the list is unchanged when it was present. |
| Scheduler.AddSourceIdempotent | barc/barc.cc:98-105 | Adding keeps the streams distinct, and adding twice is adding once. |
| Scheduler.RemoveSource | barc/barc.cc:108-115 | An absent stream leaves the list unchanged. A present one shortens it by one. |
| Scheduler.RemoveSourceFilters | barc/barc.cc:108-115 | On distinct streams, removal drops exactly that stream and keeps the others in order. It is idempotent. |
| Scheduler.Configure | barc/barc.cc:62-73 | The video period times the frame rate is 1, and nothing else changes. |
| Scheduler.ComputeAudioTimes | barc/barc.cc:220-224 | The audio period times the sample rate is the encoder's frame size, and nothing else changes. |
| Scheduler.And32 | barc/barc.cc:165 | The 32-bit AND is 0 when either side is 0, and equals `a` when both sides are `a`. |
| Scheduler.AndBitsSelf | barc/barc.cc:165 | The bitwise AND of a number with itself is that number. |
| Scheduler.Tick | barc/barc.cc:117-166 | Flagged tracks get the clock plus their period. The clock moves to the earlier next time, and both tracks are flagged when the two are within the epsilon. |
| Scheduler.FirstTick | barc/barc.cc:46-51 | From the zero state the first tick runs no track, leaves the clock at 0 and flags both tracks. |
| Scheduler.TickAdvances | barc/barc.cc:117-166 | Each tick keeps the clock invariant and strictly advances the clock. |
| Scheduler.SingleTrackTickReturnsZero | barc/barc.cc:165 | A tick that runs only one track returns 0, whatever that track reported. |
| Scheduler.RunMonotone | barc/barc.cc:117-166 | Any number of ticks keeps the invariant and moves the clock forward. |
| Presets.SelectPreset | barc/video_mixer.cc:211-240 | Automatic layout is on exactly for a missing or unknown name, and it starts from best fit. `custom` picks the custom sheet. |
| Presets.MixerPreset | barc/video_mixer.cc:229-230 | The mixer's `custom` installs the placeholder `SET_ME`, with automatic layout off. |
| Presets.PackagePreset | barc/archive_package.cc:146-172 | The archive's `custom` installs the custom CSS itself. |
| Presets.MixerAndPackageAgree | barc/archive_package.cc:146-172 | The mixer and the archive agree on every name except `custom`, and each named preset selects its own sheet. |
| Presets.CssCustom | barc/video_mixer.cc:242-248 | Only non-empty CSS replaces the sheet. |
| Presets.FocusCountFilter | barc/video_mixer.cc:37-45 | The focus count is the number of focus streams. It is positive exactly when some stream has the focus class. |
| Presets.AutoSheetCases | barc/video_mixer.cc:34-54 | Best fit exactly when no stream is focus. Pip exactly when one is focus and fewer than two are not. Horizontal presentation otherwise. |
| Geometry.FitCodeRoundTrip | barc/Geometry.h:151-164 | Fit codes 0..4 are in one-to-one correspondence with the five fits. |
| Geometry.NewStreamInfo | barc/Geometry.h:203-204 | The two-argument description has an empty layout class. |
| Geometry.LayoutClassSetter | barc/Geometry.h:205-211 | Setting the class gives the three-argument description, and never changes the id or the activity. |
| Geometry.SerializeInjective | barc/Geometry.h:186-198 | Two positions with equal serialisations agree on every serialised field. |
| Geometry.AddListener | barc/Geometry.cpp:31-38 | Registration succeeds exactly for a new listener, which is appended. A second registration is an assertion failure. |
| Geometry.RemoveListener | barc/Geometry.cpp:40-43 | Every occurrence goes, and every other listener stays. |
| Geometry.SetStyleSheet | barc/Geometry.cpp:26-29 | The sheet is stored, and exactly the registered listeners are notified. |
| Geometry.ListenersStayDistinct | barc/Geometry.cpp:26-43 | Listeners stay distinct, so each is notified exactly once. Removing a listener just added restores the list. |
| Geometry.Layout | barc/Geometry.cpp:45-68 | The result is the engine's visible positions, as a permutation, sorted by ascending z. |
| Geometry.LayoutKeepsVisible | barc/Geometry.cpp:45-68 | The previous result plays no part, and every visible position is kept. |
| Geometry.ActiveTagsFilter | barc/Geometry.cpp:119-129 | One stream element per active description, in input order. Inactive descriptions contribute nothing. |
| Geometry.RenderHtmlShape | barc/Geometry.cpp:18-20 | The document is the header, the CSS, the body opening, the stream elements and the closing tags. |
| Geometry.DrawObject | barc/Geometry.cpp:147-162 | The drawn element gets z equal to the number of positions already recorded. Other entries are kept. |
| Geometry.DrawOrder | barc/Geometry.cpp:157-161 | With distinct ids, each position's z is its draw index. |
| Geometry.CreateElement | barc/Geometry.cpp:164-176 | `stream` gets the stream element, `broadcast` and `archive` a plain tag, and anything else none. |
| Geometry.DocumentTagsHaveElements | barc/Geometry.cpp:164-176 | Both custom tags of the rendered document get an element. |
| VideoMixer.AddStream | barc/video_mixer.cc:131-141 | Returns 1 and changes nothing when the stream is present. Otherwise appends it and returns 0. |
| VideoMixer.ClearStreams | barc/video_mixer.cc:143-145 | The list is empty afterwards, and nothing else changes. |
| VideoMixer.AddStreamIdempotent | barc/video_mixer.cc:131-141 | The list stays distinct, and adding again reports 1 without change. |
| VideoMixer.AddAllFresh | barc/video_mixer.cc:131-141 | Adding distinct new streams appends them all in order, each with code 0. |
| VideoMixer.RefillCopiesSources | barc/barc.cc:129-133 | After each video tick the mixer holds exactly the compositor's streams, in order. |
| VideoMixer.SetCssPreset | barc/video_mixer.cc:211-240 | Automatic layout and the sheet follow the preset rules. The streams are untouched. |
| VideoMixer.SetCssCustom | barc/video_mixer.cc:242-248 | The sheet follows the custom CSS rule, and nothing else changes. |
| VideoMixer.CustomThenCss | barc/barc.cc:70-71 | `custom` followed by CSS installs that CSS, and an empty CSS leaves the placeholder. |
| VideoMixer.PlaceAllLastWins | barc/video_mixer.cc:82-95 | A stream in the list takes the last position carrying its name. Every other stream is untouched. |
| VideoMixer.SheetFor | barc/video_mixer.cc:76-79 | In automatic mode the sheet is re-picked from the streams' classes. |
| VideoMixer.PopulateStreamCoords | barc/video_mixer.cc:64-98 | The streams are sorted by z and keep the same elements. Positions are visible and sorted by z. |
| VideoMixer.PopulatePlacesByName | barc/video_mixer.cc:64-98 | After placing, each stream carries the last layout position with its name. |
| VideoMixer.Subframes | barc/video_mixer.cc:167-188 | At most one subframe per stream. The result is the last stream's read code, or -1 when there are no streams. |
| VideoMixer.SubframesAreSuccessfulReads | barc/video_mixer.cc:168-186 | There is exactly one subframe per successful read that yields a frame. |
| VideoMixer.PushFrame | barc/video_mixer.cc:147-189 | With no streams the push returns -1 and adds no subframe. |
| Json.Member | barc/archive_manifest.cc:40-70 | A member is found exactly when the value is an object holding the key. |
| Json.StringOr | barc/archive_manifest.cc:71-82 | The member's text when it is a string, the fallback otherwise. |
| Manifest.ScreenFocus | barc/archive_manifest.cc:83-90 | The class is `focus` exactly when it was `focus`, or it was empty and the video type is `screen`. It changes only in that case. |
| Manifest.ReadEntry | barc/archive_manifest.cc:40-70 | An entry is read exactly when filename, both offsets and the stream id have the right types. |
| Manifest.ReadEntryOfItem | barc/archive_manifest.cc:40-92 | A well-typed item reads back its fields, with class and video type defaulting to empty text and the screen-focus rule applied. |
| Manifest.ParseFile | barc/archive_manifest.cc:40-92 | Returns -1 exactly for an ill-formed entry. Otherwise returns 0 with a file. |
| Manifest.ParseAllAppend | barc/archive_manifest.cc:113-127 | Parsing distributes over concatenation, so valid entries stay in manifest order. |
| Manifest.ParseAllCount | barc/archive_manifest.cc:113-127 | One file per well-formed item. |
| Manifest.ManifestParse | barc/archive_manifest.cc:94-128 | Returns 1 and changes nothing when loading fails or there is no `files` array. Otherwise returns 0 with the parsed files appended. |
| Manifest.EventsWalk | barc/archive_manifest.cc:139-144 | Visits nothing and returns 0. |
| Manifest.WalkCountsWellFormed | barc/archive_manifest.cc:130-137 | After a parse, the files walk visits each well-formed item once, in order, and returns their count. |
| ArchivePackage.OpenManifestItem | barc/archive_package.cc:37-90 | An ill-formed item returns -1. Otherwise the open's code is returned, with a stream exactly when it is 0. |
| ArchivePackage.OpenAllAppend | barc/archive_package.cc:137-142 | Opening distributes over concatenation, so streams keep manifest order. |
| ArchivePackage.OpenAllCount | barc/archive_package.cc:137-142 | One stream per item whose open returns 0. |
| ArchivePackage.OpenAllMatchesParseAll | barc/archive_package.cc:137-142 | When every open succeeds, the archive has one stream per manifest file. |
| ArchivePackage.ArchiveOpen | barc/archive_package.cc:92-175 | Returns -1 when the chdir fails, and 1 when the manifest cannot be loaded or has no `files` array. Otherwise returns 0 with the opened streams and the preset's sheet and mode. |
| ArchivePackage.PackageMatchesManifest | barc/archive_package.cc:92-175 | With every open succeeding, the archive has as many streams as the manifest has well-formed files. |
| ArchivePackage.FinishTime | barc/archive_package.cc:185-195 | The finish time is the largest stop offset, or 0 when there is none larger. |
| ArchivePackage.ActiveStreams | barc/archive_package.cc:204-228 | The active streams as a permutation of the filtered list, sorted by z. The count equals the length, and the result is 0. |
| ArchivePackage.ActiveStreamsMembers | barc/archive_package.cc:204-228 | A stream is listed exactly when it is in the archive and active, as often as it occurs there. |
| FrameQueue.Ensure | barc/archive_stream.cc:171-177 | Succeeds exactly when a frame remains, without losing or reordering frames. A dry decoder's code comes back unchanged. |
| FrameQueue.FirstAtOrAfter | barc/archive_stream.cc:201-211 | The index of the first frame not earlier than the target, or none when every frame is earlier. |
| FrameQueue.GetVideo | barc/archive_stream.cc:179-222 | Releases exactly the frames before the first one at or after the target and returns that frame. It returns -1 when the frames run out, and the decoder's code when there were none. |
| FrameQueue.CatchUp | barc/archive_stream.cc:201-211 | Every released frame is earlier than the target, and no frame is lost. It stops at a frame at or after the target. |
| FrameQueue.HasVideo | barc/archive_stream.cc:224-231 | True exactly when some frame is at or after the target. |
| ArchiveStream.Alloc | barc/archive_stream.cc:92-106 | Name and class are stored, the queues are empty, and everything else is zero. |
| ArchiveStream.SetFieldReadsBack | barc/archive_stream.cc:442-501 | Each setter reads back through its getter and changes nothing else. |
| ArchiveStream.GetVideoForTime | barc/archive_stream.cc:179-222 | Succeeds exactly when some frame has pts plus start offset at or after the local time. It returns the first such frame and releases the frames before it. |
| ArchiveStream.HasVideoForTime | barc/archive_stream.cc:224-231 | True exactly when the read would return 0. |
| ArchiveStream.SamplesPerPtsOwnBase | barc/archive_stream.cc:421-429 | With the time base one sample, a gap of fewer than 2^22 samples at a rate below 2^24 converts to the gap or one sample fewer, never more. |
| ArchiveStream.AsWrittenSevenSamplesShort | barc/archive_stream.cc:421-429 | As written, a 7-sample gap at 48000 Hz converts to 6 samples. |
| ArchiveStream.ExactSamplesOwnBase | barc/archive_stream.cc:421-429 | The exact count that the function's own comment describes gives a gap of `pts` samples as `pts` samples. |
| ArchiveStream.PopFillingRule | barc/archive_stream.cc:301-339 | For any sample count: fewer than two frames return the decoder's code. Otherwise the front frame is dropped, and a gap that counts n > 0 samples gets one silent frame from the dropped frame's pts to the next frame's pts, holding n samples. |
| ArchiveStream.AudioGapRule | barc/archive_stream.cc:301-339 | As written, the front frame is dropped, and any silent frame starts at the dropped frame and ends at the next one. For a gap of fewer than 2^22 samples at a rate below 2^24, the silent frame holds the missing samples or one fewer, and a gap of two or more samples always gets one. |
| ArchiveStream.AsWrittenGapShort | barc/archive_stream.cc:316-327 | As written, frames at pts 0 and 967 with duration 960 at 48000 Hz get a silent frame of 6 samples for the 7 missing. |
| ArchiveStream.ExactGapRule | barc/archive_stream.cc:301-339 | With the exact count, the silent frame holds exactly the missing samples. |
| ArchiveStream.SilenceClosesGap | barc/archive_stream.cc:233-254 | The silent frame ends where the next frame starts, so the following pop inserts nothing. |
| ArchiveStream.ConfigCallbackAsWritten | barc/archive_stream.cc:77-82 | As written, on a fresh stream the configuration argument lands in the reader's slot and the configuration callback is left with NULL. |
| ArchiveStream.ConfigCallbackKeptApart | barc/archive_stream.cc:70-89 | With the corrected setter, reader and configuration callback each keep their own argument, in either order, and the queues are untouched. |
| MediaStream.Alloc | barc/media_stream.cc:85-91 | A zero record, whose fit is contain. |
| MediaStream.SetFieldReadsBack | barc/media_stream.cc:164-216 | Each setter reads back and changes nothing else. Setting the current value changes nothing. |
| MediaStream.SetObjectFitReadsBack | barc/media_stream.cc:219-223 | The fit reads back and every integer field is kept. |
| MediaStream.SettersCommute | barc/media_stream.cc:188-216 | Setters of different fields commute. |
| MediaStream.NameAndClassReadBack | barc/media_stream.cc:225-243 | Name and class read back independently. |
| MediaStream.CallbackSettersOwnSlots | barc/media_stream.cc:55-81 | Each corrected setter stores exactly its own callback and argument. |
| MediaStream.VideoReadDispatch | barc/media_stream.cc:101-112 | The last registered video reader answers, with its own argument. Layout setters do not affect reads. |
| MediaStream.CopySamples | barc/media_stream.cc:145-148 | The first samples of each channel are overwritten with the reader's, and everything else is kept. |
| MediaStream.GetAudioSamples | barc/media_stream.cc:114-151 | A buffer failure returns its code. A reader result of 0 copies nothing, and any other result copies the samples and is returned. |
| MediaStream.AsWrittenConfigArgReachesAudioReader | barc/media_stream.cc:69-74 | As written, registering the config callback redirects audio reads to the config argument. |
| MediaStream.ConfigArgKeptApart | barc/media_stream.cc:62-74 | With the corrected setter, the audio reader keeps its own argument. |
| FileSource.Seek | barc/file_media_source.cc:84-93 | The seek stores the time as the video offset, and nothing else changes. |
| FileSource.SeekShiftsStopOnly | barc/file_media_source.cc:228-240 | Seeking moves the reported stop offset back by the seek time but leaves the activity window alone. |
| FileSource.VideoRead | barc/file_media_source.cc:276-314 | Succeeds exactly when some frame's global time is at or after the shifted request. It returns the first such frame and releases the frames before it. |
| FileSource.Open | barc/file_media_source.cc:183-226 | Times and file name are recorded. An audio-config or open failure returns its code early. Otherwise the stream is named and both callbacks are registered. |
| FileSource.OpenedStreamReadsAudio | barc/file_media_source.cc:316-328 | Once open, an audio read reaches this source's decoder with the buffer's sample count and returns its result. |
| SmartFrame.Create | barc/smart_avframe.c:18-25 | The count is 1, and the wrapped frame is the given one. |
| SmartFrame.Retain | barc/smart_avframe.c:27-31 | The count goes up by exactly one, and the frame is unchanged. |
| SmartFrame.Release | barc/smart_avframe.c:33-46 | Frees exactly when the count is at most 1, and then frees this frame. Otherwise the count goes down by one. |
| SmartFrame.RunCounts | barc/smart_avframe.c:27-46 | Over any run of operations, the count is the start plus the net change. The frame is freed at the first step the count would drop to zero. |
| SmartFrame.FreedAtLastRelease | barc/smart_avframe.c:27-46 | After n retains, the container is freed exactly at the (n+1)-th release. |
| SmartFrame.RetainsThenReleases | barc/smart_avframe.c:27-46 | The same, from any positive count. |
| AudioMixer.MixSample | barc/audio_mixer.c:50-62 | The result is in [-1, 1]. It is the scaled sum when that is in range, and the clamp otherwise. |
| AudioMixer.AddStream | barc/audio_mixer.c:50-62 | Every sample of every channel takes the mix of itself and the stream's sample. |
| AudioMixer.GetSamplesForStreams | barc/audio_mixer.c:17-72 | With no streams, returns -1 and leaves the output alone. Otherwise every output sample is its old value with the full reads mixed in, in stream order, and the last stream's read code is returned. |
| AudioMixer.MixAllBySample | barc/audio_mixer.c:38-62 | Each output sample is folded over the contributions of exactly the streams whose read returned the full count. |
| AudioMixer.MixIntoAdds | barc/audio_mixer.c:50-62 | While no partial sum leaves [-1, 1], the mix is the plain scaled sum. |
| ObjectFit.ScaleFits | barc/magic_frame.c:136-169 | With fill there is no rescale. Otherwise the aspect ratio is kept and the offsets centre the image. Contain and scale-down fit inside and touch one side. Cover and none cover and touch one side. |
| ObjectFit.MagicFrameAdd | barc/magic_frame.c:136-194 | Resize first, composite last. Extent exactly when the fit is not fill, round corners exactly for a positive radius, stroke exactly for a positive width. |
| Cli.LastArgFound | barc/main.c:55-83 | An option's value exists exactly when the option occurs. |
| Cli.LastArgIsLast | barc/main.c:55-83 | The value found is one the option was given. |
| Cli.ParseFailsOnUnknown | barc/main.c:84-91 | Parsing fails exactly when some option is unknown. |
| Cli.ParseIsLastWins | barc/main.c:55-83 | With known options only, each field takes its last occurrence: text verbatim, numbers through `atoi`. |
| Cli.Defaults | barc/main.c:97-105 | A missing output becomes `output.mp4`, and a zero width or height becomes 640 or 480. Given values are kept. |
| Cli.MainConfig | barc/main.c:22-142 | Returns 1 exactly for an unknown option. Otherwise the configuration is the last-wins parse with the defaults applied. |
| Cli.NoOptions | barc/main.c:24-32 | Without options, the configuration is `output.mp4`, 640 by 480, offsets -1. |

## Left out

- FFmpeg, ImageMagick and litehtml are not modelled. This covers decoding, encoding, filter graphs, pixel work and the CSS engine. Each is a parameter: the render map, the frame readers, the opener and the decoders.
- Network, storage and process I/O are not modelled: S3, `request`, `https.get`, `spawn`, fs, gzip, zip and curl. Their outcomes are inputs.
- Concurrency is not modelled: the uv mutexes, the frame builder thread and the Kue drain. Reference counting is sequential.
- Floating point is `real`: times, samples and the progress fractions. The exception is `samples_per_pts`, whose single-precision rounding decides a sample count; `Float32` models it (round to nearest, ties to even) for the finite values it meets, assuming each `float` operation is carried out in single precision.
- Integer width is not modelled: `atoi` overflow, 64-bit timestamps and `int` casts. A conversion from real to integer uses `Trunc` (toward zero) where the code truncates a scaled size.
- `archive_stream_is_active_at_time`, `archive_stream_get_stop_offset` and `archive_stream_open_file` are called by archive_package.cc but are not part of this model. They appear as the parameters `isActive`, `stopOffset` and `open`.
- `archive_stream_set_radius` and `archive_stream_get_radius`, called by video_mixer.cc, are not part of this model. `VideoMixer.Place` therefore stores no radius.
- `archive_stream_pop_audio_samples`, `get_more_audio_samples` and `insert_silence`'s buffer zeroing are left out. They are FFmpeg audio-FIFO plumbing; the gap rule itself is modelled.
- `tick_audio`, the file writer and the frame builder are left out. The tick takes the audio and video results as inputs.
- The getopt long-option table and `stat`/unzip in `main` are left out. `Cli` takes options already split. Only the split of `--name=value` at the first `=` is modelled (`TaskRunner.SplitLongOption`), for what the task runner passes.
- The manifest test's expectations of metadata fields and three events are not modelled: archive_manifest.cc never fills them, and `events_walk` returns 0.
- `archive_open` with preset `custom` and no `css_custom`, and `main` without `-i`, pass a NULL pointer on. Both are undefined behaviour in C, so the model's precondition excludes the first; the second is outside `Cli`.
- Debug logging, the progress throttle and the malformed debug template in task/index.js are not modelled.
- AudioMixer.MixIntoAdds: states the plain sum only while no partial sum is clamped. In general the per-sample fold (`AudioMixer.MixAllBySample`) is the statement.
- Scheduler.Tick: the 0.0001 epsilon is exact real arithmetic, not double-precision comparison.
- ArchivePackage.ArchiveOpen: requires custom CSS text when the preset is `custom`, because the source passes a NULL `css_custom` to `std::string` there.
- ArchivePackage.ArchiveOpen: an archive without any `*.json` file is not modelled. archive_package.cc:106-110 only print a message and then read the first entry of an empty glob result, which is undefined behaviour; the model's `loaded` is the outcome of loading a manifest that was found.
- TaskRunner.OptionArgs: options are (name, text) pairs in the given order. `for..in` over the minimist object visits integer-like keys first, and the model does not reorder them.
- TaskRunner.OptionArgs: minimist values may be numbers, booleans or arrays. A number or boolean escapes to the same text as its string, but an array that needs the strong escaping throws at `arg.replace` (task/index.js:44), which the model does not represent.
- TaskRunner.ExitHandling: whether the log can be read is the parameter `LogEnd`. The read stream opens asynchronously after the synchronous `unlinkSync` of the log, so `LogUnreadable` (an unhandled error event that ends the process) is the likely outcome. Nothing was run to confirm it.
- TaskRunner.AfterChild: the output upload and the log upload run concurrently, and the model lists the log's effects first. It also follows a spawn failure with the `error` handler alone, not with an `exit` handler as well.
- TaskRunner.AfterDownload: the callback-less `fs.unlink` at task/index.js:251 is modelled as starting the deletion. Node 10 and later throw on it before the postback instead.
- Worker.DownloadErrorStops: the download error handler's callback-less `fs.unlink` of the partial archive (webapp/worker.js:248) is not recorded in `JobRun`. On Node 10 and later that call throws before `done` is reached, so the reported `Failed to download archive` is what older Node versions do.
- Sorting.SortBy: `std::sort` in barc/Geometry.cpp:52-57 and barc/video_mixer.cc:66 leaves the order of equal z unspecified. The model keeps ties in input order (`Geometry.Layout`, `VideoMixer.PopulateStreamCoords`).
- Worker.ProcessJob: the exit handler's log compression, log upload and deletions (webapp/worker.js:138-153) are not part of `JobRun`. That includes the `unlinkSync` of a `null` input, which throws outside the `try`.
- Cli.MainConfig: does not model `atoi` overflow.
- ObjectFit.MagicFrameAdd: assumes `MagickConstituteImage` succeeds. When it fails, `ThrowWandException` (barc/magic_frame.c:12-24, 189-190) prints the exception and calls `exit(-1)`, ending the whole process; the model has no process exit.
- ShellEscape.QuotedEscapeRoundTrip: `ShellEscape.ShellRead` reads one word in isolation. It takes a word-initial `#` literally and keeps an empty word, where bash starts a comment and drops the word. Safe text starting with `#`, and the empty string, leave every tier unquoted, so for those inputs the round trip holds for this reader but not for bash.

## Findings

| source | as written | input that shows it | evidently intended | confidence | as-written member | corrected member |
|---|---|---|---|---|---|---|
| task/index.js:44-53 | As a shell escape, the strong tier rewrites runs of single quotes but, contrary to its own comment, does not enclose the result in single quotes. | `$x` (a shell expands it); `'"` (leaves an unterminated quote) | `"'" + rewritten + "'"`, so a shell reading the word gets the string back | medium, not executed; no shell reads these arguments in this program (next row) | ShellEscape.AsWrittenDollarNotPreserved | ShellEscape.QuotedEscapeRoundTrip |
| task/index.js:67-83 | Option values are escaped for a shell, but `spawn` starts `barc` without a shell, so `getopt_long` gets the escape text itself. | option `custom_css` = `p {}` reaches `barc` as `"p {}"`, quotes included | `barc` receives each value as given | high, not executed | TaskRunner.AsWrittenQuotesReachBarc | TaskRunner.DirectOptionReadsBack |
| barc/media_stream.cc:69-74 | `media_stream_set_audio_config_callback` stores its argument in `audio_read_arg` | registering an audio reader with argument A and then a config callback with argument B: audio reads get B, and the config callback gets NULL | store the argument in `audio_config_arg`, as the video setter does | high, not executed | MediaStream.AsWrittenConfigArgReachesAudioReader | MediaStream.ConfigArgKeptApart |
| barc/archive_stream.cc:77-82 | The same setter on the archive stream also stores into `audio_read_arg` | the same sequence on a freshly allocated archive stream | store into `audio_config_arg` | high, not executed | ArchiveStream.ConfigCallbackAsWritten | ArchiveStream.ConfigCallbackKeptApart |
| barc/archive_stream.cc:421-429 | `samples_per_pts` divides and multiplies in single precision and truncates, so a gap can convert to one sample fewer than it spans | a 7-sample gap at 48000 Hz: 7/48000 rounds down, and 48000 times it is 6.9999995, which truncates to 6 | the count its own comment states, `pts · num / den · sample_rate`, which for a time base of one sample is the gap itself | medium, not executed; by the same arithmetic 13, 14, 26, 27 and 28 samples also come out short | ArchiveStream.AsWrittenGapShort | ArchiveStream.ExactGapRule |

=== FILE: archive_package.dfy ===
/** The archive package: the streams of an unpacked archive, opened from
    the manifest's `files` entries, with the style sheet chosen for it.
    Opening a stream (`archive_stream_open_file`), its stop offset, its
    z-index and whether it is active at a clock time belong to the archive
    stream, whose file-opening code is not part of this model; they are
    parameters here. */
module ArchivePackage {
  import opened Common
  import opened Json
  import opened Sorting
  import opened Geometry
  import opened Presets
  import opened Manifest
  import MediaStream

  type Handle = MediaStream.Handle

  /** `archive_stream_open_file` applied to file name, start and stop
      offsets (milliseconds), stream id and class: its code and the stream
      it opened. */
  type Opener = (string, int, int, string, string) -> (int, Handle)

  function OpenEntry(e: Entry, open: Opener): (int, Handle) {
    open(e.filename, e.startMs, e.stopMs, e.streamId, e.streamClass)
  }

  /** `open_manifest_item`: -1 for an entry that is not well formed,
      otherwise whatever opening the stream returns; the stream is kept only
      on success. */
  function OpenManifestItem(j: Json, open: Opener): (r: (int, Option<Handle>))
    ensures !WellFormed(j) ==> r == (-1, None)
    ensures WellFormed(j) ==> r.0 == OpenEntry(ReadEntry(j).value, open).0
    ensures r.1.Some? <==> r.0 == 0
    ensures r.1.Some? ==> r.1.value == OpenEntry(ReadEntry(j).value, open).1
  {
    match ReadEntry(j)
    case None => (-1, None)
    case Some(e) =>
      var (ret, h) := OpenEntry(e, open);
      if ret == 0 then (0, Some(h)) else (ret, None)
  }

  /** Whether an entry yields a stream. */
  function Opens(open: Opener): Json -> bool {
    j => OpenManifestItem(j, open).0 == 0
  }

  /** The loop of `archive_open` over `files`: the streams that opened, in
      manifest order. */
  function OpenAll(items: seq<Json>, open: Opener): (r: seq<Handle>)
    ensures |r| <= |items|
    decreases |items|
  {
    if |items| == 0 then []
    else
      var rest := OpenAll(items[1..], open);
      var h := OpenManifestItem(items[0], open).1;
      if h.Some? then [h.value] + rest else rest
  }

  /** Opening keeps the manifest's order. */
  lemma {:induction false} OpenAllAppend(a: seq<Json>, b: seq<Json>, open: Opener)
    ensures OpenAll(a + b, open) == OpenAll(a, open) + OpenAll(b, open)
    decreases |a|
  {
    if |a| > 0 {
      assert (a + b)[0] == a[0] && (a + b)[1..] == a[1..] + b;
      OpenAllAppend(a[1..], b, open);
    } else {
      assert a + b == b;
    }
  }

  /** One stream per entry that opens. */
  lemma {:induction false} OpenAllCount(items: seq<Json>, open: Opener)
    ensures |OpenAll(items, open)| == |Filter(items, Opens(open))|
    decreases |items|
  {
    if |items| > 0 {
      OpenAllCount(items[1..], open);
    }
  }

  /** When every stream opens, the package keeps exactly the entries the
      manifest parser keeps: the two readers check the same fields. */
  lemma {:induction false} OpenAllMatchesParseAll(items: seq<Json>, open: Opener)
    requires forall f, a, b, id, c :: open(f, a, b, id, c).0 == 0
    ensures |OpenAll(items, open)| == |ParseAll(items)|
    decreases |items|
  {
    if |items| > 0 {
      OpenAllMatchesParseAll(items[1..], open);
      if WellFormed(items[0]) {
        var e := ReadEntry(items[0]).value;
        assert OpenEntry(e, open).0 == 0;
      }
    }
  }

  datatype Archive = Archive(streams: seq<Handle>, layout: ArchiveLayout, autoLayout: bool, width: int, height: int)

  /** `archive_open`, with changing into the archive directory and loading
      the first `*.json` file found there given as their outcomes (`loaded`
      is `None` when that file could not be parsed). The source goes on to
      read the first glob result even when there is none, so an archive
      without any `*.json` file is outside this model. A `custom` preset
      needs custom CSS: the source builds a string from it. */
  function ArchiveOpen(width: int, height: int, chdirOk: bool, loaded: Option<Json>,
                       cssPreset: Option<string>, cssCustom: Option<string>,
                       open: Opener): (r: (int, Option<Archive>))
    requires cssPreset == Some("custom") ==> cssCustom.Some?
    ensures !chdirOk ==> r == (-1, None)
    ensures chdirOk && (loaded.None? || !IsArray(Member(loaded.value, "files"))) ==> r == (1, None)
    ensures r.0 == 0 <==> chdirOk && loaded.Some? && IsArray(Member(loaded.value, "files"))
    ensures r.1.Some? <==> r.0 == 0
    ensures r.0 == 0 ==>
              var a := r.1.value;
              var choice := PackagePreset(cssPreset, cssCustom.GetOr(""));
              && a.streams == OpenAll(Member(loaded.value, "files").value.items, open)
              && a.autoLayout == choice.auto
              && a.layout == NewLayout.(styleSheet := choice.sheet)
              && a.width == width && a.height == height
  {
    if !chdirOk then (-1, None)
    else if loaded.None? then (1, None)
    else
      var files := Member(loaded.value, "files");
      if !IsArray(files) then (1, None)
      else
        var streams := OpenAll(files.value.items, open);
        var choice := PackagePreset(cssPreset, cssCustom.GetOr(""));
        var (layout, _) := SetStyleSheet(NewLayout, choice.sheet);
        (0, Some(Archive(streams, layout, choice.auto, width, height)))
  }

  /** Opening the package and parsing the same manifest agree: when every
      stream opens, the package holds one stream per file the parser
      keeps, and the two succeed and fail together once the directory is
      reachable. */
  lemma PackageMatchesManifest(width: int, height: int, loaded: Option<Json>,
                               cssPreset: Option<string>, cssCustom: Option<string>, open: Opener)
    requires cssPreset == Some("custom") ==> cssCustom.Some?
    requires forall f, a, b, id, c :: open(f, a, b, id, c).0 == 0
    ensures var (ret, archive) := ArchiveOpen(width, height, true, loaded, cssPreset, cssCustom, open);
            var (m, mret) := ManifestParse(EmptyManifest, loaded);
            && (ret == 0 <==> mret == 0)
            && (ret == 0 ==> |archive.value.streams| == FilesWalk(m).1)
  {
    if loaded.Some? && IsArray(Member(loaded.value, "files")) {
      OpenAllMatchesParseAll(Member(loaded.value, "files").value.items, open);
    }
  }

  /** `archive_get_finish_clock_time`: the latest stop offset, and 0 when
      there is none later. */
  function FinishTime(streams: seq<Handle>, stopOffset: Handle -> int): (t: int)
    ensures t >= 0
    ensures forall i :: 0 <= i < |streams| ==> stopOffset(streams[i]) <= t
    ensures t == 0 || exists i :: 0 <= i < |streams| && t == stopOffset(streams[i])
    decreases |streams|
  {
    if |streams| == 0 then 0
    else
      var last := streams[|streams| - 1];
      var before := FinishTime(streams[..|streams| - 1], stopOffset);
      assert forall i :: 0 <= i < |streams| - 1 ==> streams[..|streams| - 1][i] == streams[i];
      if before < stopOffset(last) then stopOffset(last) else before
  }

  /** `archive_get_active_streams_for_time`, with the activity test already
      applied to the clock time: the active streams in ascending z-index,
      their number, and 0. */
  function ActiveStreams(streams: seq<Handle>, isActive: Handle -> bool, z: Handle -> int): (r: (seq<Handle>, int, int))
    ensures SortedBy(r.0, z)
    ensures multiset(r.0) == multiset(Filter(streams, isActive))
    ensures r.1 == |r.0| && r.2 == 0
  {
    var result := SortBy(Filter(streams, isActive), z);
    (result, |result|, 0)
  }

  /** A stream is handed out exactly when it belongs to the archive and is
      active, and each stream of the archive occurs as often as there. */
  lemma ActiveStreamsMembers(streams: seq<Handle>, isActive: Handle -> bool, z: Handle -> int, h: Handle)
    ensures h in ActiveStreams(streams, isActive, z).0 <==> h in streams && isActive(h)
    ensures isActive(h) ==> multiset(ActiveStreams(streams, isActive, z).0)[h] == multiset(streams)[h]
  {
    FilterCounts(streams, isActive, h);
    var r := ActiveStreams(streams, isActive, z).0;
    assert h in r <==> h in multiset(r);
    assert h in streams <==> h in multiset(streams);
  }
}

=== FILE: archive_stream.dfy ===
/** An archive stream: a media stream record together with its decoded
    video and audio frame queues. Video frames are their presentation
    timestamps; audio frames carry timestamp, duration and sample count,
    all in units of one sample. */
module ArchiveStream {
  import opened Common
  import opened Geometry
  import opened MediaStream
  import opened FrameQueue
  import Float32

  datatype AudioFrame = AudioFrame(pts: int, duration: int, nbSamples: int)

  datatype ArchiveStream = ArchiveStream(record: Stream, video: Queue<int>, audio: Queue<AudioFrame>)

  /** `archive_stream_alloc`: a zero record with the given name and class
      and empty queues; the decoders will produce `videoFrames` and
      `audioFrames`. */
  function Alloc(name: Option<string>, streamClass: Option<string>,
                 videoFrames: seq<int>, audioFrames: seq<AudioFrame>): (a: ArchiveStream)
    ensures a.record.name == name && a.record.streamClass == streamClass
    ensures a.record.(name := None, streamClass := None) == MediaStream.Alloc()
    ensures a.video.fifo == [] && a.audio.fifo == []
    ensures Frames(a.video) == videoFrames && Frames(a.audio) == audioFrames
  {
    ArchiveStream(MediaStream.Alloc().(name := name, streamClass := streamClass),
                  Queue([], videoFrames), Queue([], audioFrames))
  }

  /** The layout setters of the archive stream act on its record alone. */
  function SetField(a: ArchiveStream, f: Field, v: int): ArchiveStream {
    a.(record := MediaStream.SetField(a.record, f, v))
  }

  /** Each setter reads back through its getter, changes no other field
      and leaves the queues alone. */
  lemma SetFieldReadsBack(a: ArchiveStream, f: Field, v: int)
    ensures Get(SetField(a, f, v).record.placement, f) == v
    ensures forall g :: g != f ==> Get(SetField(a, f, v).record.placement, g) == Get(a.record.placement, g)
    ensures SetField(a, f, v).video == a.video && SetField(a, f, v).audio == a.audio
    ensures SetField(a, f, v).(record := a.record) == a
  {
    MediaStream.SetFieldReadsBack(a.record, f, v);
  }

  // ---------------------------------------------------------------------
  // Video.
  // ---------------------------------------------------------------------

  /** A video frame's time on the stream's clock. */
  function VideoTime(startOffset: int): int -> real {
    pts => (pts + startOffset) as real
  }

  /** `archive_stream_get_video_for_time`, with the clock time already
      rescaled to the stream's time base: the first frame not earlier than
      the time, with the frames before it released. */
  method GetVideoForTime(a: ArchiveStream, localTime: int, startOffset: int, dryCode: int)
    returns (b: ArchiveStream, ret: int, frame: Option<int>)
    requires dryCode < 0
    ensures ret == 0 || ret == -1 || ret == dryCode
    ensures ret == 0 <==> exists i :: 0 <= i < |Frames(a.video)| && Frames(a.video)[i] + startOffset >= localTime
    ensures ret == 0 ==> (frame.Some? && frame.value + startOffset >= localTime
                          && b.video.fifo != [] && b.video.fifo[0] == frame.value)
    ensures ret == 0 ==>
              var k := FirstAtOrAfter(Frames(a.video), VideoTime(startOffset), localTime as real);
              && k.Some? && frame == Some(Frames(a.video)[k.value])
              && Frames(b.video) == Frames(a.video)[k.value..]
    ensures ret != 0 ==> frame.None?
    ensures b.record == a.record && b.audio == a.audio
  {
    var f := GetVideo(a.video, VideoTime(startOffset), localTime as real, dryCode);
    b := a.(video := f.queue);
    ret := f.ret;
    frame := f.frame;
  }

  /** `archive_stream_has_video_for_time`. */
  method HasVideoForTime(a: ArchiveStream, localTime: int, startOffset: int, dryCode: int)
    returns (b: ArchiveStream, has: bool)
    requires dryCode < 0
    ensures has <==> exists i :: 0 <= i < |Frames(a.video)| && Frames(a.video)[i] + startOffset >= localTime
    ensures b.record == a.record && b.audio == a.audio
  {
    var ret, frame;
    b, ret, frame := GetVideoForTime(a, localTime, startOffset, dryCode);
    has := ret == 0;
  }

  // ---------------------------------------------------------------------
  // Audio continuity.
  // ---------------------------------------------------------------------

  /** `samples_per_pts` as written: `pts · num / den · sampleRate` evaluated
      left to right in single precision, each operand converted to `float`
      first, and the result converted to `int64_t` toward zero. */
  function SamplesPerPts(sampleRate: int, pts: int, num: int, den: int): int
    requires den != 0
  {
    var single := Float32.Mul(Float32.FromInt(pts), Float32.FromInt(num));
    Float32.ToInt(Float32.Mul(Float32.Div(single, Float32.FromInt(den)), Float32.FromInt(sampleRate)))
  }

  /** The count its own comment describes: the span times the time base
      times the sample rate, computed exactly and truncated. */
  function ExactSamplesPerPts(sampleRate: int, pts: int, num: int, den: int): int
    requires den != 0
  {
    Trunc((pts * num) as real / den as real * sampleRate as real)
  }

  /** With the time base one sample, a span of `pts` samples below 2^22 comes
      out as `pts` or one fewer: dividing by the rate and multiplying back
      rounds twice, and the truncation loses whatever falls short. */
  lemma SamplesPerPtsOwnBase(sampleRate: int, pts: int)
    requires 0 < sampleRate < Float32.Full && 0 < pts < 0x40_0000
    ensures pts - 1 <= SamplesPerPts(sampleRate, pts, 1, sampleRate) <= pts
  {
    var a := Float32.FromInt(pts);
    var one := Float32.FromInt(1);
    Float32.RoundExact(pts, 1, pts);
    Float32.RoundExact(1, 1, 1);
    var p := Float32.Num(a) * Float32.Num(one);
    var q := Float32.Den(a) * Float32.Den(one);
    assert p == pts * q by {
      Float32.Regroup(pts, Float32.Den(a), Float32.Den(one));
    }
    Float32.PositiveProduct(Float32.Den(a), Float32.Den(one));
    Float32.RoundExact(p, q, pts);
    Float32.RoundExact(sampleRate, 1, sampleRate);
    Float32.DivMulWithinOne(Float32.Mul(a, one), Float32.FromInt(sampleRate), pts, sampleRate);
  }

  /** As written, a gap of 7 samples at 48000 Hz counts as 6: 7/48000 rounds
      down in single precision, and 48000 times it comes to 6.9999995. */
  lemma AsWrittenSevenSamplesShort()
    ensures SamplesPerPts(48000, 7, 1, 48000) == 6
  {
    Float32.Pow2Table();
    Float32.RoundUpAt(7, 1, 21);
    var seven := Float32.Single(14680064, -21);
    Float32.RoundUpAt(1, 1, 23);
    assert Float32.FromInt(1) == Float32.Single(0x80_0000, -23);
    Float32.RoundUpAt(123145302310912, 17592186044416, 21);
    assert Float32.Mul(Float32.FromInt(7), Float32.FromInt(1)) == seven;
    Float32.RoundUpAt(48000, 1, 8);
    var rate := Float32.Single(12288000, -8);
    assert Float32.FromInt(48000) == rate;
    Float32.RoundUpAt(3758096384, 25769803776000, 36);
    var quotient := Float32.Single(10021590, -36);
    assert Float32.Div(seven, rate) == quotient;
    Float32.RoundUpAt(123145297920000, 17592186044416, 21);
    assert Float32.Mul(quotient, rate) == Float32.Single(14680063, -21);
    assert Float32.Value(Float32.Single(14680063, -21)) == 14680063.0 / 2097152.0;
  }

  /** With the exact count, a span of `pts` samples is `pts` samples. */
  lemma ExactSamplesOwnBase(sampleRate: int, pts: int)
    requires sampleRate > 0
    ensures ExactSamplesPerPts(sampleRate, pts, 1, sampleRate) == pts
  {
    var r := sampleRate as real;
    assert pts as real / r * r == pts as real;
  }

  /** `insert_silence`: a silent frame spanning `from` to `to`. */
  function Silence(numSamples: int, from: int, to: int): AudioFrame {
    AudioFrame(from, to - from, numSamples)
  }

  datatype AudioPop = AudioPop(queue: Queue<AudioFrame>, ret: int, silence: Option<AudioFrame>)

  /** A gap of `gap` samples at `sampleRate` as the pop counts it: with
      `samples_per_pts` as written, or exactly. Rates that are not positive
      never reach these (the pop requires a positive rate); they count 0. */
  function GapSamples(sampleRate: int, gap: int): int {
    if sampleRate > 0 then SamplesPerPts(sampleRate, gap, 1, sampleRate) else 0
  }

  function ExactGapSamples(sampleRate: int, gap: int): int {
    if sampleRate > 0 then ExactSamplesPerPts(sampleRate, gap, 1, sampleRate) else 0
  }

  /** `audio_frame_fifo_pop`, counting gaps with `count`: drop the front
      frame; when the next frame starts later than the dropped one ends and
      the gap counts at least one sample, push a silent frame in front that
      carries that many samples. */
  function PopFilling(q: Queue<AudioFrame>, sampleRate: int, dryCode: int, count: (int, int) -> int): (r: AudioPop)
    requires dryCode < 0 && sampleRate > 0
  {
    var (q1, r1) := Ensure(q, dryCode);
    if r1 != 0 then AudioPop(q1, r1, None)
    else
      var (q2, r2) := Ensure(Pop(q1), dryCode);
      if r2 != 0 then AudioPop(q2, r2, None)
      else FillGap(q1.fifo[0], q2, sampleRate, count)
  }

  /** After `prev` was dropped: a silent frame goes in front of `q` when its
      first frame starts after `prev` ends and the gap counts a sample. */
  function FillGap(prev: AudioFrame, q: Queue<AudioFrame>, sampleRate: int, count: (int, int) -> int): (r: AudioPop)
    requires q.fifo != []
  {
    var next := q.fifo[0];
    if next.pts - prev.pts > prev.duration then
      var num := count(sampleRate, next.pts - prev.pts - prev.duration);
      if num > 0 then
        var s := Silence(num, prev.pts, next.pts);
        AudioPop(Queue([s] + q.fifo, q.pending), 0, Some(s))
      else AudioPop(q, 0, None)
    else AudioPop(q, 0, None)
  }

  /** `audio_frame_fifo_pop` as written, counting with `samples_per_pts`. */
  function AudioFifoPop(q: Queue<AudioFrame>, sampleRate: int, dryCode: int): AudioPop
    requires dryCode < 0 && sampleRate > 0
  {
    PopFilling(q, sampleRate, dryCode, GapSamples)
  }

  /** The pop with the exact sample count. */
  function AudioFifoPopExact(q: Queue<AudioFrame>, sampleRate: int, dryCode: int): AudioPop
    requires dryCode < 0 && sampleRate > 0
  {
    PopFilling(q, sampleRate, dryCode, ExactGapSamples)
  }

  /** The gap rule for any count: with fewer than two frames the decoder's
      code comes back; otherwise the front frame goes, and a gap between it
      and the next that counts `n > 0` samples is filled by one silent frame
      from the dropped frame to the next one holding `n` samples. */
  lemma PopFillingRule(q: Queue<AudioFrame>, sampleRate: int, dryCode: int, count: (int, int) -> int)
    requires dryCode < 0 && sampleRate > 0
    ensures var r := PopFilling(q, sampleRate, dryCode, count);
            var all := Frames(q);
            && (|all| < 2 ==> r.ret == dryCode && r.silence.None?)
            && (|all| == 0 ==> r.queue == q)
            && (|all| >= 2 ==>
                  var prev := all[0];
                  var next := all[1];
                  var gap := next.pts - prev.pts - prev.duration;
                  && r.ret == 0
                  && (gap > 0 && count(sampleRate, gap) > 0 ==>
                        && r.silence == Some(AudioFrame(prev.pts, next.pts - prev.pts, count(sampleRate, gap)))
                        && Frames(r.queue) == [r.silence.value] + all[1..])
                  && (gap <= 0 || count(sampleRate, gap) <= 0 ==>
                        r.silence.None? && Frames(r.queue) == all[1..]))
  {
    if |Frames(q)| >= 2 {
      PopFillingTwo(q, sampleRate, dryCode, count);
    } else {
      PopFillingFew(q, sampleRate, dryCode, count);
    }
  }

  /** The pop on a queue holding fewer than two frames. */
  lemma PopFillingFew(q: Queue<AudioFrame>, sampleRate: int, dryCode: int, count: (int, int) -> int)
    requires dryCode < 0 && sampleRate > 0 && |Frames(q)| < 2
    ensures var r := PopFilling(q, sampleRate, dryCode, count);
            && r.ret == dryCode && r.silence.None?
            && (|Frames(q)| == 0 ==> r.queue == q)
  {
  }

  /** The pop on a queue holding at least two frames. */
  lemma PopFillingTwo(q: Queue<AudioFrame>, sampleRate: int, dryCode: int, count: (int, int) -> int)
    requires dryCode < 0 && sampleRate > 0 && |Frames(q)| >= 2
    ensures var r := PopFilling(q, sampleRate, dryCode, count);
            var all := Frames(q);
            var gap := all[1].pts - all[0].pts - all[0].duration;
            var n := count(sampleRate, gap);
            var s := Silence(n, all[0].pts, all[1].pts);
            && r.ret == 0
            && (gap > 0 && n > 0 ==> r.silence == Some(s) && Frames(r.queue) == [s] + all[1..])
            && (gap <= 0 || n <= 0 ==> r.silence.None? && Frames(r.queue) == all[1..])
  {
    var all := Frames(q);
    var (q1, r1) := Ensure(q, dryCode);
    assert r1 == 0 && q1.fifo[0] == all[0];
    var (q2, r2) := Ensure(Pop(q1), dryCode);
    assert Frames(Pop(q1)) == all[1..];
    assert r2 == 0 && Frames(q2) == all[1..] && q2.fifo[0] == all[1];
    assert PopFilling(q, sampleRate, dryCode, count) == FillGap(all[0], q2, sampleRate, count);
  }

  /** The gap rule as written: the silent frame spans the gap exactly, and
      for a gap below 2^22 samples at a rate below 2^24 it holds the missing
      samples or one fewer; a gap that counts no sample gets no frame. */
  lemma AudioGapRule(q: Queue<AudioFrame>, sampleRate: int, dryCode: int)
    requires dryCode < 0 && sampleRate > 0
    ensures var r := AudioFifoPop(q, sampleRate, dryCode);
            var all := Frames(q);
            && (|all| < 2 ==> r.ret == dryCode && r.silence.None?)
            && (|all| == 0 ==> r.queue == q)
            && (|all| >= 2 ==>
                  var prev := all[0];
                  var next := all[1];
                  var gap := next.pts - prev.pts - prev.duration;
                  && r.ret == 0
                  && (r.silence.Some? ==>
                        && gap > 0
                        && r.silence.value.pts == prev.pts
                        && r.silence.value.pts + r.silence.value.duration == next.pts
                        && r.silence.value.nbSamples > 0
                        && Frames(r.queue) == [r.silence.value] + all[1..])
                  && (r.silence.None? ==> Frames(r.queue) == all[1..])
                  && (0 < gap < 0x40_0000 && sampleRate < Float32.Full ==>
                        && (gap > 1 ==> r.silence.Some?)
                        && (r.silence.Some? ==> gap - 1 <= r.silence.value.nbSamples <= gap)))
  {
    var all := Frames(q);
    if |all| >= 2 {
      PopFillingTwo(q, sampleRate, dryCode, GapSamples);
      var gap := all[1].pts - all[0].pts - all[0].duration;
      if 0 < gap < 0x40_0000 && sampleRate < Float32.Full {
        SamplesPerPtsOwnBase(sampleRate, gap);
      }
    } else {
      PopFillingFew(q, sampleRate, dryCode, GapSamples);
    }
  }

  /** As written, a 7-sample gap at 48000 Hz is filled with 6 samples. */
  lemma AsWrittenGapShort()
    ensures var q := Queue([AudioFrame(0, 960, 960), AudioFrame(967, 960, 960)], []);
            var r := AudioFifoPop(q, 48000, -1);
            r.silence == Some(AudioFrame(0, 967, 6))
  {
    AsWrittenSevenSamplesShort();
    var q := Queue([AudioFrame(0, 960, 960), AudioFrame(967, 960, 960)], []);
    PopFillingRule(q, 48000, -1, GapSamples);
  }

  /** The gap rule with the exact count: the silent frame holds exactly the
      missing samples. */
  lemma ExactGapRule(q: Queue<AudioFrame>, sampleRate: int, dryCode: int)
    requires dryCode < 0 && sampleRate > 0
    ensures var r := AudioFifoPopExact(q, sampleRate, dryCode);
            var all := Frames(q);
            |all| >= 2 ==>
              var prev := all[0];
              var next := all[1];
              && r.ret == 0
              && (next.pts - prev.pts > prev.duration ==>
                    && r.silence == Some(AudioFrame(prev.pts, next.pts - prev.pts, next.pts - prev.pts - prev.duration))
                    && Frames(r.queue) == [r.silence.value] + all[1..])
              && (next.pts - prev.pts <= prev.duration ==>
                    r.silence.None? && Frames(r.queue) == all[1..])
  {
    PopFillingRule(q, sampleRate, dryCode, ExactGapSamples);
    var all := Frames(q);
    if |all| >= 2 {
      ExactSamplesOwnBase(sampleRate, all[1].pts - all[0].pts - all[0].duration);
    }
  }

  /** A silent frame ends where the next frame starts, so the pop after it
      finds no gap and inserts nothing more. */
  lemma SilenceClosesGap(q: Queue<AudioFrame>, sampleRate: int, dryCode: int)
    requires dryCode < 0 && sampleRate > 0
    requires AudioFifoPop(q, sampleRate, dryCode).silence.Some?
    ensures var r := AudioFifoPop(q, sampleRate, dryCode);
            var s := r.silence.value;
            && s.nbSamples > 0
            && s.pts + s.duration == Frames(q)[1].pts
            && AudioFifoPop(r.queue, sampleRate, dryCode).ret == 0
            && AudioFifoPop(r.queue, sampleRate, dryCode).silence.None?
            && Frames(AudioFifoPop(r.queue, sampleRate, dryCode).queue) == Frames(q)[1..]
  {
    AudioGapRule(q, sampleRate, dryCode);
    var r := AudioFifoPop(q, sampleRate, dryCode);
    AudioGapRule(r.queue, sampleRate, dryCode);
    assert Frames(r.queue)[1..] == Frames(q)[1..];
  }

  // ---------------------------------------------------------------------
  // Configuration callbacks.
  // ---------------------------------------------------------------------

  /** `archive_stream_set_audio_read`. */
  function SetAudioRead(a: ArchiveStream, cb: Handle, arg: Handle): ArchiveStream {
    a.(record := MediaStream.SetAudioRead(a.record, cb, arg))
  }

  /** `archive_stream_set_audio_config_callback` as written. */
  function SetAudioConfigCallbackAsWritten(a: ArchiveStream, cb: Handle, arg: Handle): ArchiveStream {
    a.(record := MediaStream.SetAudioConfigCallbackAsWritten(a.record, cb, arg))
  }

  /** The setter as intended. */
  function SetAudioConfigCallback(a: ArchiveStream, cb: Handle, arg: Handle): ArchiveStream {
    a.(record := MediaStream.SetAudioConfigCallback(a.record, cb, arg))
  }

  /** On a freshly allocated stream, registering the reader and then the
      configuration callback as written leaves the configuration callback
      with a NULL argument and hands the reader the configuration argument. */
  lemma ConfigCallbackAsWritten(name: Option<string>, c: Option<string>, vf: seq<int>, af: seq<AudioFrame>,
                                rd: Handle, rdArg: Handle, cfg: Handle, cfgArg: Handle)
    requires rdArg != cfgArg && cfgArg != 0
    ensures var a := SetAudioRead(Alloc(name, c, vf, af), rd, rdArg);
            var w := SetAudioConfigCallbackAsWritten(a, cfg, cfgArg).record.sources;
            && w.audioConfigArg == 0 && w.audioConfigArg != cfgArg
            && w.audioReadArg == cfgArg && w.audioReadArg != rdArg
  {
  }

  /** The corrected setter gives the reader and the configuration callback
      each its own argument, in either registration order, and leaves the
      queues alone. */
  lemma ConfigCallbackKeptApart(a: ArchiveStream, rd: Handle, rdArg: Handle, cfg: Handle, cfgArg: Handle)
    ensures var f := SetAudioConfigCallback(SetAudioRead(a, rd, rdArg), cfg, cfgArg);
            && f == SetAudioRead(SetAudioConfigCallback(a, cfg, cfgArg), rd, rdArg)
            && f.record.sources.audioConfigArg == cfgArg && f.record.sources.audioReadArg == rdArg
            && f.video == a.video && f.audio == a.audio
  {
  }
}

=== FILE: audio_mixer.dfy ===
/** Mixing the audio of the active streams into one planar output frame.
    Output samples are reals (the source's 32-bit floats); stream samples
    are 16-bit integers. */
module AudioMixer {
  import opened MediaStream

  /** The largest 16-bit sample, the scale of a full-range sample. */
  const Int16Max: int := 32767

  /** An output buffer: `numChannels` planes of `numSamples` samples. */
  predicate Planes(out: seq<seq<real>>, numChannels: nat, numSamples: nat) {
    |out| == numChannels && forall j :: 0 <= j < |out| ==> |out[j]| == numSamples
  }

  /** Adds one scaled sample and clips a result outside [-1, 1]. */
  function MixSample(dest: real, src: int): (x: real)
    ensures -1.0 <= x <= 1.0
    ensures var sum := dest + src as real / Int16Max as real;
            (-1.0 <= sum <= 1.0 ==> x == sum) && (sum > 1.0 ==> x == 1.0) && (sum < -1.0 ==> x == -1.0)
  {
    var sum := dest + src as real / Int16Max as real;
    if sum > 1.0 || sum < -1.0 then
      if sum > 1.0 then 1.0 else -1.0
    else sum
  }

  /** One stream's samples added into every channel and index. */
  function AddStream(out: seq<seq<real>>, sample: (nat, nat) -> int, numChannels: nat, numSamples: nat): (r: seq<seq<real>>)
    requires Planes(out, numChannels, numSamples)
    ensures Planes(r, numChannels, numSamples)
    ensures forall j, k :: 0 <= j < numChannels && 0 <= k < numSamples ==> r[j][k] == MixSample(out[j][k], sample(j, k))
  {
    seq(numChannels, j requires 0 <= j < numChannels =>
      seq(numSamples, k requires 0 <= k < numSamples => MixSample(out[j][k], sample(j, k))))
  }

  /** Whether a read delivered the whole frame; only such reads are mixed. */
  predicate Contributes(read: AudioRead, numSamples: nat) {
    read.ret == numSamples
  }

  /** The loop over the active streams, in order. */
  function MixAll(out: seq<seq<real>>, streams: seq<Handle>, readers: Handle -> AudioRead,
                  numChannels: nat, numSamples: nat): (r: seq<seq<real>>)
    requires Planes(out, numChannels, numSamples)
    ensures Planes(r, numChannels, numSamples)
    decreases |streams|
  {
    if |streams| == 0 then out
    else
      var before := MixAll(out, streams[..|streams| - 1], readers, numChannels, numSamples);
      var read := readers(streams[|streams| - 1]);
      if Contributes(read, numSamples) then AddStream(before, read.sample, numChannels, numSamples)
      else before
  }

  /** `audio_mixer_get_samples_for_streams`, with each stream's read at
      the clock time given by `readers`: -1 and the output untouched when no
      stream is active, otherwise every output sample with the full reads
      mixed in, stream by stream, and the last stream's read result. */
  function GetSamplesForStreams(out: seq<seq<real>>, streams: seq<Handle>, readers: Handle -> AudioRead,
                                numChannels: nat, numSamples: nat): (r: (seq<seq<real>>, int))
    requires Planes(out, numChannels, numSamples)
    ensures |streams| == 0 ==> r == (out, -1)
    ensures |streams| > 0 ==> r.1 == readers(streams[|streams| - 1]).ret
    ensures Planes(r.0, numChannels, numSamples)
    ensures |streams| > 0 ==>
              forall j, k :: 0 <= j < numChannels && 0 <= k < numSamples ==>
                r.0[j][k] == MixInto(out[j][k], Contributions(streams, readers, numSamples, j, k))
  {
    if |streams| == 0 then (out, -1)
    else
      MixAllEverySample(out, streams, readers, numChannels, numSamples);
      (MixAll(out, streams, readers, numChannels, numSamples), readers(streams[|streams| - 1]).ret)
  }

  /** The per-sample statement for every channel and index at once. */
  lemma MixAllEverySample(out: seq<seq<real>>, streams: seq<Handle>, readers: Handle -> AudioRead,
                          numChannels: nat, numSamples: nat)
    requires Planes(out, numChannels, numSamples)
    ensures forall j, k :: 0 <= j < numChannels && 0 <= k < numSamples ==>
              MixAll(out, streams, readers, numChannels, numSamples)[j][k]
              == MixInto(out[j][k], Contributions(streams, readers, numSamples, j, k))
  {
    forall j, k | 0 <= j < numChannels && 0 <= k < numSamples
      ensures MixAll(out, streams, readers, numChannels, numSamples)[j][k]
              == MixInto(out[j][k], Contributions(streams, readers, numSamples, j, k))
    {
      MixAllBySample(out, streams, readers, numChannels, numSamples, j, k);
    }
  }

  /** Reference definition, one output sample at a time: the samples the
      contributing streams hold at channel `j`, index `k`, in stream order. */
  function Contributions(streams: seq<Handle>, readers: Handle -> AudioRead, numSamples: nat, j: nat, k: nat): seq<int>
    decreases |streams|
  {
    if |streams| == 0 then []
    else
      var read := readers(streams[|streams| - 1]);
      Contributions(streams[..|streams| - 1], readers, numSamples, j, k)
        + (if Contributes(read, numSamples) then [read.sample(j, k)] else [])
  }

  /** Mixing a sequence of samples into one output sample. */
  function MixInto(x: real, samples: seq<int>): real
    decreases |samples|
  {
    if |samples| == 0 then x else MixSample(MixInto(x, samples[..|samples| - 1]), samples[|samples| - 1])
  }

  /** Each output sample is its old value with the contributing streams'
      samples at the same channel and index mixed in, in stream order; the
      other streams add nothing. */
  lemma {:induction false} MixAllBySample(out: seq<seq<real>>, streams: seq<Handle>, readers: Handle -> AudioRead,
                                          numChannels: nat, numSamples: nat, j: nat, k: nat)
    requires Planes(out, numChannels, numSamples)
    requires j < numChannels && k < numSamples
    ensures MixAll(out, streams, readers, numChannels, numSamples)[j][k]
              == MixInto(out[j][k], Contributions(streams, readers, numSamples, j, k))
    decreases |streams|
  {
    if |streams| > 0 {
      var init := streams[..|streams| - 1];
      MixAllBySample(out, init, readers, numChannels, numSamples, j, k);
      var cs := Contributions(init, readers, numSamples, j, k);
      var read := readers(streams[|streams| - 1]);
      if Contributes(read, numSamples) {
        var all := cs + [read.sample(j, k)];
        assert all[..|all| - 1] == cs;
      } else {
        assert cs + [] == cs;
      }
    }
  }

  /** A sample no stream contributes to keeps its value; one that some
      stream contributes to ends in [-1, 1]. */
  lemma MixedSampleInRange(x: real, samples: seq<int>)
    ensures |samples| == 0 ==> MixInto(x, samples) == x
    ensures |samples| > 0 ==> -1.0 <= MixInto(x, samples) <= 1.0
  {
  }

  /** Within range, mixing is plain addition of the scaled samples. */
  lemma {:induction false} MixIntoAdds(x: real, samples: seq<int>)
    requires forall i :: 1 <= i <= |samples| ==> -1.0 <= x + ScaledSum(samples[..i]) <= 1.0
    ensures MixInto(x, samples) == x + ScaledSum(samples)
    decreases |samples|
  {
    if |samples| > 0 {
      var init := samples[..|samples| - 1];
      forall i | 1 <= i <= |init| ensures -1.0 <= x + ScaledSum(init[..i]) <= 1.0 {
        assert init[..i] == samples[..i];
      }
      MixIntoAdds(x, init);
      assert samples[..|samples|] == samples;
    }
  }

  /** The scaled samples added up without clipping. */
  function ScaledSum(samples: seq<int>): real
    decreases |samples|
  {
    if |samples| == 0 then 0.0
    else ScaledSum(samples[..|samples| - 1]) + samples[|samples| - 1] as real / Int16Max as real
  }
}

=== FILE: cli.dfy ===
/** The command line of the compositor: options as the option parser
    delivers them, folded into the archive configuration, then the
    defaults for what was not given. */
module Cli {
  import opened Common
  import opened Text

  /** One option from the parser: a recognised letter with its argument,
      or the parser's report of an unrecognised one. */
  datatype Opt = Opt(flag: char, arg: string) | Unknown(c: char)

  /** The letters of the option string. */
  predicate Known(o: Opt) {
    o.Opt? && o.flag in "iowhpcbe"
  }

  datatype Config = Config(
    inputPath: Option<string>,
    outputPath: Option<string>,
    cssPreset: Option<string>,
    cssCustom: Option<string>,
    width: int,
    height: int,
    beginOffset: int,
    endOffset: int)

  /** The values before any option: no paths or style, zero size, and -1
      for both offsets. */
  const Initial: Config := Config(None, None, None, None, 0, 0, -1, -1)

  /** One case of the option switch: text options are stored as given,
      numbers go through `atoi`. */
  function SetOption(c: Config, o: Opt): Config
    requires Known(o)
  {
    match o.flag
    case 'i' => c.(inputPath := Some(o.arg))
    case 'o' => c.(outputPath := Some(o.arg))
    case 'w' => c.(width := Atoi(o.arg))
    case 'h' => c.(height := Atoi(o.arg))
    case 'b' => c.(beginOffset := Atoi(o.arg))
    case 'e' => c.(endOffset := Atoi(o.arg))
    case 'p' => c.(cssPreset := Some(o.arg))
    case 'c' => c.(cssCustom := Some(o.arg))
  }

  /** The option loop: `None` when an unrecognised option stops it. */
  function ParseOptions(opts: seq<Opt>): Option<Config>
    decreases |opts|
  {
    if |opts| == 0 then Some(Initial)
    else
      var last := opts[|opts| - 1];
      match ParseOptions(opts[..|opts| - 1])
      case None => None
      case Some(c) => if Known(last) then Some(SetOption(c, last)) else None
  }

  /** Reference definition: the argument of the last option with letter
      `flag`. */
  function LastArg(opts: seq<Opt>, flag: char): Option<string>
    decreases |opts|
  {
    if |opts| == 0 then None
    else
      var last := opts[|opts| - 1];
      if last.Opt? && last.flag == flag then Some(last.arg)
      else LastArg(opts[..|opts| - 1], flag)
  }

  predicate Sets(o: Opt, flag: char) {
    o.Opt? && o.flag == flag
  }

  /** The reference finds an argument exactly when some option has the
      letter. */
  lemma {:induction false} LastArgFound(opts: seq<Opt>, flag: char)
    ensures LastArg(opts, flag).Some? <==> exists i :: 0 <= i < |opts| && Sets(opts[i], flag)
    decreases |opts|
  {
    if |opts| > 0 {
      var n := |opts| - 1;
      var init := opts[..n];
      if Sets(opts[n], flag) {
        assert Sets(opts[n], flag);
      } else {
        LastArgFound(init, flag);
        assert forall i :: 0 <= i < n ==> init[i] == opts[i];
      }
    }
  }

  /** The argument found is that of an option no later one overrides. */
  lemma {:induction false} LastArgIsLast(opts: seq<Opt>, flag: char)
    requires LastArg(opts, flag).Some?
    ensures exists i :: 0 <= i < |opts| && opts[i] == Opt(flag, LastArg(opts, flag).value)
                        && forall j :: i < j < |opts| ==> !Sets(opts[j], flag)
    decreases |opts|
  {
    var n := |opts| - 1;
    if !Sets(opts[n], flag) {
      var init := opts[..n];
      LastArgIsLast(init, flag);
      var i :| 0 <= i < |init| && init[i] == Opt(flag, LastArg(init, flag).value)
               && forall j :: i < j < |init| ==> !Sets(init[j], flag);
      assert opts[i] == init[i];
      assert forall j :: i < j < n ==> opts[j] == init[j];
    }
  }

  /** A number option read with `atoi`, or `otherwise` when absent. */
  function LastNumber(opts: seq<Opt>, flag: char, otherwise: int): int {
    match LastArg(opts, flag)
    case None => otherwise
    case Some(a) => Atoi(a)
  }

  /** The configuration in terms of the options alone: each field comes
      from the last option that sets it. */
  function LastWins(opts: seq<Opt>): Config {
    Config(LastArg(opts, 'i'), LastArg(opts, 'o'), LastArg(opts, 'p'), LastArg(opts, 'c'),
           LastNumber(opts, 'w', 0), LastNumber(opts, 'h', 0),
           LastNumber(opts, 'b', -1), LastNumber(opts, 'e', -1))
  }

  /** The loop stops exactly when some option is unrecognised. */
  lemma {:induction false} ParseFailsOnUnknown(opts: seq<Opt>)
    ensures ParseOptions(opts).None? <==> exists i :: 0 <= i < |opts| && !Known(opts[i])
    decreases |opts|
  {
    if |opts| > 0 {
      var init := opts[..|opts| - 1];
      ParseFailsOnUnknown(init);
      assert forall i :: 0 <= i < |init| ==> init[i] == opts[i];
      if ParseOptions(init).None? {
        var i :| 0 <= i < |init| && !Known(init[i]);
        assert !Known(opts[i]);
      }
    }
  }

  /** Without unrecognised options the last occurrence of each option
      wins. */
  lemma {:induction false} ParseIsLastWins(opts: seq<Opt>)
    requires forall i :: 0 <= i < |opts| ==> Known(opts[i])
    ensures ParseOptions(opts) == Some(LastWins(opts))
    decreases |opts|
  {
    if |opts| > 0 {
      var init := opts[..|opts| - 1];
      assert forall i :: 0 <= i < |init| ==> init[i] == opts[i];
      ParseIsLastWins(init);
      LastWinsStep(opts);
    }
  }

  /** One more recognised option changes exactly its own field. */
  lemma LastWinsStep(opts: seq<Opt>)
    requires |opts| > 0 && Known(opts[|opts| - 1])
    ensures LastWins(opts) == SetOption(LastWins(opts[..|opts| - 1]), opts[|opts| - 1])
  {
  }

  /** The defaults applied after the loop: `output.mp4`, 640 by 480. */
  function Defaults(c: Config): (d: Config)
    ensures d.outputPath.Some?
    ensures d.width != 0 && d.height != 0
    ensures c.outputPath.Some? ==> d.outputPath == c.outputPath
    ensures c.width != 0 ==> d.width == c.width
    ensures c.height != 0 ==> d.height == c.height
    ensures d.(outputPath := c.outputPath, width := c.width, height := c.height) == c
  {
    c.(outputPath := Some(c.outputPath.GetOr("output.mp4")),
       width := if c.width == 0 then 640 else c.width,
       height := if c.height == 0 then 480 else c.height)
  }

  /** The configuration part of `main`: 1 for an unrecognised option,
      before anything is opened; otherwise the configuration handed to the
      archive. */
  function Main(opts: seq<Opt>): (r: (int, Option<Config>))
    ensures r.0 == 1 || r.0 == 0
    ensures r.1.Some? <==> r.0 == 0
  {
    match ParseOptions(opts)
    case None => (1, None)
    case Some(c) => (0, Some(Defaults(c)))
  }

  /** `main` in terms of the options: it fails exactly on an unrecognised
      option; otherwise the output path defaults to `output.mp4`, a width
      or height that is absent or reads as 0 becomes 640 or 480, the
      offsets default to -1, and every field is its last occurrence. */
  lemma MainConfig(opts: seq<Opt>)
    ensures Main(opts).0 == 1 <==> exists i :: 0 <= i < |opts| && !Known(opts[i])
    ensures Main(opts).0 == 0 ==>
              var c := Main(opts).1.value;
              && c.inputPath == LastArg(opts, 'i')
              && c.outputPath == Some(LastArg(opts, 'o').GetOr("output.mp4"))
              && c.cssPreset == LastArg(opts, 'p')
              && c.cssCustom == LastArg(opts, 'c')
              && c.width == (if LastNumber(opts, 'w', 0) == 0 then 640 else LastNumber(opts, 'w', 0))
              && c.height == (if LastNumber(opts, 'h', 0) == 0 then 480 else LastNumber(opts, 'h', 0))
              && c.beginOffset == LastNumber(opts, 'b', -1)
              && c.endOffset == LastNumber(opts, 'e', -1)
  {
    ParseFailsOnUnknown(opts);
    if forall i :: 0 <= i < |opts| ==> Known(opts[i]) {
      ParseIsLastWins(opts);
    }
  }

  /** With no options at all: `output.mp4`, 640 by 480, no offsets. */
  lemma NoOptions()
    ensures Main([]) == (0, Some(Config(None, Some("output.mp4"), None, None, 640, 480, -1, -1)))
  {
  }
}

=== FILE: common.dfy ===
/** Small shared vocabulary: optional values, JavaScript string truthiness,
    duplicate-freedom and order-preserving filtering of sequences. */
module Common {

  /** An optional value: C's NULL pointer and JavaScript's `undefined`. */
  datatype Option<+T> = None | Some(value: T) {

    /** The carried value, or `default` when there is none. */
    function GetOr(default: T): T {
      match this
      case Some(v) => v
      case None => default
    }
  }

  /** JavaScript truthiness of a value that is either absent or a string:
      `undefined` and the empty string are falsy, every other string is truthy. */
  predicate Truthy(s: Option<string>) {
    s.Some? && s.value != ""
  }

  /** No element occurs twice. */
  ghost predicate NoDup<T>(s: seq<T>) {
    forall i, j :: 0 <= i < j < |s| ==> s[i] != s[j]
  }

  /** The elements of `s` that satisfy `p`, in their original order. */
  function Filter<T>(s: seq<T>, p: T -> bool): (r: seq<T>)
    ensures |r| <= |s|
    ensures forall i :: 0 <= i < |r| ==> p(r[i])
    ensures forall i :: 0 <= i < |s| && p(s[i]) ==> s[i] in r
    ensures multiset(r) <= multiset(s)
  {
    if |s| == 0 then []
    else
      assert s == [s[0]] + s[1..];
      if p(s[0]) then [s[0]] + Filter(s[1..], p)
      else Filter(s[1..], p)
  }

  /** `f` applied to each element of `s` that satisfies `p`, in order. */
  function MapFilter<A, B>(s: seq<A>, p: A -> bool, f: A -> B): (r: seq<B>)
    ensures |r| == |Filter(s, p)|
    ensures forall i :: 0 <= i < |r| ==> r[i] == f(Filter(s, p)[i])
  {
    if |s| == 0 then []
    else
      var rest := MapFilter(s[1..], p, f);
      if p(s[0]) then
        assert Filter(s, p) == [s[0]] + Filter(s[1..], p);
        [f(s[0])] + rest
      else
        assert Filter(s, p) == Filter(s[1..], p);
        rest
  }

  /** Filtering distributes over concatenation, so it keeps relative order. */
  lemma {:induction false} FilterAppend<T>(a: seq<T>, b: seq<T>, p: T -> bool)
    ensures Filter(a + b, p) == Filter(a, p) + Filter(b, p)
  {
    if |a| == 0 {
      assert a + b == b;
    } else {
      assert (a + b)[1..] == a[1..] + b;
      FilterAppend(a[1..], b, p);
    }
  }

  /** Filtering keeps every occurrence of an element that passes and none
      of one that does not. */
  lemma {:induction false} FilterCounts<T>(s: seq<T>, p: T -> bool, x: T)
    ensures multiset(Filter(s, p))[x] == if p(x) then multiset(s)[x] else 0
    decreases |s|
  {
    if |s| > 0 {
      FilterCounts(s[1..], p, x);
      assert s == [s[0]] + s[1..];
    }
  }

  /** Conversion of a C floating value to an integer: toward zero. */
  function Trunc(x: real): (r: int)
    ensures x >= 0.0 ==> r as real <= x < r as real + 1.0
    ensures x <= 0.0 ==> r as real - 1.0 < x <= r as real
  {
    if x >= 0.0 then x.Floor else -((-x).Floor)
  }
}

=== FILE: file_source.dfy ===
/** A media source backed by one file: its place on the archive's
    timeline, its decoded video queue, the media stream it serves, and the
    two read callbacks it registers on that stream. The audio decoder is
    a function from a requested sample count to what it delivers. */
module FileSource {
  import opened Common
  import opened MediaStream
  import opened FrameQueue

  /** The callbacks this source registers; any other handle is foreign. */
  const VideoReadCallback: Handle := 1
  const AudioReadCallback: Handle := 2

  datatype Source = Source(
    filename: Option<string>,
    startOffset: real,
    stopOffset: real,
    tsOffset: real,
    timeBaseDen: nat,
    video: Queue<int>,
    stream: Stream)

  /** `file_stream_is_active_at_time`. */
  predicate IsActive(s: Source, t: real) {
    s.startOffset <= t < s.stopOffset
  }

  /** `file_media_source_seek` (the video half; the audio source's seek is
      outside this model). */
  function Seek(s: Source, t: real): (r: Source)
    ensures r.tsOffset == t
    ensures r.(tsOffset := s.tsOffset) == s
  {
    s.(tsOffset := t)
  }

  /** `file_stream_get_stop_offset`. */
  function StopOffset(s: Source): real {
    s.stopOffset - s.tsOffset
  }

  /** Seeking moves the reported stop offset back by the seek time but not
      the activity window, which keeps the unshifted offsets. */
  lemma SeekShiftsStopOnly(s: Source, t: real, x: real)
    ensures StopOffset(Seek(s, t)) + t == s.stopOffset
    ensures IsActive(Seek(s, t), x) <==> IsActive(s, x)
    ensures IsActive(s, x) <==> s.startOffset <= x && x < StopOffset(s) + s.tsOffset
  {
  }

  /** `video_pts_to_global_time`. */
  function GlobalTime(den: nat, startOffset: real): int -> real
    requires den > 0
  {
    pts => pts as real / den as real + startOffset
  }

  /** `video_read_callback`: shift the request by the seek offset, then
      catch up on the video queue to the first frame not earlier than the
      shifted request. */
  method VideoRead(s: Source, t: real, dryCode: int) returns (r: Source, ret: int, frame: Option<int>)
    requires s.timeBaseDen > 0 && dryCode < 0
    ensures ret == 0 || ret == -1 || ret == dryCode
    ensures ret == 0 <==>
              exists i :: 0 <= i < |Frames(s.video)|
                && GlobalTime(s.timeBaseDen, s.startOffset)(Frames(s.video)[i]) >= t + s.tsOffset
    ensures ret == 0 ==> (frame.Some? && GlobalTime(s.timeBaseDen, s.startOffset)(frame.value) >= t + s.tsOffset
                          && r.video.fifo != [] && r.video.fifo[0] == frame.value)
    ensures ret == 0 ==>
              var k := FirstAtOrAfter(Frames(s.video), GlobalTime(s.timeBaseDen, s.startOffset), t + s.tsOffset);
              && k.Some? && frame == Some(Frames(s.video)[k.value])
              && Frames(r.video) == Frames(s.video)[k.value..]
    ensures ret != 0 ==> frame.None?
    ensures r.(video := s.video) == s
  {
    var at, target := GlobalTime(s.timeBaseDen, s.startOffset), t + s.tsOffset;
    var f := GetVideo(s.video, at, target, dryCode);
    r := s.(video := f.queue);
    ret := f.ret;
    frame := f.frame;
  }

  /** The audio callbacks of the registered sources: `audio_read_callback`
      asks the decoder of the source named by the argument for exactly the
      buffer's sample count. */
  function AudioReaders(self: Handle, decoder: nat -> AudioRead): (Handle, Handle, real, nat) -> AudioRead {
    (cb: Handle, arg: Handle, t: real, n: nat) => if cb == AudioReadCallback && arg == self then decoder(n) else AudioRead(0, (c: nat, k: nat) => 0)
  }

  datatype Opened = Opened(ret: int, source: Source)

  /** `file_media_source_open`: record the timeline and file name; a
      failing audio configuration or file open returns its code at once;
      otherwise name the stream and register both callbacks with this
      source as their argument. */
  function Open(self: Handle, filename: string, startOffset: real, stopOffset: real,
                name: Option<string>, streamClass: Option<string>,
                audioConfigRet: int, openRet: int, den: nat, videoFrames: seq<int>): (r: Opened)
    ensures r.source.startOffset == startOffset && r.source.stopOffset == stopOffset
    ensures r.source.filename == Some(filename) && r.source.tsOffset == 0.0
    ensures audioConfigRet != 0 ==> r.ret == audioConfigRet && r.source.stream == MediaStream.Alloc()
    ensures audioConfigRet == 0 && openRet < 0 ==> r.ret == openRet && r.source.stream == MediaStream.Alloc()
    ensures audioConfigRet == 0 && openRet >= 0 ==>
              && r.ret == 0
              && r.source.stream.name == name && r.source.stream.streamClass == streamClass
              && r.source.stream.sources.videoRead == VideoReadCallback && r.source.stream.sources.videoReadArg == self
              && r.source.stream.sources.audioRead == AudioReadCallback && r.source.stream.sources.audioReadArg == self
  {
    var s := Source(Some(filename), startOffset, stopOffset, 0.0, den, Queue([], videoFrames), MediaStream.Alloc());
    if audioConfigRet != 0 then Opened(audioConfigRet, s)
    else if openRet < 0 then Opened(openRet, s)
    else
      var named := SetClass(SetName(s.stream, name), streamClass);
      var wired := SetAudioRead(SetVideoRead(named, VideoReadCallback, self), AudioReadCallback, self);
      Opened(0, s.(stream := wired))
  }

  /** Once open, an audio read through the stream reaches this source's
      decoder with the buffer's sample count and returns its result. */
  lemma OpenedStreamReadsAudio(self: Handle, filename: string, startOffset: real, stopOffset: real,
                               name: Option<string>, streamClass: Option<string>, openRet: int, den: nat,
                               videoFrames: seq<int>, decoder: nat -> AudioRead,
                               numSamples: nat, out: seq<seq<int>>, t: real)
    requires openRet >= 0 && Buffers(out, 1, numSamples)
    ensures var s := Open(self, filename, startOffset, stopOffset, name, streamClass, 0, openRet, den, videoFrames).source;
            GetAudioSamples(s.stream, numSamples, 48000, 1, out, t, 0, AudioReaders(self, decoder)).ret
              == decoder(numSamples).ret
  {
  }
}

=== FILE: float32.dfy ===
/** Single-precision (IEEE 754 binary32) arithmetic on the values the audio
    code meets: every result is the exact one rounded to 24 significant bits,
    to nearest with ties to even. Overflow, subnormals, infinities and NaN do
    not arise for these values and are not represented. */
module Float32 {
  import opened Common

  /** The value `m`·2^`e`. */
  datatype Single = Single(m: int, e: int)

  /** 2^23 and 2^24: a rounded magnitude lies in [Half, Full) before scaling. */
  const Half: int := 0x80_0000
  const Full: int := 0x100_0000

  function Pow2(n: nat): (r: int)
    ensures r >= 1
  {
    if n == 0 then 1 else 2 * Pow2(n - 1)
  }

  lemma {:induction false} Pow2Sum(a: nat, b: nat)
    ensures Pow2(a + b) == Pow2(a) * Pow2(b)
  {
    if a > 0 {
      Pow2Sum(a - 1, b);
      assert Pow2(a + b) == 2 * Pow2(a - 1 + b);
    }
  }

  /** The powers of two the audio examples need. */
  lemma Pow2Table()
    ensures Pow2(8) == 0x100 && Pow2(21) == 0x20_0000 && Pow2(23) == 0x80_0000
    ensures Pow2(36) == 0x10_0000_0000
  {
    Pow2Sum(2, 2);
    Pow2Sum(4, 4);
    Pow2Sum(8, 8);
    Pow2Sum(16, 4);
    Pow2Sum(20, 1);
    Pow2Sum(21, 2);
    Pow2Sum(16, 16);
    Pow2Sum(32, 4);
  }

  /** Numerator and denominator of the value: `Value(x) == Num(x) / Den(x)`. */
  function Num(x: Single): int {
    if x.e >= 0 then x.m * Pow2(x.e) else x.m
  }

  function Den(x: Single): (r: int)
    ensures r >= 1
  {
    if x.e >= 0 then 1 else Pow2(-x.e)
  }

  function Value(x: Single): real {
    Num(x) as real / Den(x) as real
  }

  /** `p / q` rounded to the nearest integer, ties to even. */
  function RoundHalfEven(p: nat, q: int): (r: nat)
    requires q > 0
    ensures 2 * (r * q - p) <= q && 2 * (p - r * q) <= q
  {
    var f := p / q;
    var rem := p % q;
    var r := if 2 * rem < q then f
             else if 2 * rem > q then f + 1
             else if f % 2 == 0 then f
             else f + 1;
    NearestBound(p, q, f, rem, r);
    r
  }

  /** Rounding to `f` or `f + 1` on the nearer side errs by at most half. */
  lemma NearestBound(p: int, q: int, f: int, rem: int, r: int)
    requires q > 0 && p == f * q + rem && 0 <= rem < q
    requires r == f || r == f + 1
    requires r == f ==> 2 * rem <= q
    requires r == f + 1 ==> 2 * rem >= q
    ensures 2 * (r * q - p) <= q && 2 * (p - r * q) <= q
  {
    if r == f + 1 {
      assert r * q == f * q + q;
    }
  }

  /** Rounds `p / q`, which lies in (0, 2^24), after doubling it until it
      reaches 2^23; `k` counts the doublings so far. */
  function ScaleUp(p: int, q: int, k: nat): (r: Single)
    requires 0 < p < Full * q
    ensures r.m >= Half && r.e <= -(k as int)
    decreases Half * q - p
  {
    if p >= Half * q then
      var m := RoundHalfEven(p, q);
      RoundedAtLeastHalf(p, q, m);
      Single(m, -(k as int))
    else ScaleUp(2 * p, q, k + 1)
  }

  /** Rounds `p / q`, which is at least 2^23, after halving it until it
      falls below 2^24; `k` counts the halvings so far. */
  function ScaleDown(p: int, q: int, k: nat): (r: Single)
    requires 0 < q && Half * q <= p
    ensures r.m >= Half && r.e >= k
    decreases p - q
  {
    if p < Full * q then
      var m := RoundHalfEven(p, q);
      RoundedAtLeastHalf(p, q, m);
      Single(m, k)
    else
      assert Half * (2 * q) == Full * q;
      ScaleDown(p, 2 * q, k + 1)
  }

  /** A quotient of at least 2^23 rounds to at least 2^23. */
  lemma RoundedAtLeastHalf(p: int, q: int, m: int)
    requires q > 0 && Half * q <= p && 2 * (p - m * q) <= q
    ensures m >= Half
  {
    if m < Half {
      MulLe(m, Half - 1, q);
    }
  }

  lemma MulLe(a: int, b: int, c: int)
    requires a <= b && c >= 0
    ensures a * c <= b * c
  {
    assert b * c - a * c == (b - a) * c;
  }

  /** The rational `p / q` rounded to single precision. */
  function Round(p: int, q: int): (r: Single)
    requires q > 0
    ensures p > 0 <==> Num(r) > 0
    ensures p < 0 <==> Num(r) < 0
    decreases if p < 0 then 1 else 0
  {
    if p == 0 then Single(0, 0)
    else if p < 0 then
      var s := Round(-p, q);
      Single(-s.m, s.e)
    else if p >= Full * q then
      var s := ScaleDown(p, q, 0);
      PositiveProduct(s.m, Pow2(s.e));
      s
    else ScaleUp(p, q, 0)
  }

  lemma PositiveProduct(a: int, b: int)
    requires a > 0 && b > 0
    ensures a * b > 0
  {
  }

  /** `(float)n`. */
  function FromInt(n: int): (r: Single)
    ensures n != 0 <==> Num(r) != 0
  {
    Round(n, 1)
  }

  /** `a * b`. */
  function Mul(a: Single, b: Single): Single {
    Round(Num(a) * Num(b), Den(a) * Den(b))
  }

  /** `a / b`. */
  function Div(a: Single, b: Single): Single
    requires Num(b) != 0
  {
    if Num(b) > 0 then Round(Num(a) * Den(b), Den(a) * Num(b))
    else Round(-(Num(a) * Den(b)), Den(a) * -Num(b))
  }

  /** The conversion to an integer type: toward zero. */
  function ToInt(x: Single): int {
    Trunc(Value(x))
  }

  // ---------------------------------------------------------------------
  // Rounding error.
  // ---------------------------------------------------------------------

  /** The rounded value of a quotient in (0, 2^24): `p / q` is doubled `j`
      times into [2^23, 2^24) and rounded there. */
  lemma {:induction false} ScaleUpShape(p: int, q: int, k: nat)
    requires 0 < p < Full * q
    ensures var r := ScaleUp(p, q, k);
            var j := -r.e - k;
            && j >= 0
            && Half * q <= p * Pow2(j) < Full * q
            && r.m == RoundHalfEven(p * Pow2(j), q)
    decreases Half * q - p
  {
    var r := ScaleUp(p, q, k);
    if p < Half * q {
      ScaleUpShape(2 * p, q, k + 1);
      assert r == ScaleUp(2 * p, q, k + 1);
      var j := -r.e - k;
      assert j >= 1;
      DoublePow2(p, j);
    } else {
      assert p * Pow2(0) == p;
    }
  }

  lemma DoublePow2(p: int, j: nat)
    requires j >= 1
    ensures p * Pow2(j) == (2 * p) * Pow2(j - 1)
  {
    var x := Pow2(j - 1);
    assert Pow2(j) == 2 * x;
    assert p * (2 * x) == (2 * p) * x;
  }

  /** Doubling `j` times ahead of the rounding changes nothing while the
      quotient stays below 2^24. */
  lemma {:induction false} ScaleUpShift(p: int, q: int, k: nat, j: nat)
    requires 0 < p < Full * q && p * Pow2(j) < Full * q
    ensures 0 < p * Pow2(j)
    ensures ScaleUp(p, q, k) == ScaleUp(p * Pow2(j), q, k + j)
    decreases j
  {
    PositiveProduct(p, Pow2(j));
    if j > 0 {
      DoublePow2(p, j);
      MulLe(1, Pow2(j - 1), 2 * p);
      ScaleUpShift(2 * p, q, k + 1, j - 1);
    }
  }

  /** The rounding of `p / q` for a given number of doublings. */
  lemma RoundUpAt(p: int, q: int, j: nat)
    requires 0 < p < Full * q && Half * q <= p * Pow2(j) < Full * q
    ensures Round(p, q) == Single(RoundHalfEven(p * Pow2(j), q), -(j as int))
  {
    ScaleUpShift(p, q, 0, j);
  }

  /** A multiple of `q` rounds to its exact quotient. */
  lemma RoundHalfEvenExact(c: nat, q: int)
    requires q > 0
    ensures RoundHalfEven(c * q, q) == c
  {
    var r := RoundHalfEven(c * q, q);
    assert r * q - c * q == (r - c) * q;
    if r > c {
      MulLe(1, r - c, q);
    } else if r < c {
      MulLe(1, c - r, q);
    }
  }

  /** An integer quotient below 2^24 is represented exactly. */
  lemma RoundExact(p: int, q: int, n: int)
    requires q > 0 && 0 < n < Full && p == n * q
    ensures p < Full * q
    ensures Num(Round(p, q)) == n * Den(Round(p, q))
  {
    MulLe(n, Full - 1, q);
    PositiveProduct(n, q);
    ScaleUpShape(p, q, 0);
    var r := Round(p, q);
    assert r == ScaleUp(p, q, 0);
    var j: nat := -r.e;
    var c := n * Pow2(j);
    PositiveProduct(n, Pow2(j));
    Regroup(n, q, Pow2(j));
    assert r.m == RoundHalfEven(c * q, q);
    RoundHalfEvenExact(c, q);
    if j == 0 {
      assert Num(r) == r.m * 1;
    }
  }

  lemma Regroup(a: int, b: int, c: int)
    ensures (a * b) * c == (a * c) * b
  {
  }

  /** Rounding a quotient in (0, 2^24) errs by at most 2^-24 of it, stated
      with the denominators multiplied out. */
  lemma RoundRelativeError(p: int, q: int)
    requires 0 < p < Full * q
    ensures var r := Round(p, q);
            && (Num(r) * q - p * Den(r)) * Full <= p * Den(r)
            && (p * Den(r) - Num(r) * q) * Full <= p * Den(r)
  {
    ScaleUpShape(p, q, 0);
  }

  /** The same bound on the values. */
  lemma RoundRelativeErrorReal(p: int, q: int)
    requires 0 < p < Full * q
    ensures var v := Value(Round(p, q));
            var x := p as real / q as real;
            && v <= x + x / Full as real
            && x - x / Full as real <= v
  {
    var r := Round(p, q);
    RoundRelativeError(p, q);
    CrossToReal(Num(r), Den(r), p, q);
  }

  /** `(N q - p D) F <= p D` over positive denominators, divided out. */
  lemma CrossToReal(n: int, d: int, p: int, q: int)
    requires d > 0 && q > 0
    requires (n * q - p * d) * Full <= p * d && (p * d - n * q) * Full <= p * d
    ensures var v := n as real / d as real;
            var x := p as real / q as real;
            && v <= x + x / Full as real
            && x - x / Full as real <= v
  {
    var v := n as real / d as real;
    var x := p as real / q as real;
    var k := (q * d) as real;
    assert n as real == v * d as real;
    assert p as real == x * q as real;
    assert (n * q) as real == v * k;
    assert (p * d) as real == x * k;
    assert (v * k - x * k) * Full as real <= x * k;
    assert (v - x) * Full as real * k <= x * k;
    assert (x * k - v * k) * Full as real <= x * k;
    assert (x - v) * Full as real * k <= x * k;
  }

  /** An integer `n` below 2^22, divided by a positive integer `d` and
      multiplied back by it in single precision, truncates to `n` or `n - 1`:
      the two roundings together err by less than one unit, and the error
      can fall on either side of `n`. */
  lemma DivMulWithinOne(b: Single, s: Single, n: int, d: int)
    requires 0 < n < 0x40_0000 && d > 0
    requires Num(b) == n * Den(b) && Num(s) == d * Den(s)
    ensures Num(s) > 0
    ensures n - 1 <= ToInt(Mul(Div(b, s), s)) <= n
  {
    DivError(b, s, n, d);
    MulBackError(Div(b, s), s, n, d);
  }

  /** The quotient's error, scaled back by `d`. */
  lemma DivError(b: Single, s: Single, n: int, d: int)
    requires 0 < n < Full && d > 0
    requires Num(b) == n * Den(b) && Num(s) == d * Den(s)
    ensures Num(s) > 0
    ensures Num(Div(b, s)) > 0
    ensures var y := Value(Div(b, s)) * d as real;
            n as real - n as real / Full as real <= y <= n as real + n as real / Full as real
  {
    var pc := Num(b) * Den(s);
    var qc := Den(b) * Num(s);
    QuotientParts(Num(b), Den(b), Num(s), Den(s), n, d);
    assert Div(b, s) == Round(pc, qc);
    RoundRelativeErrorReal(pc, qc);
    ScaleRealBounds(Value(Div(b, s)), n as real / d as real, d);
    DivTimes(n, d);
  }

  /** The exact quotient of `n / 1` by `d / 1`, each over its own denominator. */
  lemma QuotientParts(nb: int, db: int, ns: int, ds: int, n: int, d: int)
    requires db > 0 && ds > 0 && d > 0 && 0 < n < Full
    requires nb == n * db && ns == d * ds
    ensures ns > 0
    ensures 0 < nb * ds < Full * (db * ns)
    ensures (nb * ds) as real / (db * ns) as real == n as real / d as real
  {
    PositiveProduct(d, ds);
    var x := db * ds;
    var pc := nb * ds;
    var qc := db * ns;
    assert x > 0 && pc == n * x && qc == d * x by {
      PositiveProduct(db, ds);
      Regroup(n, db, ds);
      Regroup(d, ds, db);
    }
    assert 0 < pc < Full * qc by {
      PositiveProduct(n, x);
      MulLe(n, Full * d - 1, x);
      assert (Full * d - 1) * x == Full * qc - x;
    }
    RealCancel(n, d, x);
  }

  lemma DivTimes(n: int, d: int)
    requires d > 0
    ensures (n as real / d as real) * d as real == n as real
  {
  }

  /** Multiplying back by `d` and truncating, given the quotient's error. */
  lemma MulBackError(c: Single, s: Single, n: int, d: int)
    requires 0 < n < 0x40_0000 && d > 0
    requires Num(c) > 0 && Num(s) == d * Den(s) && Num(s) > 0
    requires var y := Value(c) * d as real;
             n as real - n as real / Full as real <= y <= n as real + n as real / Full as real
    ensures n - 1 <= ToInt(Mul(c, s)) <= n
  {
    var pd := Num(c) * Num(s);
    var qd := Den(c) * Den(s);
    var y := Value(c) * d as real;
    assert 0 < pd && 0 < qd && pd as real / qd as real == y by {
      ProductParts(Num(c), Den(c), Num(s), Den(s), d);
    }
    assert Mul(c, s) == Round(pd, qd);
    RoundNearInt(pd, qd, y, n);
  }

  /** A quotient within 2^-24 of `n < 2^22` rounds and truncates to `n` or
      `n - 1`. */
  lemma RoundNearInt(p: int, q: int, y: real, n: int)
    requires 0 < p && 0 < q && p as real / q as real == y
    requires 0 < n < 0x40_0000
    requires n as real - n as real / Full as real <= y <= n as real + n as real / Full as real
    ensures p < Full * q
    ensures n - 1 <= ToInt(Round(p, q)) <= n
  {
    BelowAsInt(p, q, Full);
    RoundRelativeErrorReal(p, q);
    WithinOne(Value(Round(p, q)), y, n);
  }

  /** The exact product of `nc / dc` by `d`, written over `ds`. */
  lemma ProductParts(nc: int, dc: int, ns: int, ds: int, d: int)
    requires nc > 0 && dc > 0 && ds > 0 && d > 0 && ns == d * ds
    ensures nc * ns > 0 && dc * ds > 0
    ensures (nc * ns) as real / (dc * ds) as real == (nc as real / dc as real) * d as real
  {
    PositiveProduct(d, ds);
    PositiveProduct(nc, ns);
    PositiveProduct(dc, ds);
    RealProduct(nc, ns, dc, ds);
    assert ns as real / ds as real == d as real;
  }

  /** Two relative errors of 2^-24 around `n < 2^22` stay within one of `n`. */
  lemma WithinOne(v: real, x: real, n: int)
    requires 0 < n < 0x40_0000
    requires n as real - n as real / Full as real <= x <= n as real + n as real / Full as real
    requires v <= x + x / Full as real && x - x / Full as real <= v
    ensures n - 1 <= Trunc(v) <= n
  {
  }

  lemma RealCancel(n: int, d: int, x: int)
    requires d > 0 && x > 0
    ensures (n * x) as real / (d * x) as real == n as real / d as real
  {
    var a := n as real / d as real;
    assert n as real == a * d as real;
    assert (n * x) as real == a * (d * x) as real;
  }

  lemma RealProduct(a: int, b: int, c: int, d: int)
    requires c > 0 && d > 0
    ensures (a * b) as real / (c * d) as real == (a as real / c as real) * (b as real / d as real)
  {
    var u := a as real / c as real;
    var w := b as real / d as real;
    assert a as real == u * c as real;
    assert b as real == w * d as real;
    assert (a * b) as real == (u * w) * (c * d) as real;
  }

  /** Scaling the two-sided error bound by a positive integer. */
  lemma ScaleRealBounds(v: real, x: real, d: int)
    requires d > 0
    requires v <= x + x / Full as real && x - x / Full as real <= v
    ensures v * d as real <= x * d as real + x * d as real / Full as real
    ensures x * d as real - x * d as real / Full as real <= v * d as real
  {
  }

  lemma BelowAsInt(p: int, q: int, f: int)
    requires q > 0 && p as real / q as real < f as real
    ensures p < f * q
  {
    var x := p as real / q as real;
    assert p as real == x * q as real;
    assert x * q as real < f as real * q as real;
  }
}

=== FILE: frame_queue.dfy ===
/** The decoded-frame queue both video sources keep, and the catch-up
    read that drops frames until the front one is not earlier than the
    requested time. The decoder is a sequence of the frames it will still
    produce; once empty it keeps answering with a negative code. */
module FrameQueue {
  import opened Common

  /** Frames already decoded (`fifo`, front first) and frames the decoder
      will produce next (`pending`). */
  datatype Queue<T> = Queue(fifo: seq<T>, pending: seq<T>)

  /** Every frame still to be seen, in order. */
  function Frames<T>(q: Queue<T>): seq<T> {
    q.fifo + q.pending
  }

  /** `ensure_video_frame` / `ensure_audio_frames`: decode one more frame
      when the queue is empty; a decoder that has run dry answers with its
      code. */
  function Ensure<T>(q: Queue<T>, dryCode: int): (r: (Queue<T>, int))
    requires dryCode < 0
    ensures r.1 == 0 <==> Frames(q) != []
    ensures r.1 != 0 ==> r == (q, dryCode)
    ensures r.1 == 0 ==> r.0.fifo != [] && Frames(r.0) == Frames(q)
  {
    if q.fifo != [] then (q, 0)
    else if q.pending == [] then (q, dryCode)
    else (Queue([q.pending[0]], q.pending[1..]), 0)
  }

  /** Drops the front frame. */
  function Pop<T>(q: Queue<T>): (r: Queue<T>)
    requires q.fifo != []
    ensures Frames(q) == [q.fifo[0]] + Frames(r)
  {
    Queue(q.fifo[1..], q.pending)
  }

  /** Reference definition: the index of the first frame whose time is not
      earlier than `target`. */
  function FirstAtOrAfter<T>(s: seq<T>, at: T -> real, target: real): (k: Option<nat>)
    ensures k.Some? ==> k.value < |s| && at(s[k.value]) >= target
                        && forall i :: 0 <= i < k.value ==> at(s[i]) < target
    ensures k.None? ==> forall i :: 0 <= i < |s| ==> at(s[i]) < target
    decreases |s|
  {
    if |s| == 0 then None
    else if at(s[0]) >= target then Some(0)
    else match FirstAtOrAfter(s[1..], at, target)
      case None => None
      case Some(j) => Some(j + 1)
  }

  /** A prefix of earlier frames followed by a frame at or after the
      target: the reference picks that frame. */
  lemma CaughtUp<T>(released: seq<T>, rest: seq<T>, at: T -> real, target: real)
    requires rest != [] && at(rest[0]) >= target
    requires forall i :: 0 <= i < |released| ==> at(released[i]) < target
    ensures FirstAtOrAfter(released + rest, at, target) == Some(|released|)
    ensures (released + rest)[|released|] == rest[0]
    ensures (released + rest)[..|released|] == released && (released + rest)[|released|..] == rest
  {
    var all := released + rest;
    var k := |released|;
    assert all[k] == rest[0];
    var f := FirstAtOrAfter(all, at, target);
    assert f.Some?;
    assert forall i :: 0 <= i < k ==> all[i] == released[i];
  }

  /** When every frame is earlier than the target there is none to pick. */
  lemma NoneAtOrAfter<T>(s: seq<T>, at: T -> real, target: real)
    requires forall i :: 0 <= i < |s| ==> at(s[i]) < target
    ensures FirstAtOrAfter(s, at, target).None?
  {
  }

  /** There is a frame to pick exactly when some frame is not earlier
      than the target. */
  lemma AtOrAfterExists<T>(s: seq<T>, at: T -> real, target: real)
    ensures FirstAtOrAfter(s, at, target).Some? <==> exists i :: 0 <= i < |s| && at(s[i]) >= target
  {
    var k := FirstAtOrAfter(s, at, target);
    if k.Some? {
      assert at(s[k.value]) >= target;
    }
  }

  /** A frame more than this much earlier than the request is not shown. */
  const Stale: real := 3000.0

  /** The outcome of a catch-up read: the queue left behind, the code, the
      frame handed out, and the frames released on the way. */
  datatype Fetch<T> = Fetch(queue: Queue<T>, ret: int, frame: Option<T>, released: seq<T>)

  /** `archive_stream_get_video_for_time` and `video_read_callback`: make
      sure a frame is queued, release front frames earlier than `target`,
      and hand out the new front unless it is stale. An empty decoder at
      the start returns its code; running dry during catch-up returns -1.
      The stale case never arises: the loop stops only at a frame at or
      after `target`. */
  method GetVideo<T>(q: Queue<T>, at: T -> real, target: real, dryCode: int) returns (r: Fetch<T>)
    requires dryCode < 0
    ensures Frames(q) == [] ==> r == Fetch(q, dryCode, None, [])
    ensures Frames(q) != [] && FirstAtOrAfter(Frames(q), at, target).None? ==>
              r == Fetch(Queue([], []), -1, None, Frames(q))
    ensures FirstAtOrAfter(Frames(q), at, target).Some? ==>
              var k := FirstAtOrAfter(Frames(q), at, target).value;
              && r.ret == 0 && r.frame == Some(Frames(q)[k])
              && r.released == Frames(q)[..k]
              && r.queue.fifo != [] && r.queue.fifo[0] == Frames(q)[k]
              && Frames(r.queue) == Frames(q)[k..]
    ensures r.released + Frames(r.queue) == Frames(q)
    ensures r.ret == 0 <==> exists i :: 0 <= i < |Frames(q)| && at(Frames(q)[i]) >= target
    ensures r.ret == 0 || r.ret == -1 || r.ret == dryCode
    ensures r.ret != 0 ==> r.frame.None?
  {
    AtOrAfterExists(Frames(q), at, target);
    var (front, ret) := Ensure(q, dryCode);
    if ret != 0 {
      return Fetch(q, ret, None, []);
    }
    var released, cur, dry := CatchUp(front, at, target, dryCode);
    if dry {
      NoneAtOrAfter(released, at, target);
      return Fetch(cur, -1, None, released);
    }
    CaughtUp(released, Frames(cur), at, target);
    if target - at(cur.fifo[0]) > Stale {
      r := Fetch(cur, 1, None, released);
    } else {
      r := Fetch(cur, 0, Some(cur.fifo[0]), released);
    }
  }

  /** The catch-up loop: release the front frame while it is earlier than
      `target`, decoding more as the queue empties. */
  method CatchUp<T>(q: Queue<T>, at: T -> real, target: real, dryCode: int)
    returns (released: seq<T>, cur: Queue<T>, dry: bool)
    requires dryCode < 0 && q.fifo != []
    ensures released + Frames(cur) == Frames(q)
    ensures forall i :: 0 <= i < |released| ==> at(released[i]) < target
    ensures dry ==> cur == Queue([], [])
    ensures !dry ==> cur.fifo != [] && at(cur.fifo[0]) >= target
  {
    released := [];
    cur := q;
    while at(cur.fifo[0]) < target
      invariant cur.fifo != []
      invariant released + Frames(cur) == Frames(q)
      invariant forall i :: 0 <= i < |released| ==> at(released[i]) < target
      decreases |Frames(cur)|
    {
      released := released + [cur.fifo[0]];
      var (next, code) := Ensure(Pop(cur), dryCode);
      if code != 0 {
        return released, Queue([], []), true;
      }
      cur := next;
    }
    dry := false;
  }

  /** `archive_stream_has_video_for_time`: whether a read at `target`
      succeeds, with the queue it leaves. */
  method HasVideo<T>(q: Queue<T>, at: T -> real, target: real, dryCode: int) returns (has: bool, rest: Queue<T>)
    requires dryCode < 0
    ensures has <==> exists i :: 0 <= i < |Frames(q)| && at(Frames(q)[i]) >= target
    ensures has ==> rest.fifo != [] && at(rest.fifo[0]) >= target
  {
    var f := GetVideo(q, at, target, dryCode);
    has := f.ret == 0;
    rest := f.queue;
  }
}

=== FILE: geometry.dfy ===
/** The CSS layout of the composed frame: stream descriptions handed to the
    layout engine, the positions it produces, the listeners notified when
    the style sheet changes, the HTML document built for the engine, and the
    position map filled in while the engine draws. The engine itself (HTML
    parsing, CSS cascade and box layout) is an abstract function. */
module Geometry {
  import opened Common
  import opened Text
  import opened Sorting

  // ---------------------------------------------------------------------
  // Object fit.
  // ---------------------------------------------------------------------

  /** How a frame is fitted into its box; the numbering is shared by the
      layout's `StreamFit` and the renderer's `object_fit`. */
  datatype Fit = Contain | Cover | Fill | Unscaled | ScaleDown

  function FitCode(f: Fit): (n: nat)
    ensures n < 5
  {
    match f
    case Contain => 0
    case Cover => 1
    case Fill => 2
    case Unscaled => 3
    case ScaleDown => 4
  }

  /** The fit a code denotes; codes beyond 4 have no fit. */
  function FitOfCode(n: int): (r: Option<Fit>)
    ensures r.Some? <==> 0 <= n < 5
  {
    if n == 0 then Some(Contain)
    else if n == 1 then Some(Cover)
    else if n == 2 then Some(Fill)
    else if n == 3 then Some(Unscaled)
    else if n == 4 then Some(ScaleDown)
    else None
  }

  /** The numbering is a bijection between the five fits and 0..4. */
  lemma FitCodeRoundTrip(f: Fit, n: int)
    ensures FitOfCode(FitCode(f)) == Some(f)
    ensures 0 <= n < 5 ==> FitCode(FitOfCode(n).value) == n
  {
  }

  // ---------------------------------------------------------------------
  // Stream descriptions and positions.
  // ---------------------------------------------------------------------

  /** What the layout knows of a stream: its id, its layout class and
      whether it takes part. */
  datatype StreamInfo = StreamInfo(streamId: string, layoutClass: string, active: bool)

  /** The two-argument constructor: no layout class. */
  function NewStreamInfo(streamId: string, active: bool): (r: StreamInfo)
    ensures r.layoutClass == ""
  {
    StreamInfo(streamId, "", active)
  }

  /** The `layout_class` setter. */
  function WithLayoutClass(info: StreamInfo, layoutClass: string): (r: StreamInfo)
    ensures r.layoutClass == layoutClass
  {
    info.(layoutClass := layoutClass)
  }

  /** Setting the class of a two-argument description gives the
      three-argument one; the id and activity never change. */
  lemma LayoutClassSetter(info: StreamInfo, streamId: string, active: bool, c: string)
    ensures WithLayoutClass(NewStreamInfo(streamId, active), c) == StreamInfo(streamId, c, active)
    ensures WithLayoutClass(info, c).streamId == info.streamId
    ensures WithLayoutClass(info, c).active == info.active
    ensures WithLayoutClass(info, info.layoutClass) == info
  {
  }

  /** Where a stream is drawn. */
  datatype Position = Position(
    streamId: string,
    x: int, y: int, z: int,
    width: int, height: int,
    fit: Fit,
    radius: int,
    borderWidth: int)

  /** A default-constructed position. */
  const DefaultPosition: Position := Position("", 0, 0, 0, 0, 0, Contain, 0, 0)

  function Field(name: string, value: int): string {
    name + ": " + IntToString(value)
  }

  /** `name: value` pairs separated by `, `. */
  function JoinFields(names: seq<string>, values: seq<int>): string
    requires |names| == |values| >= 1
    decreases |names|
  {
    if |names| == 1 then Field(names[0], values[0])
    else Field(names[0], values[0]) + (", " + JoinFields(names[1..], values[1..]))
  }

  const SerialNames: seq<string> := ["x", "y", "z", "r", "border", "width", "height", "fit"]

  function SerialValues(p: Position): seq<int> {
    [p.x, p.y, p.z, p.radius, p.borderWidth, p.width, p.height, FitCode(p.fit)]
  }

  /** `serialize`: the eight numeric fields, labelled, in a fixed order. */
  function Serialize(p: Position): string {
    JoinFields(SerialNames, SerialValues(p))
  }

  /** If `a + t1 == b + t2`, neither `a` nor `b` contains a comma, and each
      of `t1`, `t2` is empty or starts with one, the split is the same. */
  lemma CommaSplit(a: string, b: string, t1: string, t2: string)
    requires ',' !in a && ',' !in b
    requires t1 == "" || t1[0] == ','
    requires t2 == "" || t2[0] == ','
    requires a + t1 == b + t2
    ensures a == b && t1 == t2
  {
    PrefixNotShorter(a, b, t1, t2);
    PrefixNotShorter(b, a, t2, t1);
    assert a == (a + t1)[..|a|] == (b + t2)[..|b|] == b;
    assert t1 == (a + t1)[|a|..] == (b + t2)[|b|..] == t2;
  }

  lemma PrefixNotShorter(a: string, b: string, t1: string, t2: string)
    requires ',' !in b
    requires t1 == "" || t1[0] == ','
    requires a + t1 == b + t2
    ensures |a| >= |b|
  {
    if t1 != "" {
      assert (a + t1)[|a|] == ',';
      assert forall k :: 0 <= k < |b| ==> (b + t2)[k] == b[k] && b[k] != ',';
    }
  }

  lemma FieldInjective(name: string, u: int, v: int)
    requires Field(name, u) == Field(name, v)
    ensures u == v
  {
    var p := name + ": ";
    assert IntToString(u) == Field(name, u)[|p|..] == Field(name, v)[|p|..] == IntToString(v);
    IntToStringInjective(u, v);
  }

  /** Labelled fields are read back uniquely: equal texts have equal
      values. */
  lemma {:induction false} JoinFieldsInjective(names: seq<string>, u: seq<int>, v: seq<int>)
    requires |names| == |u| == |v| >= 1
    requires forall i :: 0 <= i < |names| ==> ',' !in names[i]
    requires JoinFields(names, u) == JoinFields(names, v)
    ensures u == v
    decreases |names|
  {
    if |names| == 1 {
      FieldInjective(names[0], u[0], v[0]);
    } else {
      JoinFieldsHead(names, u, v);
      JoinFieldsInjective(names[1..], u[1..], v[1..]);
      assert u == [u[0]] + u[1..] && v == [v[0]] + v[1..];
    }
  }

  /** One step: equal texts agree on the first value and on the rest. */
  lemma JoinFieldsHead(names: seq<string>, u: seq<int>, v: seq<int>)
    requires |names| == |u| == |v| >= 2
    requires ',' !in names[0]
    requires JoinFields(names, u) == JoinFields(names, v)
    ensures u[0] == v[0]
    ensures JoinFields(names[1..], u[1..]) == JoinFields(names[1..], v[1..])
  {
    var a, b := Field(names[0], u[0]), Field(names[0], v[0]);
    assert ',' !in IntToString(u[0]) && ',' !in IntToString(v[0]);
    var t1, t2 := ", " + JoinFields(names[1..], u[1..]), ", " + JoinFields(names[1..], v[1..]);
    CommaSplit(a, b, t1, t2);
    FieldInjective(names[0], u[0], v[0]);
    assert JoinFields(names[1..], u[1..]) == t1[2..] == t2[2..] == JoinFields(names[1..], v[1..]);
  }

  /** Two positions with the same serialization agree on every serialized
      field: coordinates, z, radius, border, size and fit. */
  lemma SerialNamesNoComma()
    ensures forall i :: 0 <= i < |SerialNames| ==> ',' !in SerialNames[i]
  {
  }

  lemma SerializeInjective(p: Position, q: Position)
    requires Serialize(p) == Serialize(q)
    ensures SerialValues(p) == SerialValues(q)
    ensures p.fit == q.fit
  {
    SerialNamesNoComma();
    JoinFieldsInjective(SerialNames, SerialValues(p), SerialValues(q));
    assert FitCode(p.fit) == SerialValues(p)[7] == SerialValues(q)[7] == FitCode(q.fit);
    FitCodeRoundTrip(p.fit, 0);
    FitCodeRoundTrip(q.fit, 0);
  }

  // ---------------------------------------------------------------------
  // The layout and its listeners.
  // ---------------------------------------------------------------------

  /** A style sheet: one of the built-in presets, or CSS text. */
  datatype Sheet = BestFit | VerticalPresentation | HorizontalPresentation | Pip | Css(text: string)

  /** `ArchiveLayout`: the current sheet, the last layout result and the
      registered listeners (identified by address). */
  datatype ArchiveLayout = ArchiveLayout(styleSheet: Sheet, streams: seq<Position>, listeners: seq<nat>)

  const NewLayout: ArchiveLayout := ArchiveLayout(Css(""), [], [])

  /** `addListener`: registers a listener not yet present; registering one
      twice is an assertion failure (`None`). */
  function AddListener(l: ArchiveLayout, listener: nat): (r: Option<ArchiveLayout>)
    ensures r.Some? <==> listener !in l.listeners
    ensures r.Some? ==> r.value == l.(listeners := l.listeners + [listener])
  {
    if listener in l.listeners then None else Some(l.(listeners := l.listeners + [listener]))
  }

  /** `removeListener`: erases every occurrence. */
  function RemoveListener(l: ArchiveLayout, listener: nat): (r: ArchiveLayout)
    ensures listener !in r.listeners
    ensures forall i :: 0 <= i < |l.listeners| && l.listeners[i] != listener ==> l.listeners[i] in r.listeners
    ensures r.styleSheet == l.styleSheet && r.streams == l.streams
  {
    l.(listeners := Filter(l.listeners, x => x != listener))
  }

  /** `setStyleSheet`: stores the sheet and notifies the listeners, in
      registration order. */
  function SetStyleSheet(l: ArchiveLayout, sheet: Sheet): (r: (ArchiveLayout, seq<nat>))
    ensures r.0.styleSheet == sheet && r.0.listeners == l.listeners && r.0.streams == l.streams
    ensures forall x :: x in r.1 <==> x in l.listeners
  {
    (l.(styleSheet := sheet), l.listeners)
  }

  lemma {:induction false} FilterNoDup<T>(s: seq<T>, p: T -> bool)
    requires NoDup(s)
    ensures NoDup(Filter(s, p))
    decreases |s|
  {
    if |s| > 0 {
      var rest := s[1..];
      assert NoDup(rest) by {
        forall i, j | 0 <= i < j < |rest| ensures rest[i] != rest[j] {
          assert rest[i] == s[i + 1] && rest[j] == s[j + 1];
        }
      }
      FilterNoDup(rest, p);
      var fr := Filter(rest, p);
      if p(s[0]) {
        assert s[0] !in rest by {
          forall k | 0 <= k < |rest| ensures rest[k] != s[0] {
            assert rest[k] == s[k + 1];
          }
        }
        assert s[0] !in multiset(rest);
        assert s[0] !in fr;
        var r := [s[0]] + fr;
        forall i, j | 0 <= i < j < |r| ensures r[i] != r[j] {
          if i == 0 {
            assert r[j] == fr[j - 1];
          } else {
            assert r[i] == fr[i - 1] && r[j] == fr[j - 1];
          }
        }
      }
    }
  }

  /** Listener registration keeps the listeners distinct, so each listener
      is notified exactly once per sheet change; removing a listener just
      added restores the previous registrations. */
  lemma ListenersStayDistinct(l: ArchiveLayout, listener: nat, sheet: Sheet)
    requires NoDup(l.listeners)
    ensures AddListener(l, listener).Some? ==> NoDup(AddListener(l, listener).value.listeners)
    ensures NoDup(RemoveListener(l, listener).listeners)
    ensures AddListener(l, listener).Some? ==>
              RemoveListener(AddListener(l, listener).value, listener) == l
    ensures forall i, j :: 0 <= i < j < |SetStyleSheet(l, sheet).1| ==>
              SetStyleSheet(l, sheet).1[i] != SetStyleSheet(l, sheet).1[j]
  {
    FilterNoDup(l.listeners, x => x != listener);
    if listener !in l.listeners {
      var ls := l.listeners + [listener];
      forall i, j | 0 <= i < j < |ls| ensures ls[i] != ls[j] {
        if j == |l.listeners| {
          assert ls[i] == l.listeners[i];
        }
      }
      FilterAppend(l.listeners, [listener], x => x != listener);
      RemoveAbsent(l.listeners, listener);
      assert Filter([listener], x => x != listener) == [];
    }
  }

  lemma {:induction false} RemoveAbsent(s: seq<nat>, x: nat)
    requires x !in s
    ensures Filter(s, y => y != x) == s
    decreases |s|
  {
    if |s| > 0 {
      assert x !in s[1..] by {
        forall k | 0 <= k < |s[1..]| ensures s[1..][k] != x {
          assert s[1..][k] == s[k + 1];
        }
      }
      RemoveAbsent(s[1..], x);
      assert [s[0]] + s[1..] == s;
    }
  }

  /** A position the compositor draws: positive width and height. */
  predicate Visible(p: Position) {
    p.width > 0 && p.height > 0
  }

  function ZOf(p: Position): int {
    p.z
  }

  /** `layout`: clears the previous result, keeps the visible positions the
      engine produced for the current sheet (in the engine's id order), and
      sorts them by ascending z. `render` stands for the layout engine. */
  function Layout(l: ArchiveLayout, infos: seq<StreamInfo>,
                  render: (seq<StreamInfo>, Sheet) -> seq<Position>): (r: (ArchiveLayout, seq<Position>))
    ensures r.0 == l.(streams := r.1)
    ensures SortedBy(r.1, ZOf)
    ensures forall i :: 0 <= i < |r.1| ==> Visible(r.1[i])
    ensures multiset(r.1) == multiset(Filter(render(infos, l.styleSheet), Visible))
  {
    var positions := SortBy(Filter(render(infos, l.styleSheet), Visible), ZOf);
    assert forall i :: 0 <= i < |positions| ==> Visible(positions[i]) by {
      var f := Filter(render(infos, l.styleSheet), Visible);
      forall i | 0 <= i < |positions| ensures Visible(positions[i]) {
        assert positions[i] in multiset(positions);
        assert positions[i] in multiset(f);
        assert positions[i] in f;
        var k :| 0 <= k < |f| && f[k] == positions[i];
      }
    }
    (l.(streams := positions), positions)
  }

  /** The result does not depend on the previous layout result, and every
      visible position the engine produced is kept. */
  lemma LayoutKeepsVisible(l1: ArchiveLayout, l2: ArchiveLayout, infos: seq<StreamInfo>,
                           render: (seq<StreamInfo>, Sheet) -> seq<Position>, p: Position)
    requires l1.styleSheet == l2.styleSheet
    ensures Layout(l1, infos, render).1 == Layout(l2, infos, render).1
    ensures p in render(infos, l1.styleSheet) && Visible(p) ==> p in Layout(l1, infos, render).1
  {
    var f := Filter(render(infos, l1.styleSheet), Visible);
    SortByMembers(f, ZOf, p);
  }

  // ---------------------------------------------------------------------
  // The engine's input document and its drawing callbacks.
  // ---------------------------------------------------------------------

  const HtmlHeader: string := "<html><head><style>"
  const BodyHeader: string := "</style></head>"
  const HtmlFooter: string := "</html>"
  const Container: string := "archive"

  function StreamTag(info: StreamInfo): string {
    "<stream id=\"" + info.streamId + "\" " + "class=\"" + info.layoutClass + "\"></stream>"
  }

  /** The tags of every description, in order. */
  function Tags(infos: seq<StreamInfo>): string {
    if |infos| == 0 then "" else StreamTag(infos[0]) + Tags(infos[1..])
  }

  /** The tags of the active descriptions, in order. */
  function ActiveTags(infos: seq<StreamInfo>): string {
    if |infos| == 0 then ""
    else if infos[0].active then StreamTag(infos[0]) + ActiveTags(infos[1..])
    else ActiveTags(infos[1..])
  }

  predicate IsActive(info: StreamInfo) {
    info.active
  }

  /** The document `render` builds: the sheet inside `<style>`, then one
      `<stream>` element per active stream inside `<archive>`. */
  function RenderHtml(css: string, infos: seq<StreamInfo>): string {
    HtmlHeader + css + BodyOpen + ActiveTags(infos) + BodyClose
  }

  const BodyOpen: string := BodyHeader + "<" + Container + ">"
  const BodyClose: string := "</" + Container + ">" + HtmlFooter

  /** The stream elements are exactly those of the active descriptions, in
      input order; inactive descriptions contribute nothing. */
  lemma {:induction false} ActiveTagsFilter(infos: seq<StreamInfo>)
    ensures ActiveTags(infos) == Tags(Filter(infos, IsActive))
    ensures (forall i :: 0 <= i < |infos| ==> !infos[i].active) ==> ActiveTags(infos) == ""
    decreases |infos|
  {
    if |infos| > 0 {
      ActiveTagsFilter(infos[1..]);
    }
  }

  /** The document around the stream elements. */
  lemma RenderHtmlShape(css: string, infos: seq<StreamInfo>)
    ensures RenderHtml(css, infos)
         == "<html><head><style>" + css + "</style></head><archive>"
            + Tags(Filter(infos, IsActive)) + "</archive></html>"
  {
    ActiveTagsFilter(infos);
    BodyText();
  }

  lemma BodyText()
    ensures HtmlHeader == "<html><head><style>"
    ensures BodyOpen == "</style></head><archive>"
    ensures BodyClose == "</archive></html>"
  {
  }

  /** What `draw_object` learns about one drawn element. */
  datatype Draw = Draw(id: string, x: int, y: int, radius: int, width: int, height: int, fit: Fit)

  /** `draw_object`: records the element's box under its id, with z = the
      number of positions recorded before it. The right-hand side is
      evaluated before the map entry is created. */
  function DrawObject(m: map<string, Position>, d: Draw): (r: map<string, Position>)
    ensures d.id in r && r[d.id].z == |m|
    ensures forall k :: k in m && k != d.id ==> k in r && r[k] == m[k]
  {
    m[d.id := Position(d.id, d.x, d.y, |m|, d.width, d.height, d.fit, d.radius, 0)]
  }

  /** Drawing `ds` in order into an empty map. */
  function Draws(ds: seq<Draw>): map<string, Position>
    decreases |ds|
  {
    if |ds| == 0 then map[] else DrawObject(Draws(ds[..|ds| - 1]), ds[|ds| - 1])
  }

  ghost predicate DistinctIds(ds: seq<Draw>) {
    forall i, j :: 0 <= i < j < |ds| ==> ds[i].id != ds[j].id
  }

  /** When element ids are distinct, each position's z is its draw index:
      z reflects draw order. */
  lemma {:induction false} DrawOrder(ds: seq<Draw>)
    requires DistinctIds(ds)
    ensures |Draws(ds)| == |ds|
    ensures forall i :: 0 <= i < |ds| ==> ds[i].id in Draws(ds) && Draws(ds)[ds[i].id].z == i
    decreases |ds|
  {
    if |ds| > 0 {
      var init := ds[..|ds| - 1];
      var last := ds[|ds| - 1];
      assert ds == init + [last];
      DrawOrder(init);
      DrawsAbsent(init, last.id);
      DrawStep(Draws(init), init, last);
    }
  }

  lemma DrawStep(m: map<string, Position>, init: seq<Draw>, last: Draw)
    requires last.id !in m && |m| == |init|
    requires forall i :: 0 <= i < |init| ==> init[i].id in m && m[init[i].id].z == i
    ensures |DrawObject(m, last)| == |init| + 1
    ensures forall i :: 0 <= i < |init| + 1 ==>
              (init + [last])[i].id in DrawObject(m, last)
              && DrawObject(m, last)[(init + [last])[i].id].z == i
  {
    var ds := init + [last];
    forall i | 0 <= i < |init| + 1
      ensures ds[i].id in DrawObject(m, last) && DrawObject(m, last)[ds[i].id].z == i
    {
      if i < |init| {
        assert ds[i] == init[i];
      }
    }
  }

  /** An id no draw uses is not in the map. */
  lemma {:induction false} DrawsAbsent(ds: seq<Draw>, k: string)
    requires forall i :: 0 <= i < |ds| ==> ds[i].id != k
    ensures k !in Draws(ds)
    decreases |ds|
  {
    if |ds| > 0 {
      DrawsAbsent(ds[..|ds| - 1], k);
    }
  }

  /** The kind of element `create_element` builds for a tag. */
  datatype Element = StreamElement | PlainTag | NoElement

  function CreateElement(tag: string): (e: Element)
    ensures e == StreamElement <==> tag == "stream"
    ensures e == NoElement <==> tag != "stream" && tag != "broadcast" && tag != "archive"
  {
    if tag == "stream" then StreamElement
    else if tag == "broadcast" || tag == "archive" then PlainTag
    else NoElement
  }

  /** Both custom tags of the document built by `render` get an element; the
      stream tag gets the element that reports its box. */
  lemma DocumentTagsHaveElements()
    ensures CreateElement(Container) == PlainTag
    ensures CreateElement("stream") == StreamElement
  {
  }
}

=== FILE: job_helper.dfy ===
/** `parseJobArgs`: validation of an archive job request. The archive URL
    is required; the preset must come from the configured allow-list; width
    and height are taken when they are integers within the configured
    limits and fall back to the configured defaults otherwise. */
module JobHelper {
  import opened Common
  import opened Text

  /** Request fields as text, the way `value + ''` renders them; an absent
      field renders as `undefined`. */
  datatype JobRequest = JobRequest(
    archiveURL: Option<string>,
    cssPreset: Option<string>,
    width: Option<string>,
    height: Option<string>)

  /** The configuration the validator reads. */
  datatype Limits = Limits(
    cssPresets: seq<string>,
    minWidth: int, maxWidth: int, defaultWidth: int,
    minHeight: int, maxHeight: int, defaultHeight: int)

  /** The resulting job data; absent fields are `None`. */
  datatype JobArgs = JobArgs(
    archiveURL: Option<string>,
    cssPreset: Option<string>,
    width: Option<int>,
    height: Option<int>,
    error: Option<string>)

  const MissingURL: string := "Missing required parameter: archiveURL"

  /** A low control character: code below 32, or DEL. */
  predicate IsLow(c: char) {
    c < ' ' || c == '\U{7F}'
  }

  predicate NotLow(c: char) {
    !IsLow(c)
  }

  /** `validator.stripLow`: the text with every low control character
      removed, the rest in order. */
  function StripLow(s: string): (r: string)
    ensures forall i :: 0 <= i < |r| ==> !IsLow(r[i])
    ensures (forall i :: 0 <= i < |s| ==> !IsLow(s[i])) ==> r == s
  {
    if |s| == 0 then ""
    else if IsLow(s[0]) then StripLow(s[1..])
    else [s[0]] + StripLow(s[1..])
  }

  /** Stripping keeps exactly the characters that are not low, in order. */
  lemma {:induction false} StripLowIsFilter(s: string)
    ensures StripLow(s) == Filter(s, NotLow)
    decreases |s|
  {
    if |s| > 0 {
      StripLowIsFilter(s[1..]);
    }
  }

  lemma StripLowIdempotent(s: string)
    ensures StripLow(StripLow(s)) == StripLow(s)
  {
  }

  /** JavaScript text of an optional value. */
  function FieldText(v: Option<string>): string {
    v.GetOr("undefined")
  }

  /** `validator.isInt` with `min` and `max`: integer text whose value lies
      within the bounds. */
  predicate IsIntWithin(s: string, min: int, max: int) {
    IsIntText(s) && min <= IntTextValue(s) <= max
  }

  /** One dimension: the requested integer when it is within the limits,
      the default otherwise. */
  function Dimension(v: Option<string>, min: int, max: int, default: int): (d: int)
    ensures IsIntWithin(FieldText(v), min, max) ==> d == IntTextValue(FieldText(v)) && min <= d <= max
    ensures !IsIntWithin(FieldText(v), min, max) ==> d == default
  {
    var s := FieldText(v);
    if IsIntWithin(s, min, max) then IntTextValue(s) else default
  }

  /** `parseJobArgs`. `isHttpURL` stands for `validator.isURL` restricted to
      the http and https protocols. */
  function ParseJobArgs(req: JobRequest, limits: Limits, isHttpURL: string -> bool): (r: JobArgs)
    ensures !(Truthy(req.archiveURL) && isHttpURL(req.archiveURL.value)) ==>
              r == JobArgs(None, None, None, None, Some(MissingURL))
    ensures Truthy(req.archiveURL) && isHttpURL(req.archiveURL.value) ==>
              && r.error.None? && r.width.Some? && r.height.Some?
              && r.archiveURL == Some(StripLow(req.archiveURL.value))
    ensures r.cssPreset.Some? <==>
              Truthy(req.archiveURL) && isHttpURL(req.archiveURL.value)
              && Truthy(req.cssPreset) && req.cssPreset.value in limits.cssPresets
    ensures r.cssPreset.Some? ==> r.cssPreset == req.cssPreset
    ensures r.width.Some? ==>
              r.width.value == limits.defaultWidth || limits.minWidth <= r.width.value <= limits.maxWidth
    ensures r.height.Some? ==>
              r.height.value == limits.defaultHeight || limits.minHeight <= r.height.value <= limits.maxHeight
    ensures r.width.Some? && IsIntWithin(FieldText(req.width), limits.minWidth, limits.maxWidth) ==>
              r.width.value == IntTextValue(FieldText(req.width))
    ensures r.height.Some? && IsIntWithin(FieldText(req.height), limits.minHeight, limits.maxHeight) ==>
              r.height.value == IntTextValue(FieldText(req.height))
    ensures r.width.Some? && !IsIntWithin(FieldText(req.width), limits.minWidth, limits.maxWidth) ==>
              r.width.value == limits.defaultWidth
    ensures r.height.Some? && !IsIntWithin(FieldText(req.height), limits.minHeight, limits.maxHeight) ==>
              r.height.value == limits.defaultHeight
  {
    if !(Truthy(req.archiveURL) && isHttpURL(req.archiveURL.value)) then
      JobArgs(None, None, None, None, Some(MissingURL))
    else
      JobArgs(
        Some(StripLow(req.archiveURL.value)),
        if Truthy(req.cssPreset) && req.cssPreset.value in limits.cssPresets then req.cssPreset else None,
        Some(Dimension(req.width, limits.minWidth, limits.maxWidth, limits.defaultWidth)),
        Some(Dimension(req.height, limits.minHeight, limits.maxHeight, limits.defaultHeight)),
        None)
  }

  /** A width and height within the limits, sent as decimal text, come
      through unchanged. */
  lemma DimensionsRoundTrip(req: JobRequest, limits: Limits, isHttpURL: string -> bool, w: int, h: int)
    requires Truthy(req.archiveURL) && isHttpURL(req.archiveURL.value)
    requires req.width == Some(IntToString(w)) && limits.minWidth <= w <= limits.maxWidth
    requires req.height == Some(IntToString(h)) && limits.minHeight <= h <= limits.maxHeight
    ensures ParseJobArgs(req, limits, isHttpURL).width == Some(w)
    ensures ParseJobArgs(req, limits, isHttpURL).height == Some(h)
  {
    IntToStringRoundTrip(w);
    IntToStringRoundTrip(h);
  }

  /** An absent width or height takes the default. */
  lemma AbsentDimensionsDefault(req: JobRequest, limits: Limits, isHttpURL: string -> bool)
    requires Truthy(req.archiveURL) && isHttpURL(req.archiveURL.value)
    requires req.width.None? && req.height.None?
    ensures ParseJobArgs(req, limits, isHttpURL).width == Some(limits.defaultWidth)
    ensures ParseJobArgs(req, limits, isHttpURL).height == Some(limits.defaultHeight)
  {
    assert !IsIntText("undefined") by { assert !IsDigit("undefined"[0]); }
  }

  /** The bounds hold for the result once the configured defaults lie
      within them; nothing in the job helper checks that they do. */
  lemma DimensionsWithinBounds(req: JobRequest, limits: Limits, isHttpURL: string -> bool)
    requires limits.minWidth <= limits.defaultWidth <= limits.maxWidth
    requires limits.minHeight <= limits.defaultHeight <= limits.maxHeight
    ensures var r := ParseJobArgs(req, limits, isHttpURL);
            && (r.width.Some? ==> limits.minWidth <= r.width.value <= limits.maxWidth)
            && (r.height.Some? ==> limits.minHeight <= r.height.value <= limits.maxHeight)
  {
  }
}

=== FILE: json.dfy ===
/** JSON values as the manifest readers see them, and the accessors they
    use. Objects have unique keys, so they are maps. */
module Json {
  import opened Common

  datatype Json =
    | JNull
    | JBool(b: bool)
    | JInt(i: int)
    | JReal(r: real)
    | JString(s: string)
    | JArray(items: seq<Json>)
    | JObject(fields: map<string, Json>)

  /** `json_object_get`: the member under `key`, absent when `j` is not an
      object or has no such key. */
  function Member(j: Json, key: string): (r: Option<Json>)
    ensures r.Some? <==> j.JObject? && key in j.fields
  {
    if j.JObject? && key in j.fields then Some(j.fields[key]) else None
  }

  /** `json_is_string` on a possibly absent value. */
  predicate IsString(v: Option<Json>) {
    v.Some? && v.value.JString?
  }

  /** `json_is_integer` on a possibly absent value. */
  predicate IsInteger(v: Option<Json>) {
    v.Some? && v.value.JInt?
  }

  /** `json_is_array` on a possibly absent value. */
  predicate IsArray(v: Option<Json>) {
    v.Some? && v.value.JArray?
  }

  /** The string under `key`, or `otherwise` when absent or not a string. */
  function StringOr(j: Json, key: string, otherwise: string): (r: string)
    ensures IsString(Member(j, key)) ==> r == Member(j, key).value.s
    ensures !IsString(Member(j, key)) ==> r == otherwise
  {
    var v := Member(j, key);
    if IsString(v) then v.value.s else otherwise
  }
}

=== FILE: manifest.dfy ===
/** The archive manifest: the list of recorded files, each with its file
    name, its place on the archive timeline, its stream id, its video type
    and its layout class. */
module Manifest {
  import opened Common
  import opened Json

  /** The fields both manifest readers take from one `files` entry, after
      the defaults and the screen-share rule. Offsets are milliseconds. */
  datatype Entry = Entry(
    filename: string,
    startMs: int,
    stopMs: int,
    streamId: string,
    streamClass: string,
    videoType: string)

  /** The screen-share rule: a `screen` stream without a layout class gets
      the class `focus`. */
  function ScreenFocus(streamClass: string, videoType: string): (c: string)
    ensures c == "focus" <==> streamClass == "focus" || (videoType == "screen" && streamClass == "")
    ensures c != streamClass ==> streamClass == "" && videoType == "screen"
  {
    if videoType == "screen" && streamClass == "" then "focus" else streamClass
  }

  /** An entry both readers accept: string `filename`, integer
      `startTimeOffset` and `stopTimeOffset`, string `streamId`. */
  predicate WellFormed(j: Json) {
    && IsString(Member(j, "filename"))
    && IsInteger(Member(j, "startTimeOffset"))
    && IsInteger(Member(j, "stopTimeOffset"))
    && IsString(Member(j, "streamId"))
  }

  /** The field checks of `parse_file` and `open_manifest_item`. Each failed
      check returns at once, so only the first failure is reported; every
      failure gives the same code. */
  function ReadEntry(j: Json): (r: Option<Entry>)
    ensures r.Some? <==> WellFormed(j)
  {
    var filename := Member(j, "filename");
    if !IsString(filename) then None
    else
      var start := Member(j, "startTimeOffset");
      if !IsInteger(start) then None
      else
        var stop := Member(j, "stopTimeOffset");
        if !IsInteger(stop) then None
        else
          var streamId := Member(j, "streamId");
          if !IsString(streamId) then None
          else
            var c := StringOr(j, "layoutClass", "");
            var v := StringOr(j, "videoType", "");
            Some(Entry(filename.value.s, start.value.i, stop.value.i, streamId.value.s, ScreenFocus(c, v), v))
  }

  /** The manifest entry a recorder writes for one stream; the layout
      class and video type are optional. */
  function ItemJson(filename: string, startMs: int, stopMs: int, streamId: string,
                    layoutClass: Option<string>, videoType: Option<string>): Json {
    JObject(map["filename" := JString(filename), "startTimeOffset" := JInt(startMs),
                "stopTimeOffset" := JInt(stopMs), "streamId" := JString(streamId)]
            + (if layoutClass.Some? then map["layoutClass" := JString(layoutClass.value)] else map[])
            + (if videoType.Some? then map["videoType" := JString(videoType.value)] else map[]))
  }

  /** Reading a written entry gives back its fields, with the absent
      class and video type defaulting to the empty string before the
      screen-share rule. */
  lemma ReadEntryOfItem(filename: string, startMs: int, stopMs: int, streamId: string,
                        layoutClass: Option<string>, videoType: Option<string>)
    ensures var c := layoutClass.GetOr("");
            var v := videoType.GetOr("");
            ReadEntry(ItemJson(filename, startMs, stopMs, streamId, layoutClass, videoType))
              == Some(Entry(filename, startMs, stopMs, streamId, ScreenFocus(c, v), v))
  {
    var j := ItemJson(filename, startMs, stopMs, streamId, layoutClass, videoType);
    assert Member(j, "filename") == Some(JString(filename));
    assert Member(j, "startTimeOffset") == Some(JInt(startMs));
    assert Member(j, "stopTimeOffset") == Some(JInt(stopMs));
    assert Member(j, "streamId") == Some(JString(streamId));
  }

  /** A parsed file; offsets in seconds. */
  datatype ManifestFile = ManifestFile(
    filename: string,
    startTime: real,
    stopTime: real,
    streamId: string,
    videoType: string,
    streamClass: string)

  /** Milliseconds to seconds. */
  function Seconds(ms: int): real {
    ms as real / 1000.0
  }

  function FileOf(e: Entry): ManifestFile {
    ManifestFile(e.filename, Seconds(e.startMs), Seconds(e.stopMs), e.streamId, e.videoType, e.streamClass)
  }

  /** `parse_file`: -1 for an entry that is not well formed, otherwise 0
      and the file. */
  function ParseFile(j: Json): (r: (int, Option<ManifestFile>))
    ensures r.0 == -1 <==> !WellFormed(j)
    ensures r.0 == 0 <==> r.1.Some?
    ensures r.0 == -1 || r.0 == 0
  {
    match ReadEntry(j)
    case None => (-1, None)
    case Some(e) => (0, Some(FileOf(e)))
  }

  /** The loop of `archive_manifest_parse` over `files`. */
  function ParseAll(items: seq<Json>): (r: seq<ManifestFile>)
    ensures |r| <= |items|
    decreases |items|
  {
    if |items| == 0 then []
    else
      var rest := ParseAll(items[1..]);
      var f := ParseFile(items[0]).1;
      if f.Some? then [f.value] + rest else rest
  }

  /** Parsing keeps the entries' order: the files of a concatenation are
      the files of each part in turn. */
  lemma {:induction false} ParseAllAppend(a: seq<Json>, b: seq<Json>)
    ensures ParseAll(a + b) == ParseAll(a) + ParseAll(b)
    decreases |a|
  {
    if |a| > 0 {
      assert (a + b)[0] == a[0] && (a + b)[1..] == a[1..] + b;
      ParseAllAppend(a[1..], b);
    } else {
      assert a + b == b;
    }
  }

  /** One file per well-formed entry. */
  lemma {:induction false} ParseAllCount(items: seq<Json>)
    ensures |ParseAll(items)| == |Filter(items, WellFormed)|
    decreases |items|
  {
    if |items| > 0 {
      ParseAllCount(items[1..]);
    }
  }

  datatype Manifest = Manifest(files: seq<ManifestFile>)

  const EmptyManifest: Manifest := Manifest([])

  /** `archive_manifest_parse` with the file already loaded (`None` when
      loading failed, a missing file included): 1 without a `files` array,
      otherwise 0 with each valid entry appended in order. */
  function ManifestParse(m: Manifest, loaded: Option<Json>): (r: (Manifest, int))
    ensures loaded.None? ==> r == (m, 1)
    ensures loaded.Some? && !IsArray(Member(loaded.value, "files")) ==> r == (m, 1)
    ensures loaded.Some? && IsArray(Member(loaded.value, "files")) ==> r.1 == 0
    ensures r.1 == 0 ==> r.0.files == m.files + ParseAll(Member(loaded.value, "files").value.items)
    ensures r.1 == 0 || r.1 == 1
  {
    if loaded.None? then (m, 1)
    else
      var files := Member(loaded.value, "files");
      if !IsArray(files) then (m, 1)
      else (Manifest(m.files + ParseAll(files.value.items)), 0)
  }

  /** `archive_manifest_files_walk`: each stored file once, in order; the
      result is the count. */
  function FilesWalk(m: Manifest): (r: (seq<ManifestFile>, int))
  {
    (m.files, |m.files|)
  }

  /** `archive_manifest_events_walk`: layout events are not read; nothing
      is visited and the result is 0. */
  function EventsWalk(m: Manifest): (r: (seq<ManifestFile>, int))
    ensures r.0 == [] && r.1 == 0
  {
    ([], 0)
  }

  /** Parsing a loaded manifest into an empty one and walking it visits
      one file per well-formed entry, in manifest order. */
  lemma WalkCountsWellFormed(items: seq<Json>, top: map<string, Json>)
    requires "files" in top && top["files"] == JArray(items)
    ensures var (m, ret) := ManifestParse(EmptyManifest, Some(JObject(top)));
            && ret == 0
            && FilesWalk(m).0 == ParseAll(items)
            && FilesWalk(m).1 == |Filter(items, WellFormed)|
  {
    ParseAllCount(items);
  }
}

=== FILE: media_stream.dfy ===
/** The media stream record: the reader and configuration callbacks of one
    input, its name and class, and where the layout last placed it. Callback
    and argument pointers are opaque handles (0 is NULL); what a callback
    does is given by a dispatch table from handles to behaviour. */
module MediaStream {
  import opened Common
  import opened Geometry

  /** An opaque pointer; 0 stands for NULL. */
  type Handle = nat

  /** The four callbacks and the argument registered with each. */
  datatype Sources = Sources(
    audioRead: Handle, audioReadArg: Handle,
    videoRead: Handle, videoReadArg: Handle,
    audioConfig: Handle, audioConfigArg: Handle,
    videoConfig: Handle, videoConfigArg: Handle)

  /** The placement fields the mixer writes after each layout. */
  datatype Placement = Placement(x: int, y: int, z: int, width: int, height: int, fit: Fit)

  datatype Stream = Stream(
    sources: Sources,
    name: Option<string>,
    streamClass: Option<string>,
    sourceWidth: int,
    sourceHeight: int,
    placement: Placement)

  const NoSources: Sources := Sources(0, 0, 0, 0, 0, 0, 0, 0)
  const ZeroPlacement: Placement := Placement(0, 0, 0, 0, 0, Contain)

  /** `media_stream_alloc`: a zero-filled record; the zero `object_fit` is
      `contain`. */
  function Alloc(): (s: Stream)
    ensures s.sources == NoSources && s.name.None? && s.streamClass.None?
    ensures s.placement.z == 0 && s.placement.fit == Contain && FitCode(s.placement.fit) == 0
  {
    Stream(NoSources, None, None, 0, 0, ZeroPlacement)
  }

  // ---------------------------------------------------------------------
  // Placement fields.
  // ---------------------------------------------------------------------

  /** The integer placement fields with a getter/setter pair each. */
  datatype Field = OffsetX | OffsetY | ZIndex | RenderWidth | RenderHeight

  function Get(p: Placement, f: Field): int {
    match f
    case OffsetX => p.x
    case OffsetY => p.y
    case ZIndex => p.z
    case RenderWidth => p.width
    case RenderHeight => p.height
  }

  function Set(p: Placement, f: Field, v: int): Placement {
    match f
    case OffsetX => p.(x := v)
    case OffsetY => p.(y := v)
    case ZIndex => p.(z := v)
    case RenderWidth => p.(width := v)
    case RenderHeight => p.(height := v)
  }

  /** The five `archive_stream_set_*` setters on the record. */
  function SetField(s: Stream, f: Field, v: int): Stream {
    s.(placement := Set(s.placement, f, v))
  }

  /** `archive_stream_set_object_fit`. */
  function SetObjectFit(s: Stream, fit: Fit): Stream {
    s.(placement := s.placement.(fit := fit))
  }

  /** Each setter reads back through its getter and leaves every other
      field, the fit, the callbacks, the name and the class unchanged;
      setting a field to the value it has changes nothing. */
  lemma SetFieldReadsBack(s: Stream, f: Field, v: int)
    ensures Get(SetField(s, f, v).placement, f) == v
    ensures forall g :: g != f ==> Get(SetField(s, f, v).placement, g) == Get(s.placement, g)
    ensures SetField(s, f, v).placement.fit == s.placement.fit
    ensures SetField(s, f, v).(placement := s.placement) == s
    ensures SetField(s, f, Get(s.placement, f)) == s
  {
  }

  /** The fit setter reads back and keeps every integer field. */
  lemma SetObjectFitReadsBack(s: Stream, fit: Fit)
    ensures SetObjectFit(s, fit).placement.fit == fit
    ensures forall g :: Get(SetObjectFit(s, fit).placement, g) == Get(s.placement, g)
    ensures SetObjectFit(s, fit).(placement := s.placement) == s
  {
  }

  /** Two setters on different fields commute. */
  lemma SettersCommute(s: Stream, f: Field, v: int, g: Field, w: int)
    requires f != g
    ensures SetField(SetField(s, f, v), g, w) == SetField(SetField(s, g, w), f, v)
  {
  }

  /** `media_stream_set_name` and `media_stream_set_class`. */
  function SetName(s: Stream, name: Option<string>): Stream {
    s.(name := name)
  }

  function SetClass(s: Stream, c: Option<string>): Stream {
    s.(streamClass := c)
  }

  lemma NameAndClassReadBack(s: Stream, name: Option<string>, c: Option<string>)
    ensures SetName(s, name).name == name && SetName(s, name).streamClass == s.streamClass
    ensures SetClass(s, c).streamClass == c && SetClass(s, c).name == s.name
    ensures SetName(s, name).(name := s.name) == s && SetClass(s, c).(streamClass := s.streamClass) == s
  {
  }

  // ---------------------------------------------------------------------
  // Callback registration.
  // ---------------------------------------------------------------------

  function SetVideoRead(s: Stream, cb: Handle, arg: Handle): Stream {
    s.(sources := s.sources.(videoRead := cb, videoReadArg := arg))
  }

  function SetAudioRead(s: Stream, cb: Handle, arg: Handle): Stream {
    s.(sources := s.sources.(audioRead := cb, audioReadArg := arg))
  }

  function SetVideoConfigCallback(s: Stream, cb: Handle, arg: Handle): Stream {
    s.(sources := s.sources.(videoConfig := cb, videoConfigArg := arg))
  }

  /** `media_stream_set_audio_config_callback` as written: the argument is
      stored as the audio READ argument. */
  function SetAudioConfigCallbackAsWritten(s: Stream, cb: Handle, arg: Handle): Stream {
    s.(sources := s.sources.(audioConfig := cb, audioReadArg := arg))
  }

  /** The setter as its name and its three siblings intend. */
  function SetAudioConfigCallback(s: Stream, cb: Handle, arg: Handle): Stream {
    s.(sources := s.sources.(audioConfig := cb, audioConfigArg := arg))
  }

  /** Each corrected setter stores exactly its own callback and argument. */
  lemma CallbackSettersOwnSlots(s: Stream, cb: Handle, arg: Handle)
    ensures var t := SetAudioConfigCallback(s, cb, arg).sources;
            t.audioConfig == cb && t.audioConfigArg == arg
            && t.(audioConfig := s.sources.audioConfig, audioConfigArg := s.sources.audioConfigArg) == s.sources
    ensures var t := SetVideoConfigCallback(s, cb, arg).sources;
            t.videoConfig == cb && t.videoConfigArg == arg
            && t.(videoConfig := s.sources.videoConfig, videoConfigArg := s.sources.videoConfigArg) == s.sources
    ensures var t := SetAudioRead(s, cb, arg).sources;
            t.audioRead == cb && t.audioReadArg == arg
            && t.(audioRead := s.sources.audioRead, audioReadArg := s.sources.audioReadArg) == s.sources
    ensures var t := SetVideoRead(s, cb, arg).sources;
            t.videoRead == cb && t.videoReadArg == arg
            && t.(videoRead := s.sources.videoRead, videoReadArg := s.sources.videoReadArg) == s.sources
  {
  }

  // ---------------------------------------------------------------------
  // Reading through the callbacks.
  // ---------------------------------------------------------------------

  /** What a video reader hands back: its code and, possibly, a frame. */
  datatype VideoRead = VideoRead(ret: int, frame: Option<nat>)

  /** What an audio reader hands back for a buffer of a given number of
      samples: its code and the samples it wrote, by channel and index. */
  datatype AudioRead = AudioRead(ret: int, sample: (nat, nat) -> int)

  /** `archive_stream_get_video_for_time`: calls the registered video
      reader with its registered argument and returns what it returns. */
  function VideoForTime(s: Stream, t: real, readers: (Handle, Handle, real) -> VideoRead): (r: VideoRead)
  {
    readers(s.sources.videoRead, s.sources.videoReadArg, t)
  }

  /** The video reader registered last is the one that answers, with the
      argument registered alongside it. */
  lemma VideoReadDispatch(s: Stream, cb: Handle, arg: Handle, t: real,
                          readers: (Handle, Handle, real) -> VideoRead)
    ensures VideoForTime(SetVideoRead(s, cb, arg), t, readers) == readers(cb, arg, t)
    ensures forall f, v :: VideoForTime(SetField(s, f, v), t, readers) == VideoForTime(s, t, readers)
  {
  }

  /** The caller's sample buffers after a read: `numSamples` samples per
      channel, or untouched. */
  datatype AudioResult = AudioResult(ret: int, out: seq<seq<int>>)

  /** Channel buffers with room for `numSamples` samples each. */
  predicate Buffers(out: seq<seq<int>>, numChannels: nat, numSamples: nat) {
    |out| >= numChannels && forall c :: 0 <= c < numChannels ==> |out[c]| >= numSamples
  }

  /** Overwrites the first `numSamples` entries of each of the first
      `numChannels` buffers with what the reader wrote. */
  function CopySamples(out: seq<seq<int>>, sample: (nat, nat) -> int, numChannels: nat, numSamples: nat): (r: seq<seq<int>>)
    requires Buffers(out, numChannels, numSamples)
    ensures |r| == |out|
    ensures forall c :: 0 <= c < |r| ==> |r[c]| == |out[c]|
    ensures forall c, k :: 0 <= c < numChannels && 0 <= k < numSamples ==> r[c][k] == sample(c, k)
    ensures forall c, k :: 0 <= c < numChannels && numSamples <= k < |out[c]| ==> r[c][k] == out[c][k]
    ensures forall c :: numChannels <= c < |out| ==> r[c] == out[c]
  {
    seq(|out|, c requires 0 <= c < |out| =>
      if c < numChannels then seq(numSamples, k requires 0 <= k < numSamples => sample(c, k)) + out[c][numSamples..] else out[c])
  }

  /** `archive_stream_get_audio_samples`: a failed buffer allocation
      returns its code; otherwise the registered audio reader fills the
      buffer, and only a non-zero reader result copies the samples out. */
  function GetAudioSamples(s: Stream, numSamples: nat, sampleRate: nat, numChannels: nat,
                           out: seq<seq<int>>, t: real, bufferRet: int,
                           readers: (Handle, Handle, real, nat) -> AudioRead): (r: AudioResult)
    requires sampleRate == 48000
    requires Buffers(out, numChannels, numSamples)
    ensures bufferRet != 0 ==> r == AudioResult(bufferRet, out)
    ensures bufferRet == 0 ==> r.ret == readers(s.sources.audioRead, s.sources.audioReadArg, t, numSamples).ret
    ensures Buffers(r.out, numChannels, numSamples) && |r.out| == |out|
    ensures r.ret == 0 ==> r.out == out
    ensures r.ret != 0 && bufferRet == 0 ==>
              forall c, k :: 0 <= c < numChannels && 0 <= k < numSamples ==>
                r.out[c][k] == readers(s.sources.audioRead, s.sources.audioReadArg, t, numSamples).sample(c, k)
  {
    if bufferRet != 0 then AudioResult(bufferRet, out)
    else
      var read := readers(s.sources.audioRead, s.sources.audioReadArg, t, numSamples);
      if read.ret == 0 then AudioResult(0, out)
      else AudioResult(read.ret, CopySamples(out, read.sample, numChannels, numSamples))
  }

  /** With the setter as written, registering a configuration callback
      after the audio reader redirects every later audio read to the
      configuration argument. */
  lemma AsWrittenConfigArgReachesAudioReader(s: Stream, rd: Handle, rdArg: Handle, cfg: Handle, cfgArg: Handle,
                                             numSamples: nat, out: seq<seq<int>>, t: real,
                                             readers: (Handle, Handle, real, nat) -> AudioRead)
    requires Buffers(out, 1, numSamples)
    ensures var s2 := SetAudioConfigCallbackAsWritten(SetAudioRead(s, rd, rdArg), cfg, cfgArg);
            && s2.sources.audioReadArg == cfgArg
            && s2.sources.audioConfigArg == s.sources.audioConfigArg
            && GetAudioSamples(s2, numSamples, 48000, 1, out, t, 0, readers).ret == readers(rd, cfgArg, t, numSamples).ret
  {
  }

  /** With the corrected setter the audio reader keeps its own argument,
      whatever order the two registrations come in. */
  lemma ConfigArgKeptApart(s: Stream, rd: Handle, rdArg: Handle, cfg: Handle, cfgArg: Handle,
                           numSamples: nat, out: seq<seq<int>>, t: real,
                           readers: (Handle, Handle, real, nat) -> AudioRead)
    requires Buffers(out, 1, numSamples)
    ensures var s2 := SetAudioConfigCallback(SetAudioRead(s, rd, rdArg), cfg, cfgArg);
            && s2 == SetAudioRead(SetAudioConfigCallback(s, cfg, cfgArg), rd, rdArg)
            && s2.sources.audioReadArg == rdArg && s2.sources.audioConfigArg == cfgArg
            && GetAudioSamples(s2, numSamples, 48000, 1, out, t, 0, readers).ret == readers(rd, rdArg, t, numSamples).ret
  {
  }
}

=== FILE: object_fit.dfy ===
/** Placing one decoded frame into its box on the output canvas, following
    the CSS `object-fit` rules: the scale factor, the scaled size, the crop
    offsets, and the image operations applied in order. Pixel work is left
    to the image library; only the sizes and the decisions are modelled.
    Single-precision arithmetic is modelled with reals. */
module ObjectFit {
  import opened Common
  import opened Geometry

  function Min(a: real, b: real): real {
    if a <= b then a else b
  }

  function Max(a: real, b: real): real {
    if a >= b then a else b
  }

  /** Whether the image is rescaled keeping its aspect ratio, the size it
      is scaled to, and the offset of the box inside the scaled image. */
  datatype Scaling = Scaling(rescale: bool, width: real, height: real, offsetX: real, offsetY: real)

  /** The scale computation of `magic_frame_add`: `fill` stretches to the
      box; `contain` and `scale-down` take the smaller of the two axis
      factors; `cover` and `none` take the larger. */
  function Scale(inWidth: nat, inHeight: nat, outWidth: nat, outHeight: nat, fit: Fit): Scaling
    requires inWidth > 0 && inHeight > 0
  {
    var wFactor := outWidth as real / inWidth as real;
    var hFactor := outHeight as real / inHeight as real;
    if fit == Fill then Scaling(false, outWidth as real, outHeight as real, 0.0, 0.0)
    else
      var factor := if fit == ScaleDown || fit == Contain then Min(wFactor, hFactor) else Max(wFactor, hFactor);
      var w := inWidth as real * factor;
      var h := inHeight as real * factor;
      Scaling(true, w, h, (w - outWidth as real) / 2.0, (h - outHeight as real) / 2.0)
  }

  /** Scaling by the width factor fills the box's width exactly and scales
      the height in proportion. */
  lemma ByWidthFactor(inWidth: nat, inHeight: nat, outWidth: nat, outHeight: nat)
    requires inWidth > 0 && inHeight > 0
    ensures var f := outWidth as real / inWidth as real;
            && inWidth as real * f == outWidth as real
            && (f <= outHeight as real / inHeight as real <==> inHeight as real * f <= outHeight as real)
  {
    var f := outWidth as real / inWidth as real;
    var g := outHeight as real / inHeight as real;
    assert inHeight as real * g == outHeight as real;
    if f <= g {
      assert inHeight as real * f <= inHeight as real * g;
    } else {
      assert inHeight as real * f > inHeight as real * g;
    }
  }

  /** The sizes the code computes. `fill` takes the box as it is; every
      other fit keeps the frame's aspect ratio and centres the box on the
      scaled image; `contain` and `scale-down` fit inside the box touching
      it on one axis; `cover` and `none` cover the box touching it on one
      axis. Unlike CSS, the code scales `none` like `cover` and
      `scale-down` like `contain`. */
  lemma ScaleFits(inWidth: nat, inHeight: nat, outWidth: nat, outHeight: nat, fit: Fit)
    requires inWidth > 0 && inHeight > 0
    ensures var s := Scale(inWidth, inHeight, outWidth, outHeight, fit);
            && (s.rescale <==> fit != Fill)
            && (!s.rescale ==> s.width == outWidth as real && s.height == outHeight as real
                               && s.offsetX == 0.0 && s.offsetY == 0.0)
            && (s.rescale ==> s.width * inHeight as real == s.height * inWidth as real)
            && (s.rescale ==> s.offsetX + outWidth as real + s.offsetX == s.width
                              && s.offsetY + outHeight as real + s.offsetY == s.height)
            && (fit == Contain || fit == ScaleDown ==>
                  && s.width <= outWidth as real && s.height <= outHeight as real
                  && (s.width == outWidth as real || s.height == outHeight as real))
            && (fit == Cover || fit == Unscaled ==>
                  && s.width >= outWidth as real && s.height >= outHeight as real
                  && (s.width == outWidth as real || s.height == outHeight as real))
  {
    ByWidthFactor(inWidth, inHeight, outWidth, outHeight);
    ByWidthFactor(inHeight, inWidth, outHeight, outWidth);
  }

  /** The border drawn around a placed frame. */
  datatype Border = Border(radius: int, width: int, red: int, green: int, blue: int)

  /** The image operations, in the order they are applied. Sizes and
      offsets handed to the image library are integers, cut toward zero. */
  datatype Step =
    | Resize(width: int, height: int)
    | Extent(width: int, height: int, x: int, y: int)
    | RoundCorners(radius: int, width: int, height: int)
    | Stroke(strokeWidth: int, width: int, height: int, red: int, green: int, blue: int)
    | Composite(x: int, y: int)

  /** An operation applied only when `on`. */
  function When(on: bool, step: Step): (r: seq<Step>)
    ensures on ==> r == [step]
    ensures !on ==> r == []
  {
    if on then [step] else []
  }

  /** `magic_frame_add`: resize, crop to the box unless the fit is `fill`,
      round the corners when the radius is positive, stroke the border when
      its width is positive, then composite at the box's position. */
  function MagicFrameAdd(inWidth: nat, inHeight: nat, x: nat, y: nat, border: Border,
                         outWidth: nat, outHeight: nat, fit: Fit): (steps: seq<Step>)
    requires inWidth > 0 && inHeight > 0
    ensures var s := Scale(inWidth, inHeight, outWidth, outHeight, fit);
            && |steps| >= 2
            && steps[0] == Resize(Trunc(s.width), Trunc(s.height))
            && steps[|steps| - 1] == Composite(x, y)
            && ((exists i :: 0 <= i < |steps| && steps[i].Extent?) <==> fit != Fill)
            && ((exists i :: 0 <= i < |steps| && steps[i].RoundCorners?) <==> border.radius > 0)
            && ((exists i :: 0 <= i < |steps| && steps[i].Stroke?) <==> border.width > 0)
  {
    var s := Scale(inWidth, inHeight, outWidth, outHeight, fit);
    var crop := When(s.rescale, Extent(outWidth, outHeight, Trunc(s.offsetX), Trunc(s.offsetY)));
    var round := When(border.radius > 0, RoundCorners(border.radius, outWidth, outHeight));
    var stroke := When(border.width > 0, Stroke(border.width, outWidth, outHeight, border.red, border.green, border.blue));
    StepKinds(Resize(Trunc(s.width), Trunc(s.height)), crop, round, stroke, Composite(x, y));
    ScaleFits(inWidth, inHeight, outWidth, outHeight, fit);
    [Resize(Trunc(s.width), Trunc(s.height))] + crop + round + stroke + [Composite(x, y)]
  }

  /** Where each kind of operation can sit in the sequence. */
  lemma StepKinds(first: Step, crop: seq<Step>, round: seq<Step>, stroke: seq<Step>, last: Step)
    requires first.Resize? && last.Composite?
    requires |crop| <= 1 && |round| <= 1 && |stroke| <= 1
    requires forall i :: 0 <= i < |crop| ==> crop[i].Extent?
    requires forall i :: 0 <= i < |round| ==> round[i].RoundCorners?
    requires forall i :: 0 <= i < |stroke| ==> stroke[i].Stroke?
    ensures var steps := [first] + crop + round + stroke + [last];
            && ((exists i :: 0 <= i < |steps| && steps[i].Extent?) <==> |crop| == 1)
            && ((exists i :: 0 <= i < |steps| && steps[i].RoundCorners?) <==> |round| == 1)
            && ((exists i :: 0 <= i < |steps| && steps[i].Stroke?) <==> |stroke| == 1)
  {
    var steps := [first] + crop + round + stroke + [last];
    var a := 1 + |crop|;
    var b := a + |round|;
    forall i | 0 <= i < |steps|
      ensures steps[i].Extent? ==> i == 1 && |crop| == 1
      ensures steps[i].RoundCorners? ==> i == a && |round| == 1
      ensures steps[i].Stroke? ==> i == b && |stroke| == 1
    {
      if i == 0 {
      } else if i < a {
        assert steps[i] == crop[i - 1];
      } else if i < b {
        assert steps[i] == round[i - a];
      } else if i < b + |stroke| {
        assert steps[i] == stroke[i - b];
      } else {
        assert steps[i] == last;
      }
    }
    if |crop| == 1 {
      assert steps[1] == crop[0];
    }
    if |round| == 1 {
      assert steps[a] == round[0];
    }
    if |stroke| == 1 {
      assert steps[b] == stroke[0];
    }
  }
}

=== FILE: presets.dfy ===
/** Choosing the style sheet: a named preset, a custom sheet, or automatic
    layout, which re-picks a preset from the streams' classes on every
    frame. The mixer and the archive package apply the same rules; they
    differ only in what `custom` means. */
module Presets {
  import opened Common
  import opened Geometry

  /** The sheet to install and whether automatic layout is on. */
  datatype Choice = Choice(sheet: Sheet, auto: bool)

  predicate IsNamedPreset(name: string) {
    name in ["bestFit", "verticalPresentation", "horizontalPresentation", "pip", "custom"]
  }

  /** The preset rules with `custom` standing for the sheet `custom`. A
      missing name, `auto` and any unknown name all select automatic layout
      starting from best fit. */
  function SelectPreset(preset: Option<string>, custom: Sheet): (c: Choice)
    ensures c.auto <==> preset.None? || !IsNamedPreset(preset.value)
    ensures c.auto ==> c.sheet == BestFit
    ensures preset == Some("custom") ==> c.sheet == custom
  {
    if preset.None? then Choice(BestFit, true)
    else if preset.value == "bestFit" then Choice(BestFit, false)
    else if preset.value == "verticalPresentation" then Choice(VerticalPresentation, false)
    else if preset.value == "horizontalPresentation" then Choice(HorizontalPresentation, false)
    else if preset.value == "pip" then Choice(Pip, false)
    else if preset.value == "custom" then Choice(custom, false)
    else Choice(BestFit, true)
  }

  /** `video_mixer_set_css_preset`: `custom` installs the placeholder
      `SET_ME`, to be replaced by `video_mixer_set_css_custom`. */
  function MixerPreset(preset: Option<string>): (c: Choice)
    ensures preset == Some("custom") ==> c == Choice(Css("SET_ME"), false)
  {
    SelectPreset(preset, Css("SET_ME"))
  }

  /** The preset selection in `archive_open`: `custom` installs the custom
      CSS text itself. */
  function PackagePreset(preset: Option<string>, cssCustom: string): (c: Choice)
    ensures preset == Some("custom") ==> c == Choice(Css(cssCustom), false)
  {
    SelectPreset(preset, Css(cssCustom))
  }

  /** The two selections agree on every name except `custom`; the four
      named presets turn automatic layout off and select their own sheet. */
  lemma MixerAndPackageAgree(preset: Option<string>, cssCustom: string)
    ensures preset != Some("custom") ==> MixerPreset(preset) == PackagePreset(preset, cssCustom)
    ensures preset == Some("bestFit") ==> MixerPreset(preset) == Choice(BestFit, false)
    ensures preset == Some("verticalPresentation") ==> MixerPreset(preset) == Choice(VerticalPresentation, false)
    ensures preset == Some("horizontalPresentation") ==> MixerPreset(preset) == Choice(HorizontalPresentation, false)
    ensures preset == Some("pip") ==> MixerPreset(preset) == Choice(Pip, false)
  {
  }

  /** `video_mixer_set_css_custom`: only non-empty CSS replaces the sheet. */
  function CssCustom(current: Sheet, css: Option<string>): (s: Sheet)
    ensures Truthy(css) ==> s == Css(css.value)
    ensures !Truthy(css) ==> s == current
  {
    if css.Some? && |css.value| > 0 then Css(css.value) else current
  }

  predicate IsFocus(info: StreamInfo) {
    info.layoutClass == "focus"
  }

  /** Number of streams whose class is `focus`. */
  function FocusCount(infos: seq<StreamInfo>): (n: nat)
    ensures n <= |infos|
  {
    if |infos| == 0 then 0
    else (if IsFocus(infos[0]) then 1 else 0) + FocusCount(infos[1..])
  }

  /** `do_auto_layout`: picture-in-picture for a focus stream with at most
      one other stream, horizontal presentation for a focus stream with two
      or more others, best fit when no stream has the focus class. */
  function AutoSheet(infos: seq<StreamInfo>): Sheet {
    var focus := FocusCount(infos);
    var others := |infos| - focus;
    if focus > 0 && others < 2 then Pip
    else if focus > 0 && others > 1 then HorizontalPresentation
    else BestFit
  }

  /** The focus count is the number of focus streams, and it is positive
      exactly when some stream has the focus class. */
  lemma {:induction false} FocusCountFilter(infos: seq<StreamInfo>)
    ensures FocusCount(infos) == |Filter(infos, IsFocus)|
    ensures FocusCount(infos) > 0 <==> exists i :: 0 <= i < |infos| && IsFocus(infos[i])
    decreases |infos|
  {
    if |infos| > 0 {
      FocusCountFilter(infos[1..]);
      if !IsFocus(infos[0]) && FocusCount(infos) > 0 {
        var i :| 0 <= i < |infos[1..]| && IsFocus(infos[1..][i]);
        assert IsFocus(infos[i + 1]);
      }
      if FocusCount(infos[1..]) == 0 {
        assert forall i :: 1 <= i < |infos| ==> !IsFocus(infos[i]) by {
          forall i | 1 <= i < |infos| ensures !IsFocus(infos[i]) {
            assert infos[i] == infos[1..][i - 1];
          }
        }
      }
    }
  }

  /** The automatic choice in terms of the streams themselves. */
  lemma AutoSheetCases(infos: seq<StreamInfo>)
    ensures AutoSheet(infos) == BestFit <==> forall i :: 0 <= i < |infos| ==> !IsFocus(infos[i])
    ensures AutoSheet(infos) == Pip <==>
              (exists i :: 0 <= i < |infos| && IsFocus(infos[i]))
              && |infos| - |Filter(infos, IsFocus)| < 2
    ensures AutoSheet(infos) == HorizontalPresentation <==>
              (exists i :: 0 <= i < |infos| && IsFocus(infos[i]))
              && |infos| - |Filter(infos, IsFocus)| >= 2
  {
    FocusCountFilter(infos);
  }
}

=== FILE: progress.dfy ===
/** Job progress as the webapp worker reports it: each phase maps its own
    `(complete, total)` into one third of the job, so the reported fraction
    `complete / total` moves through [0, 1/3] while downloading,
    [1/3, 2/3] while transforming and [2/3, 1] while uploading. */
module Progress {

  /** One `job.progress(complete, total)` report. */
  datatype Report = Report(complete: real, total: real)

  function Fraction(p: Report): real
    requires p.total > 0.0
  {
    p.complete / p.total
  }

  /** Download phase: bytes received so far against three times the
      announced content length. */
  function DownloadReport(bytes: nat, length: nat): (p: Report)
    ensures p.total == 3.0 * length as real
  {
    Report(bytes as real, 3.0 * length as real)
  }

  /** Transform phase: a `{complete, total}` progress line from `barc`
      shifted up by one third. */
  function TransformReport(complete: real, total: real): Report {
    Report(complete + total, total * 3.0)
  }

  /** Upload phase: the uploader's amount shifted up by two thirds. */
  function UploadReport(amount: real, total: real): Report {
    Report(amount + 2.0 * total, total * 3.0)
  }

  lemma DivBetween(x: real, y: real, lo: real, hi: real)
    requires y > 0.0 && lo * y <= x <= hi * y
    ensures lo <= x / y <= hi
  {
    assert x / y * y == x;
  }

  lemma DivMonotone(x1: real, x2: real, y: real)
    requires y > 0.0 && x1 <= x2
    ensures x1 / y <= x2 / y
  {
    assert x1 / y * y == x1 && x2 / y * y == x2;
  }

  /** While no more than the announced length has arrived, the download
      phase stays within the first third. */
  lemma DownloadBand(bytes: nat, length: nat)
    requires 0 < length && bytes <= length
    ensures 0.0 <= Fraction(DownloadReport(bytes, length)) <= 1.0 / 3.0
  {
    DivBetween(bytes as real, 3.0 * length as real, 0.0, 1.0 / 3.0);
  }

  /** For 0 <= complete <= total the transform phase stays within the
      middle third. */
  lemma TransformBand(complete: real, total: real)
    requires 0.0 < total && 0.0 <= complete <= total
    ensures 1.0 / 3.0 <= Fraction(TransformReport(complete, total)) <= 2.0 / 3.0
  {
    DivBetween(complete + total, total * 3.0, 1.0 / 3.0, 2.0 / 3.0);
  }

  /** For 0 <= amount <= total the upload phase stays within the last
      third. */
  lemma UploadBand(amount: real, total: real)
    requires 0.0 < total && 0.0 <= amount <= total
    ensures 2.0 / 3.0 <= Fraction(UploadReport(amount, total)) <= 1.0
  {
    DivBetween(amount + 2.0 * total, total * 3.0, 2.0 / 3.0, 1.0);
  }

  /** Within each phase, more progress never reports less. */
  lemma PhasesMonotone(c1: real, c2: real, total: real, b1: nat, b2: nat, length: nat)
    requires 0.0 < total && c1 <= c2
    requires 0 < length && b1 <= b2
    ensures Fraction(DownloadReport(b1, length)) <= Fraction(DownloadReport(b2, length))
    ensures Fraction(TransformReport(c1, total)) <= Fraction(TransformReport(c2, total))
    ensures Fraction(UploadReport(c1, total)) <= Fraction(UploadReport(c2, total))
  {
    DivMonotone(b1 as real, b2 as real, 3.0 * length as real);
    DivMonotone(c1 + total, c2 + total, total * 3.0);
    DivMonotone(c1 + 2.0 * total, c2 + 2.0 * total, total * 3.0);
  }

  /** Any download report is at most any transform report, which is at
      most any upload report, whatever the phases' own totals. */
  lemma PhasesOrdered(bytes: nat, length: nat, c: real, ct: real, a: real, at: real)
    requires 0 < length && bytes <= length
    requires 0.0 < ct && 0.0 <= c <= ct
    requires 0.0 < at && 0.0 <= a <= at
    ensures Fraction(DownloadReport(bytes, length)) <= Fraction(TransformReport(c, ct))
    ensures Fraction(TransformReport(c, ct)) <= Fraction(UploadReport(a, at))
  {
    DownloadBand(bytes, length);
    TransformBand(c, ct);
    UploadBand(a, at);
  }

  function Sum(s: seq<nat>): nat {
    if |s| == 0 then 0 else s[0] + Sum(s[1..])
  }

  /** The download reports for the chunks still to arrive, after `sofar`
      bytes: each chunk adds exactly its length. */
  function DownloadReports(chunks: seq<nat>, sofar: nat, length: nat): (r: seq<Report>)
    ensures |r| == |chunks|
    ensures forall i :: 0 <= i < |r| ==> r[i].total == 3.0 * length as real
    ensures forall i :: 0 <= i < |r| ==> sofar as real <= r[i].complete <= (sofar + Sum(chunks)) as real
    ensures |r| > 0 ==> r[0].complete == (sofar + chunks[0]) as real
    ensures forall i :: 0 <= i < |r| - 1 ==> r[i + 1].complete == r[i].complete + chunks[i + 1] as real
  {
    if |chunks| == 0 then []
    else
      var now := sofar + chunks[0];
      [DownloadReport(now, length)] + DownloadReports(chunks[1..], now, length)
  }

  /** Reports never go backwards. */
  lemma {:induction false} DownloadReportsMonotone(chunks: seq<nat>, sofar: nat, length: nat, i: nat, j: nat)
    requires i <= j < |chunks|
    ensures DownloadReports(chunks, sofar, length)[i].complete <= DownloadReports(chunks, sofar, length)[j].complete
    decreases j - i
  {
    if i < j {
      DownloadReportsMonotone(chunks, sofar, length, i, j - 1);
    }
  }

  /** When the chunks add up to no more than the announced length, every
      download report lies in the first third. */
  lemma DownloadReportsInBand(chunks: seq<nat>, length: nat)
    requires 0 < length && Sum(chunks) <= length
    ensures forall i :: 0 <= i < |chunks| ==>
              0.0 <= Fraction(DownloadReports(chunks, 0, length)[i]) <= 1.0 / 3.0
  {
    var r := DownloadReports(chunks, 0, length);
    forall i | 0 <= i < |chunks|
      ensures 0.0 <= Fraction(r[i]) <= 1.0 / 3.0
    {
      DivBetween(r[i].complete, r[i].total, 0.0, 1.0 / 3.0);
    }
  }
}

=== FILE: scheduler.dfy ===
/** The compositor's clock: the set of input streams and the tick that
    decides whether the next step mixes audio, renders video, or both. */
module Scheduler {
  import opened Common

  // ---------------------------------------------------------------------
  // Input streams: an ordered list in which each stream occurs once.
  // ---------------------------------------------------------------------

  /** `barc_add_source`: appends the stream unless it is already there. */
  function AddSource<T(==)>(streams: seq<T>, s: T): (r: seq<T>)
    ensures s in r
    ensures s in streams ==> r == streams
    ensures s !in streams ==> r == streams + [s]
  {
    if s in streams then streams else streams + [s]
  }

  /** Adding keeps streams distinct, and adding twice is adding once. */
  lemma AddSourceIdempotent<T>(streams: seq<T>, s: T)
    requires NoDup(streams)
    ensures NoDup(AddSource(streams, s))
    ensures AddSource(AddSource(streams, s), s) == AddSource(streams, s)
  {
    if s !in streams {
      var r := streams + [s];
      forall i, j | 0 <= i < j < |r| ensures r[i] != r[j] {
        if j == |streams| {
          assert r[i] == streams[i];
        }
      }
    }
  }

  /** `barc_remove_source`: erases the first occurrence, if any. */
  function RemoveSource<T(==)>(streams: seq<T>, s: T): (r: seq<T>)
    ensures s !in streams ==> r == streams
    ensures s in streams ==> |r| == |streams| - 1
  {
    if |streams| == 0 then []
    else if streams[0] == s then streams[1..]
    else [streams[0]] + RemoveSource(streams[1..], s)
  }

  /** On distinct streams, removal drops exactly `s` and keeps every other
      stream in its order; removing again changes nothing. */
  lemma {:induction false} RemoveSourceFilters<T>(streams: seq<T>, s: T)
    requires NoDup(streams)
    ensures RemoveSource(streams, s) == Filter(streams, x => x != s)
    ensures s !in RemoveSource(streams, s)
    ensures RemoveSource(RemoveSource(streams, s), s) == RemoveSource(streams, s)
    decreases |streams|
  {
    if |streams| > 0 {
      var rest := streams[1..];
      assert NoDup(rest) by {
        forall i, j | 0 <= i < j < |rest| ensures rest[i] != rest[j] {
          assert rest[i] == streams[i + 1] && rest[j] == streams[j + 1];
        }
      }
      RemoveSourceFilters(rest, s);
      if streams[0] == s {
        assert s !in rest by {
          forall k | 0 <= k < |rest| ensures rest[k] != s {
            assert rest[k] == streams[k + 1];
          }
        }
        FilterAbsent(rest, s);
      }
    }
  }

  lemma {:induction false} FilterAbsent<T>(s: seq<T>, x: T)
    requires x !in s
    ensures Filter(s, y => y != x) == s
    decreases |s|
  {
    if |s| > 0 {
      assert s[1..] == s[1..];
      assert x !in s[1..] by {
        forall k | 0 <= k < |s[1..]| ensures s[1..][k] != x {
          assert s[1..][k] == s[k + 1];
        }
      }
      FilterAbsent(s[1..], x);
      assert [s[0]] + s[1..] == s;
    }
  }

  // ---------------------------------------------------------------------
  // The tick.
  // ---------------------------------------------------------------------

  /** Two clock times closer than this are treated as equal. */
  const Epsilon: real := 0.0001

  newtype int32 = x | -0x8000_0000 <= x < 0x8000_0000

  /** The scheduling part of the compositor's state. */
  datatype Clock = Clock(
    needAudio: bool,
    needVideo: bool,
    globalClock: real,
    nextAudio: real,
    nextVideo: real,
    audioPeriod: real,
    videoPeriod: real)

  /** A freshly allocated, zero-filled state. */
  const Zero: Clock := Clock(false, false, 0.0, 0.0, 0.0, 0.0, 0.0)

  /** `barc_read_configuration`: the video period is one frame,
      `1 / framerate`. */
  function Configure(c: Clock, framerate: real): (r: Clock)
    requires framerate > 0.0
    ensures r.videoPeriod * framerate == 1.0
    ensures r.(videoPeriod := c.videoPeriod) == c
  {
    c.(videoPeriod := 1.0 / framerate)
  }

  /** `compute_audio_times`: the audio period is one encoder frame,
      `frame_size / sample_rate`. */
  function ComputeAudioTimes(c: Clock, frameSize: nat, sampleRate: nat): (r: Clock)
    requires sampleRate > 0
    ensures r.audioPeriod * sampleRate as real == frameSize as real
    ensures r.(audioPeriod := c.audioPeriod) == c
  {
    c.(audioPeriod := frameSize as real / sampleRate as real)
  }

  function Abs(x: real): real {
    if x < 0.0 then -x else x
  }

  /** Bitwise AND of two naturals, bit by bit from the lowest. */
  function AndBits(x: nat, y: nat): (r: nat)
    ensures r <= x && r <= y
    ensures x == 0 || y == 0 ==> r == 0
  {
    if x == 0 || y == 0 then 0 else 2 * AndBits(x / 2, y / 2) + (x % 2) * (y % 2)
  }

  lemma {:induction false} AndBitsSelf(x: nat)
    ensures AndBits(x, x) == x
    decreases x
  {
    if x > 0 {
      AndBitsSelf(x / 2);
      var b := x % 2;
      assert b == 0 || b == 1;
      assert b * b == b;
      assert 2 * (x / 2) + b == x;
    }
  }

  /** The 32-bit two's complement pattern of `a`, as a natural. */
  function Unsigned(a: int32): (u: nat)
    ensures u < 0x1_0000_0000
    ensures (u < 0x8000_0000) == (a >= 0)
  {
    if a < 0 then a as int + 0x1_0000_0000 else a as int
  }

  /** `a & b` on 32-bit two's complement integers. */
  function And32(a: int32, b: int32): (r: int32)
    ensures a == 0 || b == 0 ==> r == 0
    ensures a == b ==> r == a
    ensures a >= 0 || b >= 0 ==> r >= 0
  {
    var z := AndBits(Unsigned(a), Unsigned(b));
    AndBitsSelfUnsigned(a, b);
    (if z >= 0x8000_0000 then z - 0x1_0000_0000 else z) as int32
  }

  lemma AndBitsSelfUnsigned(a: int32, b: int32)
    ensures a == b ==> AndBits(Unsigned(a), Unsigned(b)) == Unsigned(a)
  {
    if a == b {
      AndBitsSelf(Unsigned(a));
    }
  }

  /** What one tick did. */
  datatype Step = Step(clock: Clock, mixedAudio: bool, renderedVideo: bool, ret: int32)

  /** `barc_tick`, with the audio mix and the video push results as inputs:
      each flagged track runs and is rescheduled one period after the
      current clock; then the clock moves to the earlier next time, and the
      tracks due then are flagged (both when the two times are within
      `Epsilon`). The result is the AND of the two tracks' results. */
  function Tick(c: Clock, audioResult: int32, videoResult: int32): (s: Step)
    ensures s.mixedAudio == c.needAudio && s.renderedVideo == c.needVideo
    ensures s.clock.nextAudio == if c.needAudio then c.globalClock + c.audioPeriod else c.nextAudio
    ensures s.clock.nextVideo == if c.needVideo then c.globalClock + c.videoPeriod else c.nextVideo
    ensures s.clock.needAudio || s.clock.needVideo
    ensures s.clock.globalClock == s.clock.nextAudio || s.clock.globalClock == s.clock.nextVideo
    ensures s.clock.globalClock <= s.clock.nextAudio
    ensures s.clock.nextVideo >= s.clock.globalClock - Epsilon
    ensures !s.clock.needAudio ==> s.clock.nextAudio >= s.clock.globalClock + Epsilon
    ensures !s.clock.needVideo ==> s.clock.nextVideo >= s.clock.globalClock + Epsilon
    ensures s.clock.audioPeriod == c.audioPeriod && s.clock.videoPeriod == c.videoPeriod
  {
    var aret: int32 := if c.needAudio then audioResult else 0;
    var vret: int32 := if c.needVideo then videoResult else 0;
    var n0 := if c.needAudio then c.globalClock + c.audioPeriod else c.nextAudio;
    var n1 := if c.needVideo then c.globalClock + c.videoPeriod else c.nextVideo;
    var next :=
      if Abs(n0 - n1) < Epsilon then c.(needAudio := true, needVideo := true, globalClock := n0)
      else if n0 > n1 then c.(needAudio := false, needVideo := true, globalClock := n1)
      else c.(needAudio := true, needVideo := false, globalClock := n0);
    Step(next.(nextAudio := n0, nextVideo := n1), c.needAudio, c.needVideo, And32(aret, vret))
  }

  /** Between ticks: positive periods, and a track that is not flagged is
      due at least `Epsilon` after the clock. */
  ghost predicate Inv(c: Clock) {
    && c.audioPeriod > 0.0 && c.videoPeriod > 0.0
    && (c.needAudio || c.nextAudio >= c.globalClock + Epsilon)
    && (c.needVideo || c.nextVideo >= c.globalClock + Epsilon)
  }

  /** From the zero state with positive periods, the first tick runs no
      track, keeps the clock at 0 and flags both tracks; the invariant
      holds from then on. */
  lemma FirstTick(framerate: real, frameSize: nat, sampleRate: nat, a: int32, v: int32)
    requires framerate > 0.0 && sampleRate > 0 && frameSize > 0
    ensures var s := Tick(ComputeAudioTimes(Configure(Zero, framerate), frameSize, sampleRate), a, v);
            && !s.mixedAudio && !s.renderedVideo && s.ret == 0
            && s.clock.globalClock == 0.0 && s.clock.needAudio && s.clock.needVideo
            && Inv(s.clock)
  {
    var c := ComputeAudioTimes(Configure(Zero, framerate), frameSize, sampleRate);
    PositiveFactor(c.videoPeriod, framerate);
    PositiveFactor(c.audioPeriod, sampleRate as real);
  }

  lemma PositiveFactor(x: real, y: real)
    requires y > 0.0 && x * y > 0.0
    ensures x > 0.0
  {
  }

  /** Every tick keeps the invariant and strictly advances the clock. */
  lemma TickAdvances(c: Clock, a: int32, v: int32)
    requires Inv(c)
    ensures Inv(Tick(c, a, v).clock)
    ensures Tick(c, a, v).clock.globalClock > c.globalClock
  {
  }

  /** A tick that runs only one track reports 0, whatever that track's
      result. */
  lemma SingleTrackTickReturnsZero(c: Clock, a: int32, v: int32)
    requires c.needAudio != c.needVideo
    ensures Tick(c, a, v).ret == 0
  {
  }

  /** Ticking `n` times from a state satisfying the invariant. */
  function Run(c: Clock, n: nat, a: int32, v: int32): Clock
    decreases n
  {
    if n == 0 then c else Run(Tick(c, a, v).clock, n - 1, a, v)
  }

  /** Any number of ticks keeps the invariant, and the clock has moved
      strictly forward once any tick happened. */
  lemma {:induction false} RunMonotone(c: Clock, n: nat, a: int32, v: int32)
    requires Inv(c)
    ensures Inv(Run(c, n, a, v))
    ensures n > 0 ==> Run(c, n, a, v).globalClock > c.globalClock
    decreases n
  {
    if n > 0 {
      TickAdvances(c, a, v);
      RunMonotone(Tick(c, a, v).clock, n - 1, a, v);
    }
  }
}

=== FILE: shell_escape.dfy ===
/** The runner's three-tier bash escaping of request argument values, and a
    reading of POSIX shell quoting that says what a shell would hand to the
    program for an escaped word. */
module ShellEscape {
  import opened Common

  /** Letters, digits and `_/-.,?:@#%^+=[]`: the characters that need no
      quoting. The pattern is case-insensitive, so both letter cases count. */
  predicate IsSafeChar(c: char) {
    || 'a' <= c <= 'z' || 'A' <= c <= 'Z' || '0' <= c <= '9'
    || c in {'_', '/', '-', '.', ',', '?', ':', '@', '#', '%', '^', '+', '=', '[', ']'}
  }

  /** The safe characters plus `{}|&()<>;`, space, `*` and `'`: characters that
      are literal inside double quotes. */
  predicate IsSafeishChar(c: char) {
    IsSafeChar(c) || c in {'{', '}', '|', '&', '(', ')', '<', '>', ';', ' ', '*', '\''}
  }

  predicate IsSafe(s: string) {
    forall i :: 0 <= i < |s| ==> IsSafeChar(s[i])
  }

  predicate IsSafeish(s: string) {
    forall i :: 0 <= i < |s| ==> IsSafeishChar(s[i])
  }

  function Repeat(t: string, n: nat): (r: string)
    ensures |r| == n * |t|
  {
    if n == 0 then "" else t + Repeat(t, n - 1)
  }

  /** Length of the run of single quotes at the start of `s`. */
  function RunLength(s: string): (n: nat)
    ensures n <= |s|
    ensures s[..n] == Repeat("'", n)
    ensures n < |s| ==> s[n] != '\''
  {
    if |s| > 0 && s[0] == '\'' then
      var m := RunLength(s[1..]);
      assert s[..m + 1] == "'" + s[1..][..m];
      1 + m
    else 0
  }

  /** Replacement for a maximal run of `n` single quotes: one or two become
      `'\''` per quote, three or more are re-quoted inside double quotes. */
  function RewriteRun(n: nat): string
    requires n >= 1
  {
    if n < 3 then "'" + Repeat("\\'", n) + "'" else "'\"" + Repeat("'", n) + "\"'"
  }

  /** Rewrites every maximal run of single quotes and copies all other
      characters unchanged. */
  function QuoteRuns(s: string): string
    decreases |s|
  {
    if |s| == 0 then ""
    else if s[0] == '\'' then
      var n := RunLength(s);
      RewriteRun(n) + QuoteRuns(s[n..])
    else [s[0]] + QuoteRuns(s[1..])
  }

  /** `bashEscape` as the runner writes it: safe text is returned as it is,
      safe-ish text is put in double quotes, and any other text only gets
      its runs of single quotes rewritten, with no quotes around the whole. */
  function BashEscape(s: string): string {
    if IsSafe(s) then s
    else if IsSafeish(s) then "\"" + s + "\""
    else QuoteRuns(s)
  }

  /** The evidently intended strong escaping: the rewritten text is enclosed
      in single quotes, so that each rewritten run closes and re-opens them. */
  function QuotedEscape(s: string): string {
    if IsSafe(s) then s
    else if IsSafeish(s) then "\"" + s + "\""
    else "'" + QuoteRuns(s) + "'"
  }

  // ---------------------------------------------------------------------
  // What a POSIX shell makes of a word. Unquoted, only the conservative
  // safe characters are taken literally (the glob characters `?`, `[` and
  // `]` are assumed to match no file, in which case bash keeps them as
  // written); any other unquoted character is one the shell may act on
  // (a word break, an expansion, an operator) and the reading fails.
  // Inside double quotes `\`, `$`, backquote and `!` are not literal.
  // ---------------------------------------------------------------------

  datatype Mode = Unquoted | InSingle | InDouble

  predicate DoubleQuoteLiteral(c: char) {
    c != '"' && c != '\\' && c != '$' && c != '`' && c != '!'
  }

  function Prepend(p: string, o: Option<string>): Option<string> {
    if o.None? then None else Some(p + o.value)
  }

  /** The argument a shell builds from word text `w`, read in quoting mode
      `m`; `None` when the shell would not pass the text through literally.
      The word is read on its own: a word-initial `#`, which bash takes as
      the start of a comment, is read here as a literal, and an empty word,
      which bash drops, reads as the empty argument. */
  function ShellRead(w: string, m: Mode): Option<string>
    decreases |w|
  {
    if |w| == 0 then (if m == Unquoted then Some("") else None)
    else
      match m
      case Unquoted =>
        if w[0] == '\'' then ShellRead(w[1..], InSingle)
        else if w[0] == '"' then ShellRead(w[1..], InDouble)
        else if w[0] == '\\' then
          (if |w| < 2 then None else Prepend([w[1]], ShellRead(w[2..], Unquoted)))
        else if IsSafeChar(w[0]) then Prepend([w[0]], ShellRead(w[1..], Unquoted))
        else None
      case InSingle =>
        if w[0] == '\'' then ShellRead(w[1..], Unquoted)
        else Prepend([w[0]], ShellRead(w[1..], InSingle))
      case InDouble =>
        if w[0] == '"' then ShellRead(w[1..], Unquoted)
        else if DoubleQuoteLiteral(w[0]) then Prepend([w[0]], ShellRead(w[1..], InDouble))
        else None
  }

  /** One step of reading inside single quotes. */
  lemma ReadSingleStep(w: string)
    requires |w| > 0
    ensures ShellRead(w, InSingle)
         == if w[0] == '\'' then ShellRead(w[1..], Unquoted) else Prepend([w[0]], ShellRead(w[1..], InSingle))
  {
  }

  lemma PrependEmpty(o: Option<string>)
    ensures Prepend("", o) == o
  {
    if o.Some? {
      assert "" + o.value == o.value;
    }
  }

  lemma PrependAssoc(a: string, b: string, o: Option<string>)
    ensures Prepend(a, Prepend(b, o)) == Prepend(a + b, o)
  {
    if o.Some? {
      assert a + (b + o.value) == (a + b) + o.value;
    }
  }

  lemma {:induction false} ReadSafe(s: string, t: string)
    requires IsSafe(s)
    ensures ShellRead(s + t, Unquoted) == Prepend(s, ShellRead(t, Unquoted))
    decreases |s|
  {
    if |s| == 0 {
      assert s + t == t;
      PrependEmpty(ShellRead(t, Unquoted));
    } else {
      assert (s + t)[1..] == s[1..] + t;
      ReadSafe(s[1..], t);
      PrependAssoc([s[0]], s[1..], ShellRead(t, Unquoted));
      assert [s[0]] + s[1..] == s;
    }
  }

  lemma {:induction false} ReadDouble(s: string, t: string)
    requires forall i :: 0 <= i < |s| ==> DoubleQuoteLiteral(s[i])
    ensures ShellRead(s + t, InDouble) == Prepend(s, ShellRead(t, InDouble))
    decreases |s|
  {
    if |s| == 0 {
      assert s + t == t;
      PrependEmpty(ShellRead(t, InDouble));
    } else {
      assert (s + t)[1..] == s[1..] + t;
      ReadDouble(s[1..], t);
      PrependAssoc([s[0]], s[1..], ShellRead(t, InDouble));
      assert [s[0]] + s[1..] == s;
    }
  }

  lemma {:induction false} ReadBackslashQuotes(n: nat, t: string)
    ensures ShellRead(Repeat("\\'", n) + t, Unquoted) == Prepend(Repeat("'", n), ShellRead(t, Unquoted))
    decreases n
  {
    if n == 0 {
      assert Repeat("\\'", n) + t == t;
      PrependEmpty(ShellRead(t, Unquoted));
    } else {
      var w := Repeat("\\'", n) + t;
      assert w == "\\'" + (Repeat("\\'", n - 1) + t);
      assert w[2..] == Repeat("\\'", n - 1) + t;
      ReadBackslashQuotes(n - 1, t);
      PrependAssoc("'", Repeat("'", n - 1), ShellRead(t, Unquoted));
    }
  }

  /** A single quote opens single quoting when unquoted and closes it
      inside single quotes. */
  lemma ReadSingleQuote(x: string, m: Mode)
    requires m != InDouble
    ensures ShellRead("'" + x, m) == ShellRead(x, if m == Unquoted then InSingle else Unquoted)
  {
    assert ("'" + x)[0] == '\'' && ("'" + x)[1..] == x;
  }

  /** A double quote opens double quoting when unquoted and closes it
      inside double quotes. */
  lemma ReadDoubleQuote(x: string, m: Mode)
    requires m != InSingle
    ensures ShellRead("\"" + x, m) == ShellRead(x, if m == Unquoted then InDouble else Unquoted)
  {
    assert ("\"" + x)[0] == '"' && ("\"" + x)[1..] == x;
  }

  /** Read inside single quotes, a rewritten run yields the run itself and
      leaves the reader inside single quotes again. */
  lemma ReadRewriteRun(n: nat, t: string)
    requires n >= 1
    ensures ShellRead(RewriteRun(n) + t, InSingle) == Prepend(Repeat("'", n), ShellRead(t, InSingle))
  {
    if n < 3 {
      ReadShortRun(n, t);
    } else {
      ReadLongRun(n, t);
    }
  }

  lemma ReadShortRun(n: nat, t: string)
    requires 1 <= n < 3
    ensures ShellRead(RewriteRun(n) + t, InSingle) == Prepend(Repeat("'", n), ShellRead(t, InSingle))
  {
    var b := Repeat("\\'", n);
    assert RewriteRun(n) + t == "'" + (b + ("'" + t));
    ReadSingleQuote(b + ("'" + t), InSingle);
    ReadBackslashQuotes(n, "'" + t);
    ReadSingleQuote(t, Unquoted);
  }

  lemma ReadLongRun(n: nat, t: string)
    requires n >= 3
    ensures ShellRead(RewriteRun(n) + t, InSingle) == Prepend(Repeat("'", n), ShellRead(t, InSingle))
  {
    var q := Repeat("'", n);
    assert RewriteRun(n) + t == "'" + ("\"" + (q + ("\"" + ("'" + t))));
    ReadSingleQuote("\"" + (q + ("\"" + ("'" + t))), InSingle);
    ReadDoubleQuote(q + ("\"" + ("'" + t)), Unquoted);
    ReadQuotedRun(n, t);
  }

  /** Inside double quotes the run is literal, and the closing `"'`
      reopens the single quotes. */
  lemma ReadQuotedRun(n: nat, t: string)
    ensures var q := Repeat("'", n);
            ShellRead(q + ("\"" + ("'" + t)), InDouble) == Prepend(q, ShellRead(t, InSingle))
  {
    var q := Repeat("'", n);
    RepeatQuoteIsDoubleLiteral(n);
    ReadDouble(q, "\"" + ("'" + t));
    ReadDoubleQuote("'" + t, InDouble);
    ReadSingleQuote(t, Unquoted);
  }

  lemma {:induction false} RepeatQuoteIsDoubleLiteral(n: nat)
    ensures forall i :: 0 <= i < |Repeat("'", n)| ==> Repeat("'", n)[i] == '\''
    decreases n
  {
    if n > 0 {
      RepeatQuoteIsDoubleLiteral(n - 1);
    }
  }

  /** Inside single quotes, the rewritten text of `s` reads back as `s`. */
  lemma {:induction false} ReadQuoteRuns(s: string, t: string)
    ensures ShellRead(QuoteRuns(s) + t, InSingle) == Prepend(s, ShellRead(t, InSingle))
    decreases |s|
  {
    if |s| == 0 {
      assert QuoteRuns(s) + t == t;
      PrependEmpty(ShellRead(t, InSingle));
    } else if s[0] == '\'' {
      var n := RunLength(s);
      ReadQuoteRuns(s[n..], t);
      ReadQuoteRunsRun(s, t);
    } else {
      ReadQuoteRuns(s[1..], t);
      QuoteRunsPlain(s);
      ReadConsSingle(s[0], QuoteRuns(s[1..]), t, s[1..], ShellRead(t, InSingle));
      assert [s[0]] + s[1..] == s;
    }
  }

  lemma ReadQuoteRunsRun(s: string, t: string)
    requires |s| > 0 && s[0] == '\''
    requires ShellRead(QuoteRuns(s[RunLength(s)..]) + t, InSingle)
          == Prepend(s[RunLength(s)..], ShellRead(t, InSingle))
    ensures ShellRead(QuoteRuns(s) + t, InSingle) == Prepend(s, ShellRead(t, InSingle))
  {
    var n := RunLength(s);
    var rest := QuoteRuns(s[n..]);
    var o := ShellRead(t, InSingle);
    calc {
      ShellRead(QuoteRuns(s) + t, InSingle);
      { QuoteRunsRunAppend(s, t); }
      ShellRead(RewriteRun(n) + (rest + t), InSingle);
      { ReadRewriteRun(n, rest + t); }
      Prepend(Repeat("'", n), ShellRead(rest + t, InSingle));
      Prepend(Repeat("'", n), Prepend(s[n..], o));
      { PrependAssoc(Repeat("'", n), s[n..], o); }
      Prepend(Repeat("'", n) + s[n..], o);
      { RunThenRest(s); }
      Prepend(s, o);
    }
  }

  lemma QuoteRunsRunAppend(s: string, t: string)
    requires |s| > 0 && s[0] == '\''
    ensures QuoteRuns(s) + t == RewriteRun(RunLength(s)) + (QuoteRuns(s[RunLength(s)..]) + t)
  {
    QuoteRunsRun(s);
    ConcatAssoc(RewriteRun(RunLength(s)), QuoteRuns(s[RunLength(s)..]), t);
  }

  lemma ConcatAssoc(a: string, b: string, c: string)
    ensures (a + b) + c == a + (b + c)
  {
  }

  lemma RunThenRest(s: string)
    ensures Repeat("'", RunLength(s)) + s[RunLength(s)..] == s
  {
    var n := RunLength(s);
    assert s[..n] + s[n..] == s;
  }

  lemma QuoteRunsRun(s: string)
    requires |s| > 0 && s[0] == '\''
    ensures QuoteRuns(s) == RewriteRun(RunLength(s)) + QuoteRuns(s[RunLength(s)..])
  {
  }

  lemma QuoteRunsPlain(s: string)
    requires |s| > 0 && s[0] != '\''
    ensures QuoteRuns(s) == [s[0]] + QuoteRuns(s[1..])
  {
  }

  lemma ReadSinglePlain(c: char, t: string)
    requires c != '\''
    ensures ShellRead([c] + t, InSingle) == Prepend([c], ShellRead(t, InSingle))
  {
    var w := [c] + t;
    assert w[1..] == t;
    ReadSingleStep(w);
  }

  lemma ReadConsSingle(c: char, q: string, t: string, u: string, o: Option<string>)
    requires c != '\''
    requires ShellRead(q + t, InSingle) == Prepend(u, o)
    ensures ShellRead(([c] + q) + t, InSingle) == Prepend([c] + u, o)
  {
    assert ([c] + q) + t == [c] + (q + t);
    ReadSinglePlain(c, q + t);
    PrependAssoc([c], u, o);
  }

  /** Safe text comes back unchanged, so escaping is idempotent on it. */
  lemma SafeUnchanged(s: string)
    requires IsSafe(s)
    ensures BashEscape(s) == s
    ensures BashEscape(BashEscape(s)) == BashEscape(s)
  {
  }

  /** Safe-ish text that is not safe is wrapped in double quotes. */
  lemma SafeishQuoted(s: string)
    requires !IsSafe(s) && IsSafeish(s)
    ensures BashEscape(s) == "\"" + s + "\""
  {
  }

  /** Any other text keeps every character that is not a single quote: in
      particular, text without single quotes is returned unchanged and
      unquoted. */
  lemma {:induction false} QuoteRunsWithoutQuotes(s: string)
    requires '\'' !in s
    ensures QuoteRuns(s) == s
    decreases |s|
  {
    if |s| > 0 {
      assert s[0] in s;
      assert forall c :: c in s[1..] ==> c in s;
      QuoteRunsWithoutQuotes(s[1..]);
      assert [s[0]] + s[1..] == s;
    }
  }

  /** Rewriting the runs never shortens the text, and lengthens it as soon
      as there is a single quote to rewrite. */
  lemma {:induction false} QuoteRunsLength(s: string)
    ensures |QuoteRuns(s)| >= |s|
    ensures '\'' in s ==> |QuoteRuns(s)| > |s|
    decreases |s|
  {
    if |s| > 0 {
      if s[0] == '\'' {
        var n := RunLength(s);
        QuoteRunsLength(s[n..]);
      } else {
        QuoteRunsLength(s[1..]);
        if '\'' in s {
          var i :| 0 <= i < |s| && s[i] == '\'';
          assert s[1..][i - 1] == '\'';
        }
      }
    }
  }

  /** The text `bashEscape` leaves exactly as it was: safe text, and text
      that takes the strong escaping but holds no single quote. Safe-ish
      text gains its double quotes, and any single quote is rewritten. */
  lemma BashEscapeKeeps(s: string)
    ensures BashEscape(s) == s <==> IsSafe(s) || (!IsSafeish(s) && '\'' !in s)
  {
    if !IsSafe(s) && !IsSafeish(s) {
      QuoteRunsLength(s);
      if '\'' !in s {
        QuoteRunsWithoutQuotes(s);
      }
    }
  }

  /** As written, the escape of `$x` is `$x` itself, which a shell expands
      instead of passing through: the escaped word does not read back. */
  lemma AsWrittenDollarNotPreserved()
    ensures BashEscape("$x") == "$x"
    ensures ShellRead(BashEscape("$x"), Unquoted) != Some("$x")
  {
    assert !IsSafeish("$x") by { assert !IsSafeishChar("$x"[0]); }
    QuoteRunsWithoutQuotes("$x");
  }

  /** Safe-ish text such as `p {}` gets the double quotes of the weak
      escaping. */
  lemma SafeishExample()
    ensures BashEscape("p {}") == "\"p {}\""
  {
    var v := "p {}";
    assert !IsSafeChar(v[1]);
    assert IsSafeishChar(v[0]) && IsSafeishChar(v[1]) && IsSafeishChar(v[2]) && IsSafeishChar(v[3]);
  }

  /** A quote followed by `"`, as written, becomes `'\''"`, which leaves an
      unterminated quotation behind. */
  lemma AsWrittenLoneQuoteUnterminated()
    ensures ShellRead(BashEscape("'\"") , Unquoted).None?
  {
    var s := "'\"";
    assert !IsSafeish(s) by { assert !IsSafeishChar(s[1]); }
    assert RunLength(s) == 1;
    assert s[1..] == "\"";
    assert QuoteRuns(s) == "'\\''" + "\"";
  }

  lemma SafeReadsBack(s: string)
    requires IsSafe(s)
    ensures ShellRead(s, Unquoted) == Some(s)
  {
    ReadSafe(s, "");
    assert s + "" == s;
  }

  lemma SafeishIsDoubleLiteral(s: string)
    requires IsSafeish(s)
    ensures forall i :: 0 <= i < |s| ==> DoubleQuoteLiteral(s[i])
  {
    forall i | 0 <= i < |s| ensures DoubleQuoteLiteral(s[i]) {
      assert IsSafeishChar(s[i]);
    }
  }

  lemma DoubleQuotedReadsBack(s: string)
    requires IsSafeish(s)
    ensures ShellRead("\"" + s + "\"", Unquoted) == Some(s)
  {
    var w := "\"" + s + "\"";
    assert w[0] == '"' && w[1..] == s + "\"";
    SafeishIsDoubleLiteral(s);
    ReadDouble(s, "\"");
    assert ShellRead("\"", InDouble) == Some("");
    assert s + "" == s;
  }

  lemma SingleQuotedReadsBack(s: string)
    ensures ShellRead("'" + QuoteRuns(s) + "'", Unquoted) == Some(s)
  {
    var w := "'" + QuoteRuns(s) + "'";
    assert w[0] == '\'' && w[1..] == QuoteRuns(s) + "'";
    ReadQuoteRuns(s, "'");
    assert ShellRead("'", InSingle) == Some("");
    assert s + "" == s;
  }

  /** With the enclosing single quotes, every string reads back exactly:
      the shell hands the program the original text. */
  lemma QuotedEscapeRoundTrip(s: string)
    ensures ShellRead(QuotedEscape(s), Unquoted) == Some(s)
  {
    if IsSafe(s) {
      SafeReadsBack(s);
    } else if IsSafeish(s) {
      DoubleQuotedReadsBack(s);
    } else {
      SingleQuotedReadsBack(s);
    }
  }
}

=== FILE: smart_frame.dfy ===
/** The reference-counted frame container. Calls are taken one at a time;
    the lock that serialises them in the source adds nothing to a
    sequential model. A released container that reaches zero is gone:
    the model returns the frame that was freed instead of a container. */
module SmartFrame {

  /** A frame, identified by its address. */
  type Frame = nat

  datatype SmartFrame = SmartFrame(frame: Frame, ref: int)

  /** What a release leaves: the container with one reference fewer, or
      the freed frame. */
  datatype Released = Live(container: SmartFrame) | Freed(frame: Frame)

  /** `smart_frame_create`: one reference to the given frame. */
  function Create(frame: Frame): (s: SmartFrame)
    ensures s.ref == 1 && Get(s) == frame
  {
    SmartFrame(frame, 1)
  }

  /** `smart_frame_retain`: one reference more, same frame. */
  function Retain(s: SmartFrame): (r: SmartFrame)
    ensures r.ref == s.ref + 1 && Get(r) == Get(s)
  {
    s.(ref := s.ref + 1)
  }

  /** `smart_frame_release`: one reference fewer; the frame and container
      are freed once no reference is left. */
  function Release(s: SmartFrame): (r: Released)
    ensures r.Freed? <==> s.ref <= 1
    ensures r.Freed? ==> r.frame == Get(s)
    ensures r.Live? ==> r.container.ref == s.ref - 1 && Get(r.container) == Get(s)
  {
    if s.ref - 1 <= 0 then Freed(s.frame) else Live(s.(ref := s.ref - 1))
  }

  /** `smart_frame_get`. */
  function Get(s: SmartFrame): Frame {
    s.frame
  }

  datatype Op = RetainOp | ReleaseOp

  /** The change an operation makes to the count. */
  function Delta(op: Op): int {
    if op == RetainOp then 1 else -1
  }

  /** Retains minus releases. */
  function Net(ops: seq<Op>): int
    decreases |ops|
  {
    if |ops| == 0 then 0 else Delta(ops[0]) + Net(ops[1..])
  }

  /** The result of a run of operations: the container still alive, or the
      frame freed by the `steps`-th operation. An operation after that
      would touch freed memory, so a run stops there. */
  datatype Outcome = Alive(container: SmartFrame) | FreedAt(frame: Frame, steps: nat)

  function Apply(s: SmartFrame, op: Op): Released {
    if op == RetainOp then Live(Retain(s)) else Release(s)
  }

  function Run(s: SmartFrame, ops: seq<Op>): Outcome
    decreases |ops|
  {
    if |ops| == 0 then Alive(s)
    else match Apply(s, ops[0])
      case Freed(f) => FreedAt(f, 1)
      case Live(t) =>
        match Run(t, ops[1..])
        case Alive(u) => Alive(u)
        case FreedAt(f, n) => FreedAt(f, n + 1)
  }

  /** Taking the net change of a non-empty prefix one operation at a time. */
  lemma NetPrefix(ops: seq<Op>, i: nat)
    requires 1 <= i <= |ops|
    ensures Net(ops[..i]) == Delta(ops[0]) + Net(ops[1..][..i - 1])
  {
    assert ops[..i][0] == ops[0];
    assert ops[..i][1..] == ops[1..][..i - 1];
  }

  /** The count is the initial count plus the net change so far, and the
      container is freed by the first operation that takes it to zero or
      below, never earlier, always with the frame it was created with. */
  lemma {:induction false} RunCounts(s: SmartFrame, ops: seq<Op>)
    requires s.ref > 0
    ensures Run(s, ops).Alive? ==>
              && Get(Run(s, ops).container) == Get(s)
              && Run(s, ops).container.ref == s.ref + Net(ops)
              && forall i :: 1 <= i <= |ops| ==> s.ref + Net(ops[..i]) > 0
    ensures Run(s, ops).FreedAt? ==>
              var n := Run(s, ops).steps;
              && Run(s, ops).frame == Get(s)
              && 1 <= n <= |ops|
              && s.ref + Net(ops[..n]) <= 0
              && forall i :: 1 <= i < n ==> s.ref + Net(ops[..i]) > 0
    decreases |ops|
  {
    if |ops| > 0 {
      NetPrefix(ops, 1);
      assert Net(ops[1..][..0]) == 0;
      match Apply(s, ops[0])
      case Freed(f) =>
      case Live(t) =>
        RunCounts(t, ops[1..]);
        assert t.ref == s.ref + Delta(ops[0]);
        forall i | 1 <= i <= |ops|
          ensures s.ref + Net(ops[..i]) == t.ref + Net(ops[1..][..i - 1])
        {
          NetPrefix(ops, i);
        }
        assert s.ref + Net(ops[..1]) > 0;
        if |ops| > 1 {
          assert ops[1..][..|ops| - 1] == ops[1..];
        }
    }
  }

  function Repeat(op: Op, n: nat): (r: seq<Op>)
    ensures |r| == n && forall i :: 0 <= i < n ==> r[i] == op
  {
    if n == 0 then [] else [op] + Repeat(op, n - 1)
  }

  /** After `n` retains a fresh container survives `n` releases and is
      freed by the next one, handing back the frame it was created with. */
  lemma {:induction false} FreedAtLastRelease(frame: Frame, n: nat, k: nat)
    requires k <= n + 1
    ensures var ops := Repeat(RetainOp, n) + Repeat(ReleaseOp, k);
            && (k <= n ==> Run(Create(frame), ops) == Alive(SmartFrame(frame, n + 1 - k)))
            && (k == n + 1 ==> Run(Create(frame), ops) == FreedAt(frame, 2 * n + 1))
  {
    RetainsThenReleases(Create(frame), n, k);
  }

  /** The general form: `n` retains followed by `k` releases on a live
      container with any count. */
  lemma {:induction false} RetainsThenReleases(s: SmartFrame, n: nat, k: nat)
    requires s.ref >= 1 && k <= s.ref + n
    ensures var ops := Repeat(RetainOp, n) + Repeat(ReleaseOp, k);
            && (k < s.ref + n ==> Run(s, ops) == Alive(s.(ref := s.ref + n - k)))
            && (k == s.ref + n ==> Run(s, ops) == FreedAt(s.frame, n + k))
    decreases n, k
  {
    var ops := Repeat(RetainOp, n) + Repeat(ReleaseOp, k);
    if n > 0 {
      assert ops[0] == RetainOp;
      assert ops[1..] == Repeat(RetainOp, n - 1) + Repeat(ReleaseOp, k);
      RetainsThenReleases(Retain(s), n - 1, k);
    } else if k > 0 {
      assert ops == Repeat(ReleaseOp, k);
      assert ops[0] == ReleaseOp;
      if s.ref > 1 {
        assert ops[1..] == Repeat(RetainOp, 0) + Repeat(ReleaseOp, k - 1);
        RetainsThenReleases(s.(ref := s.ref - 1), 0, k - 1);
      }
    } else {
      assert ops == [];
    }
  }
}

=== FILE: sorting.dfy ===
/** Ordering a sequence by an integer key (z-index, z order). The C++ code
    uses `std::sort` with a strict "less key" comparator; any result it may
    produce is a permutation sorted by the key, which is what the callers rely
    on. The model computes one such result with a stable insertion sort. */
module Sorting {

  ghost predicate SortedBy<T>(s: seq<T>, key: T -> int) {
    forall i, j :: 0 <= i < j < |s| ==> key(s[i]) <= key(s[j])
  }

  /** Inserts `x` after every element whose key is not greater than its own. */
  function Insert<T>(x: T, s: seq<T>, key: T -> int): (r: seq<T>)
    requires SortedBy(s, key)
    ensures |r| == |s| + 1
    ensures SortedBy(r, key)
    ensures multiset(r) == multiset(s) + multiset{x}
    ensures r[0] == x || (|s| > 0 && r[0] == s[0])
  {
    if |s| == 0 then [x]
    else if key(x) < key(s[0]) then [x] + s
    else
      var rest := Insert(x, s[1..], key);
      assert s == [s[0]] + s[1..];
      assert key(s[0]) <= key(rest[0]);
      [s[0]] + rest
  }

  /** A permutation of `s` sorted by ascending key. */
  function SortBy<T>(s: seq<T>, key: T -> int): (r: seq<T>)
    ensures |r| == |s|
    ensures SortedBy(r, key)
    ensures multiset(r) == multiset(s)
  {
    if |s| == 0 then []
    else
      assert s == s[..|s| - 1] + [s[|s| - 1]];
      Insert(s[|s| - 1], SortBy(s[..|s| - 1], key), key)
  }

  /** Sorting keeps exactly the elements of the input. */
  lemma SortByMembers<T>(s: seq<T>, key: T -> int, x: T)
    ensures x in SortBy(s, key) <==> x in s
  {
    var r := SortBy(s, key);
    assert x in r <==> x in multiset(r);
    assert x in s <==> x in multiset(s);
  }
}

=== FILE: task_runner.dfy ===
/** The stand-alone task runner: one archive job driven by environment
    variables, run as download -> barc transform -> upload -> postback.
    Every I/O outcome (download, child exit, upload) and the `validator`
    predicates are inputs; the run is the sequence of effects it starts. */
module TaskRunner {
  import opened Common
  import opened Text
  import opened ShellEscape

  /** The environment the runner reads. Values are strings when set. */
  datatype Env = Env(
    taskId: Option<string>,
    archiveURL: Option<string>,
    callbackURL: Option<string>,
    s3Prefix: Option<string>,
    s3Bucket: Option<string>,
    cleanArtifacts: Option<string>)

  /** One parsed command-line option (minimist key and value, as text). */
  type Option_ = (string, string)

  /** Every key except minimist's positional-arguments key `_`. */
  predicate IsOptionKey(a: Option_) {
    a.0 != "_"
  }

  /** The `--key=value` argument for one option, with the value passed
      through `bashEscape`. */
  function OptionArg(a: Option_): string {
    "--" + a.0 + "=" + BashEscape(a.1)
  }

  /** The options handed on to `barc`, as the runner's loop over the
      parsed options builds them. */
  function OptionArgs(argv: seq<Option_>): (r: seq<string>)
    ensures |r| == |Filter(argv, IsOptionKey)|
    ensures forall i :: 0 <= i < |r| ==> r[i] == OptionArg(Filter(argv, IsOptionKey)[i])
  {
    MapFilter(argv, IsOptionKey, OptionArg)
  }

  /** Where the transform writes its output. */
  function OutputPath(cwd: string, taskId: string): string {
    cwd + "/" + (taskId + ".mp4")
  }

  function LogPath(cwd: string, taskId: string): string {
    cwd + "/" + (taskId + ".log")
  }

  /** Where the download is stored, relative to the working directory. */
  function InputPath(taskId: string): string {
    taskId + ".archive.input"
  }

  /** Template-string text of a value that may be `null`. */
  function NullableText(p: Option<string>): string {
    if p.None? then "null" else p.value
  }

  /** The argument vector handed to `barc`: input, output, then one escaped
      `--key=value` per option other than `_`, in option order. */
  function ArgVector(input: Option<string>, cwd: string, taskId: string, argv: seq<Option_>): (r: seq<string>)
    ensures |r| == 2 + |Filter(argv, IsOptionKey)|
    ensures r[0] == "-i" + NullableText(input)
    ensures r[1] == "-o" + OutputPath(cwd, taskId)
    ensures r[2..] == OptionArgs(argv)
  {
    ["-i" + NullableText(input), "-o" + OutputPath(cwd, taskId)] + OptionArgs(argv)
  }

  /** Text split at its first `=`: what comes before and after it. */
  function SplitAtEquals(s: string): (r: Option<(string, string)>)
    ensures r.None? <==> '=' !in s
    ensures r.Some? ==> s == r.value.0 + "=" + r.value.1 && '=' !in r.value.0
    decreases |s|
  {
    if |s| == 0 then None
    else if s[0] == '=' then Some(("", s[1..]))
    else
      match SplitAtEquals(s[1..])
      case None => None
      case Some(p) => Some(([s[0]] + p.0, p.1))
  }

  /** How `getopt_long` reads a `--name=value` argument: the name runs to
      the first `=` and the value is everything after it. `None` for an
      argument of any other shape. */
  function SplitLongOption(arg: string): (r: Option<(string, string)>)
    ensures r.Some? ==> arg == "--" + r.value.0 + "=" + r.value.1 && '=' !in r.value.0
  {
    if |arg| < 2 || arg[..2] != "--" then None
    else
      var r := SplitAtEquals(arg[2..]);
      assert r.Some? ==> arg == arg[..2] + arg[2..];
      r
  }

  /** A name without `=` is recovered whatever the value holds. */
  lemma {:induction false} SplitAtFirstEquals(k: string, v: string)
    requires '=' !in k
    ensures SplitAtEquals(k + "=" + v) == Some((k, v))
    decreases |k|
  {
    var s := k + "=" + v;
    if |k| == 0 {
      assert s == "=" + v && s[1..] == v;
    } else {
      assert s[0] == k[0] && s[1..] == k[1..] + "=" + v;
      assert '=' !in k[1..] by { assert forall c :: c in k[1..] ==> c in k; }
      SplitAtFirstEquals(k[1..], v);
      assert [k[0]] + k[1..] == k;
    }
  }

  lemma LongOptionOf(k: string, v: string)
    requires '=' !in k
    ensures SplitLongOption("--" + k + "=" + v) == Some((k, v))
  {
    var arg := "--" + k + "=" + v;
    assert arg[..2] == "--" && arg[2..] == k + "=" + v;
    SplitAtFirstEquals(k, v);
  }

  /** What `barc` receives for an option. `spawn` starts it without a
      shell, so `getopt_long` hands it the escaped text itself, and that is
      the option's value only for safe text or for text that takes the
      strong escaping but holds no single quote. Option names from
      `minimist` hold no `=`. */
  lemma OptionValueAsReceived(a: Option_)
    requires '=' !in a.0
    ensures SplitLongOption(OptionArg(a)) == Some((a.0, BashEscape(a.1)))
    ensures SplitLongOption(OptionArg(a)) == Some(a) <==> IsSafe(a.1) || (!IsSafeish(a.1) && '\'' !in a.1)
  {
    LongOptionOf(a.0, BashEscape(a.1));
    BashEscapeKeeps(a.1);
  }

  /** As written, custom CSS such as `p {}` reaches `barc` with the double
      quotes of the weak escaping around it. */
  lemma AsWrittenQuotesReachBarc()
    ensures SplitLongOption(OptionArg(("custom_css", "p {}"))) == Some(("custom_css", "\"p {}\""))
  {
    SafeishExample();
    assert '=' !in "custom_css";
    LongOptionOf("custom_css", "\"p {}\"");
  }

  /** The corrected argument: with no shell in between, the value is passed
      as it is. */
  function DirectOptionArg(a: Option_): string {
    "--" + a.0 + "=" + a.1
  }

  /** With the value passed as it is, `barc` reads back every option exactly. */
  lemma DirectOptionReadsBack(a: Option_)
    requires '=' !in a.0
    ensures SplitLongOption(DirectOptionArg(a)) == Some(a)
  {
    LongOptionOf(a.0, a.1);
  }

  /** How the child process ended: an exit code (`null` after a signal) or
      a failure to spawn it. */
  datatype ChildEnd = Exited(code: Option<int>) | SpawnFailed(error: string)

  /** What the transform step reports to its continuation. */
  datatype Processed = Output(path: string) | ProcessError(message: string)

  const UnknownCodePrefix: string := "error - unknown return code "

  function CodeText(code: Option<int>): string {
    if code.None? then "null" else IntToString(code.value)
  }

  /** The transform's report: the output path on exit code 0, an error
      naming the code on any other exit, the spawn error itself otherwise. */
  function OnChildEnd(e: ChildEnd, cwd: string, taskId: string): (r: Processed)
    ensures r.Output? <==> e == Exited(Some(0))
    ensures r.Output? ==> r.path == OutputPath(cwd, taskId)
    ensures e.SpawnFailed? ==> r == ProcessError(e.error)
  {
    match e
    case Exited(code) =>
      if code == Some(0) then Output(OutputPath(cwd, taskId))
      else ProcessError(UnknownCodePrefix + CodeText(code))
    case SpawnFailed(err) => ProcessError(err)
  }

  /** The error for a non-zero exit names the code: `atoi` of the text after
      the fixed prefix gives it back. */
  lemma UnknownCodeNamed(code: int, cwd: string, taskId: string)
    requires code != 0
    ensures var r := OnChildEnd(Exited(Some(code)), cwd, taskId);
            && r.ProcessError? && |UnknownCodePrefix| <= |r.message|
            && r.message[..|UnknownCodePrefix|] == UnknownCodePrefix
            && Atoi(r.message[|UnknownCodePrefix|..]) == code
  {
    var m := UnknownCodePrefix + IntToString(code);
    assert m[|UnknownCodePrefix|..] == IntToString(code);
    AtoiRoundTrip(code);
  }

  /** Key of an uploaded file: `<prefix>/<taskId>/<basename of path>`. */
  function UploadKey(prefix: string, taskId: string, output: string): string {
    prefix + "/" + taskId + "/" + Basename(output)
  }

  /** For a task id without '/', the uploaded key ends in `<taskId>.mp4`. */
  lemma UploadKeyOfOutput(prefix: string, cwd: string, taskId: string)
    requires '/' !in taskId
    ensures UploadKey(prefix, taskId, OutputPath(cwd, taskId)) == prefix + "/" + taskId + "/" + taskId + ".mp4"
  {
    var name := taskId + ".mp4";
    NoSlashAppend(taskId, ".mp4");
    BasenameOfJoin(cwd, name);
    assert prefix + "/" + taskId + "/" + name == prefix + "/" + taskId + "/" + taskId + ".mp4";
  }

  /** The compressed log, `<cwd>/<taskId>.log.gz`. */
  function CompressedLogPath(cwd: string, taskId: string): string {
    LogPath(cwd, taskId) + ".gz"
  }

  /** For a task id without '/', the compressed log is stored under
      `<prefix>/<taskId>/<taskId>.log.gz`, next to the output. */
  lemma UploadKeyOfLog(prefix: string, cwd: string, taskId: string)
    requires '/' !in taskId
    ensures UploadKey(prefix, taskId, CompressedLogPath(cwd, taskId)) == prefix + "/" + taskId + "/" + taskId + ".log.gz"
  {
    var name := taskId + ".log.gz";
    NoSlashAppend(taskId, ".log.gz");
    assert CompressedLogPath(cwd, taskId) == cwd + "/" + name;
    BasenameOfJoin(cwd, name);
    assert prefix + "/" + taskId + "/" + name == prefix + "/" + taskId + "/" + taskId + ".log.gz";
  }

  /** Body of a postback request. */
  datatype Postback = Postback(job: string, result: string)

  /** An effect the run starts, in the order it starts them. `Store`
      uploads the local file `path` under the key
      `UploadKey(prefix, taskId, path)`. `Throw` is an exception nothing
      catches: the process ends there, and nothing after it happens. */
  datatype Effect =
    | Fetch(url: string)
    | Spawn(args: seq<string>)
    | Delete(path: string)
    | Compress(path: string, into: string)
    | Store(prefix: string, taskId: string, path: string)
    | Post(url: string, body: Postback)
    | Throw(error: string)

  datatype DownloadEnd = Downloaded | DownloadFailed(message: string)
  datatype UploadEnd = Uploaded | UploadFailed(error: string)

  /** How compressing the log ends: the compressed log is written and its
      upload ends as given, or the log cannot be read, an error event that
      nothing listens for. */
  datatype LogEnd = LogCompressed(up: UploadEnd) | LogUnreadable

  /** `fs.unlinkSync` of a `null` path throws a type error. */
  const NullPathError: string := "TypeError: path must be a string"
  /** The read stream of the log reports a file that does not exist. */
  const LogReadError: string := "ENOENT: no such file or directory"

  /** No effect of `r` ends the process. */
  predicate ThrowFree(r: seq<Effect>) {
    forall i :: 0 <= i < |r| ==> !r[i].Throw?
  }

  /** No effect of `r` is a postback. */
  predicate PostFree(r: seq<Effect>) {
    forall i :: 0 <= i < |r| ==> !r[i].Post?
  }

  /** The run starts at all only with a truthy URL and a truthy ASCII id. */
  predicate StartupOk(env: Env, isURL: string -> bool, isAscii: string -> bool) {
    && Truthy(env.archiveURL) && isURL(env.archiveURL.value)
    && Truthy(env.taskId) && isAscii(env.taskId.value)
  }

  /** `tryPostback`: a request only to a truthy, valid callback URL, with
      body `{job: taskId, result}`. */
  function TryPostback(env: Env, taskId: string, result: string, isURL: string -> bool): (r: seq<Effect>)
    ensures |r| <= 1
    ensures |r| == 1 <==> Truthy(env.callbackURL) && isURL(env.callbackURL.value)
    ensures |r| == 1 ==> r[0] == Post(env.callbackURL.value, Postback(taskId, result))
  {
    if Truthy(env.callbackURL) && isURL(env.callbackURL.value) then
      [Post(env.callbackURL.value, Postback(taskId, result))]
    else []
  }

  predicate S3Configured(env: Env) {
    Truthy(env.s3Prefix) && Truthy(env.s3Bucket)
  }

  /** The synchronous rest of the exit handler, after its callback: start
      compressing the log, delete the log, and, when CLEAN_ARTIFACTS is
      set, delete the downloaded input. With no input path (`null`) that
      deletion throws. */
  function ExitCleanup(input: Option<string>, cwd: string, taskId: string, clean: Option<string>): (r: seq<Effect>)
    ensures |r| == if Truthy(clean) then 3 else 2
    ensures r[0] == Compress(LogPath(cwd, taskId), CompressedLogPath(cwd, taskId))
    ensures r[1] == Delete(LogPath(cwd, taskId))
    ensures !ThrowFree(r) <==> Truthy(clean) && input.None?
    ensures input.Some? ==> (Delete(input.value) in r[2..] <==> Truthy(clean))
    ensures Truthy(clean) && input.None? ==> r[2] == Throw(NullPathError)
    ensures PostFree(r)
  {
    var log := LogPath(cwd, taskId);
    var extra := if !Truthy(clean) then []
                 else if input.Some? then [Delete(input.value)]
                 else [Throw(NullPathError)];
    var r := [Compress(log, CompressedLogPath(cwd, taskId)), Delete(log)] + extra;
    assert r[2..] == extra;
    assert Truthy(clean) && input.None? ==> r[2].Throw?;
    assert !(Truthy(clean) && input.None?) ==> forall i :: 0 <= i < |r| ==> !r[i].Throw?;
    r
  }

  /** `uploadLogs`, once the compressed log is written: nothing without S3
      configuration; otherwise store it, and delete it when its upload
      ends and CLEAN_ARTIFACTS is set. */
  function LogUpload(env: Env, taskId: string, gz: string, up: UploadEnd): (r: seq<Effect>)
    ensures PostFree(r) && ThrowFree(r)
    ensures |r| > 0 <==> S3Configured(env)
    ensures S3Configured(env) ==> r[0] == Store(env.s3Prefix.value, taskId, gz)
    ensures Delete(gz) in r <==> S3Configured(env) && up.Uploaded? && Truthy(env.cleanArtifacts)
  {
    if !S3Configured(env) then []
    else if up.Uploaded? && Truthy(env.cleanArtifacts) then
      [Store(env.s3Prefix.value, taskId, gz), Delete(gz)]
    else [Store(env.s3Prefix.value, taskId, gz)]
  }

  /** Everything the exit handler itself starts, its callback aside: the
      cleanup, then either the end of the process or the log's upload. */
  function ExitHandling(env: Env, taskId: string, input: Option<string>, cwd: string, log: LogEnd): (r: seq<Effect>)
    ensures PostFree(r)
    ensures |ExitCleanup(input, cwd, taskId, env.cleanArtifacts)| <= |r|
    ensures r[..|ExitCleanup(input, cwd, taskId, env.cleanArtifacts)|] == ExitCleanup(input, cwd, taskId, env.cleanArtifacts)
    ensures !ThrowFree(r) <==> (Truthy(env.cleanArtifacts) && input.None?) || log.LogUnreadable?
    ensures ThrowFree(r) && S3Configured(env) ==>
              Store(env.s3Prefix.value, taskId, CompressedLogPath(cwd, taskId)) in r
  {
    var cleanup := ExitCleanup(input, cwd, taskId, env.cleanArtifacts);
    var rest := if !ThrowFree(cleanup) then []
                else if log.LogUnreadable? then [Throw(LogReadError)]
                else LogUpload(env, taskId, CompressedLogPath(cwd, taskId), log.up);

    var r := cleanup + rest;
    assert r[..|cleanup|] == cleanup;
    assert !ThrowFree(cleanup) ==> !ThrowFree(r) by {
      if !ThrowFree(cleanup) {
        var i :| 0 <= i < |cleanup| && cleanup[i].Throw?;
        assert r[i] == cleanup[i];
      }
    }
    assert log.LogUnreadable? && ThrowFree(cleanup) ==> r[|r| - 1].Throw?;
    assert !ThrowFree(r) ==> !ThrowFree(cleanup) || !ThrowFree(rest) by {
      if !ThrowFree(r) {
        var i :| 0 <= i < |r| && r[i].Throw?;
        if i >= |cleanup| { assert rest[i - |cleanup|] == r[i]; }
      }
    }
    assert ThrowFree(r) && S3Configured(env) ==> r[|cleanup|] == rest[0];
    r
  }

  /** The result an upload reports to the chain. */
  function UploadResult(up: UploadEnd): string {
    match up
    case Uploaded => "success"
    case UploadFailed(e) => "upload error: " + e
  }

  /** The synchronous start of `uploadArchiveOutput`: without S3
      configuration nothing happens and the chain stops silently;
      otherwise the upload starts. */
  function UploadStart(env: Env, taskId: string, output: string): seq<Effect> {
    if S3Configured(env) then [Store(env.s3Prefix.value, taskId, output)] else []
  }

  /** When the upload ends: the output is removed on success when
      cleaning, then the outcome is posted back. */
  function UploadEnding(env: Env, taskId: string, output: string, up: UploadEnd, isURL: string -> bool): seq<Effect> {
    if !S3Configured(env) then []
    else
      (if up.Uploaded? && Truthy(env.cleanArtifacts) then [Delete(output)] else [])
      + TryPostback(env, taskId, UploadResult(up), isURL)
  }

  /** Everything after the child process ends. A spawn failure only calls
      back. An exit calls back first (a postback of the error, or the start
      of the upload), then runs the exit handling; when the process lives
      on, the upload's end follows. The two uploads overlap in time; the
      log's is listed first. */
  function AfterChild(env: Env, taskId: string, input: Option<string>, cwd: string,
                      isURL: string -> bool, child: ChildEnd, up: UploadEnd, log: LogEnd): seq<Effect>
  {
    match child
    case SpawnFailed(err) => TryPostback(env, taskId, "process error: " + err, isURL)
    case Exited(code) =>
      var handling := ExitHandling(env, taskId, input, cwd, log);
      match OnChildEnd(child, cwd, taskId)
      case ProcessError(m) => TryPostback(env, taskId, "process error: " + m, isURL) + handling
      case Output(path) =>
        UploadStart(env, taskId, path) + handling
        + (if ThrowFree(handling) then UploadEnding(env, taskId, path, up, isURL) else [])
  }

  /** Everything after the download ends. A download error first starts
      deleting the partial download; one with an empty message is falsy,
      so the run then carries on with a `null` input path. */
  function AfterDownload(env: Env, taskId: string, argv: seq<Option_>, cwd: string,
                         isURL: string -> bool, dl: DownloadEnd, child: ChildEnd, up: UploadEnd, log: LogEnd): seq<Effect>
  {
    var unlink := if dl.DownloadFailed? then [Delete(InputPath(taskId))] else [];
    if dl.DownloadFailed? && dl.message != "" then
      unlink + TryPostback(env, taskId, "download error: " + dl.message, isURL)
    else
      var input := if dl.Downloaded? then Some(InputPath(taskId)) else None;
      unlink + [Spawn(ArgVector(input, cwd, taskId, argv))] + AfterChild(env, taskId, input, cwd, isURL, child, up, log)
  }

  /** The whole run: startup checks, then download, transform, upload and
      postback. */
  function Run(env: Env, argv: seq<Option_>, cwd: string,
               isURL: string -> bool, isAscii: string -> bool,
               dl: DownloadEnd, child: ChildEnd, up: UploadEnd, log: LogEnd): seq<Effect>
  {
    if !StartupOk(env, isURL, isAscii) then []
    else [Fetch(env.archiveURL.value)] + AfterDownload(env, env.taskId.value, argv, cwd, isURL, dl, child, up, log)
  }

  /** The results posted back during a run, in order. */
  function Posted(r: seq<Effect>): seq<string> {
    if |r| == 0 then []
    else if r[0].Post? then [r[0].body.result] + Posted(r[1..])
    else Posted(r[1..])
  }

  lemma {:induction false} PostedAppend(a: seq<Effect>, b: seq<Effect>)
    ensures Posted(a + b) == Posted(a) + Posted(b)
    decreases |a|
  {
    if |a| == 0 {
      assert a + b == b;
    } else {
      assert (a + b)[1..] == a[1..] + b;
      PostedAppend(a[1..], b);
    }
  }

  lemma {:induction false} PostedPostFree(r: seq<Effect>)
    requires PostFree(r)
    ensures Posted(r) == []
    decreases |r|
  {
    if |r| > 0 {
      PostedPostFree(r[1..]);
    }
  }

  /** The postbacks a single `tryPostback` call makes. */
  function PostsOf(env: Env, result: string, isURL: string -> bool): seq<string> {
    if Truthy(env.callbackURL) && isURL(env.callbackURL.value) then [result] else []
  }

  /** Whether the process ends in the exit handling: a `null` input with
      CLEAN_ARTIFACTS set, or an unreadable log. */
  predicate EndsAtExit(env: Env, dl: DownloadEnd, log: LogEnd) {
    (Truthy(env.cleanArtifacts) && dl.DownloadFailed?) || log.LogUnreadable?
  }

  /** Reference for the callback chain: the one result handed to
      `tryPostback`, or none when the chain stops silently or the process
      ends before the upload does. */
  function ChainResult(env: Env, dl: DownloadEnd, child: ChildEnd, up: UploadEnd, log: LogEnd): Option<string>
  {
    if dl.DownloadFailed? && dl.message != "" then Some("download error: " + dl.message)
    else if child.SpawnFailed? then Some("process error: " + child.error)
    else if child.code != Some(0) then Some("process error: " + (UnknownCodePrefix + CodeText(child.code)))
    else if !S3Configured(env) || EndsAtExit(env, dl, log) then None
    else Some(UploadResult(up))
  }

  lemma PostedUploadEnding(env: Env, taskId: string, output: string, up: UploadEnd, isURL: string -> bool)
    ensures Posted(UploadEnding(env, taskId, output, up, isURL))
         == if S3Configured(env) then PostsOf(env, UploadResult(up), isURL) else []
  {
    if S3Configured(env) {
      var extra: seq<Effect> := if up.Uploaded? && Truthy(env.cleanArtifacts) then [Delete(output)] else [];
      var t := TryPostback(env, taskId, UploadResult(up), isURL);
      PostedAppend(extra, t);
      assert Posted(extra) == [];
      assert Posted(t) == PostsOf(env, UploadResult(up), isURL);
    }
  }

  lemma PostedExitError(env: Env, taskId: string, input: Option<string>, cwd: string,
                         isURL: string -> bool, code: Option<int>, up: UploadEnd, log: LogEnd)
    requires code != Some(0)
    ensures Posted(AfterChild(env, taskId, input, cwd, isURL, Exited(code), up, log))
         == PostsOf(env, "process error: " + (UnknownCodePrefix + CodeText(code)), isURL)
  {
    var handling := ExitHandling(env, taskId, input, cwd, log);
    var p := TryPostback(env, taskId, "process error: " + (UnknownCodePrefix + CodeText(code)), isURL);
    assert AfterChild(env, taskId, input, cwd, isURL, Exited(code), up, log) == p + handling;
    PostedPostFree(handling);
    PostedAppend(p, handling);
  }

  lemma AfterChildOk(env: Env, taskId: string, input: Option<string>, cwd: string,
                     isURL: string -> bool, up: UploadEnd, log: LogEnd)
    ensures var path := OutputPath(cwd, taskId);
            var handling := ExitHandling(env, taskId, input, cwd, log);
            AfterChild(env, taskId, input, cwd, isURL, Exited(Some(0)), up, log)
            == UploadStart(env, taskId, path) + handling
               + (if ThrowFree(handling) then UploadEnding(env, taskId, path, up, isURL) else [])
  {
  }

  lemma PostedExitOk(env: Env, taskId: string, input: Option<string>, cwd: string,
                     isURL: string -> bool, up: UploadEnd, log: LogEnd)
    ensures var handling := ExitHandling(env, taskId, input, cwd, log);
            Posted(AfterChild(env, taskId, input, cwd, isURL, Exited(Some(0)), up, log))
            == if S3Configured(env) && ThrowFree(handling) then PostsOf(env, UploadResult(up), isURL) else []
  {
    var path := OutputPath(cwd, taskId);
    var handling := ExitHandling(env, taskId, input, cwd, log);
    var start := UploadStart(env, taskId, path);
    var ending := if ThrowFree(handling) then UploadEnding(env, taskId, path, up, isURL) else [];
    AfterChildOk(env, taskId, input, cwd, isURL, up, log);
    PostedPostFree(handling);
    PostedAppend(start + handling, ending);
    PostedAppend(start, handling);
    assert Posted(start) == [];
    PostedUploadEnding(env, taskId, path, up, isURL);
  }

  lemma PostedAfterChild(env: Env, taskId: string, input: Option<string>, cwd: string,
                         isURL: string -> bool, dl: DownloadEnd, child: ChildEnd, up: UploadEnd, log: LogEnd)
    requires !(dl.DownloadFailed? && dl.message != "")
    requires input.None? <==> dl.DownloadFailed?
    ensures (var c := ChainResult(env, dl, child, up, log);
             Posted(AfterChild(env, taskId, input, cwd, isURL, child, up, log))
             == if c.Some? then PostsOf(env, c.value, isURL) else [])
  {
    match child
    case SpawnFailed(err) =>
    case Exited(code) =>
      if code == Some(0) {
        PostedExitOk(env, taskId, input, cwd, isURL, up, log);
      } else {
        PostedExitError(env, taskId, input, cwd, isURL, code, up, log);
      }
  }

  /** The chain posts back at most once, and what it posts is the result
      of the first phase that failed, or the upload's outcome when the
      process lives to see it. */
  lemma PostedIsChainResult(env: Env, argv: seq<Option_>, cwd: string,
                            isURL: string -> bool, isAscii: string -> bool,
                            dl: DownloadEnd, child: ChildEnd, up: UploadEnd, log: LogEnd)
    ensures (var c := ChainResult(env, dl, child, up, log);
             Posted(Run(env, argv, cwd, isURL, isAscii, dl, child, up, log))
             == if StartupOk(env, isURL, isAscii) && c.Some? then PostsOf(env, c.value, isURL) else [])
    ensures |Posted(Run(env, argv, cwd, isURL, isAscii, dl, child, up, log))| <= 1
  {
    if StartupOk(env, isURL, isAscii) {
      var taskId := env.taskId.value;
      PostedAppend([Fetch(env.archiveURL.value)], AfterDownload(env, taskId, argv, cwd, isURL, dl, child, up, log));
      PostedAfterDownload(env, taskId, argv, cwd, isURL, dl, child, up, log);
    }
  }

  lemma PostedAfterDownload(env: Env, taskId: string, argv: seq<Option_>, cwd: string, isURL: string -> bool,
                            dl: DownloadEnd, child: ChildEnd, up: UploadEnd, log: LogEnd)
    ensures (var c := ChainResult(env, dl, child, up, log);
             Posted(AfterDownload(env, taskId, argv, cwd, isURL, dl, child, up, log))
             == if c.Some? then PostsOf(env, c.value, isURL) else [])
  {
    var unlink: seq<Effect> := if dl.DownloadFailed? then [Delete(InputPath(taskId))] else [];
    if dl.DownloadFailed? && dl.message != "" {
      PostedAppend(unlink, TryPostback(env, taskId, "download error: " + dl.message, isURL));
    } else {
      var input := if dl.Downloaded? then Some(InputPath(taskId)) else None;
      var start := unlink + [Spawn(ArgVector(input, cwd, taskId, argv))];
      PostedAppend(start, AfterChild(env, taskId, input, cwd, isURL, child, up, log));
      PostedPostFree(start);
      PostedAfterChild(env, taskId, input, cwd, isURL, dl, child, up, log);
    }
  }

  /** Without a valid archive URL and task id nothing happens at all. */
  lemma StartupFailureDoesNothing(env: Env, argv: seq<Option_>, cwd: string,
                                  isURL: string -> bool, isAscii: string -> bool,
                                  dl: DownloadEnd, child: ChildEnd, up: UploadEnd, log: LogEnd)
    requires !StartupOk(env, isURL, isAscii)
    ensures Run(env, argv, cwd, isURL, isAscii, dl, child, up, log) == []
  {
  }

  /** A download error deletes the partial download and goes no further
      than its postback. */
  lemma DownloadErrorStops(env: Env, argv: seq<Option_>, cwd: string,
                           isURL: string -> bool, isAscii: string -> bool,
                           m: string, child: ChildEnd, up: UploadEnd, log: LogEnd)
    requires StartupOk(env, isURL, isAscii) && m != ""
    ensures Run(env, argv, cwd, isURL, isAscii, DownloadFailed(m), child, up, log)
         == [Fetch(env.archiveURL.value), Delete(InputPath(env.taskId.value))]
            + TryPostback(env, env.taskId.value, "download error: " + m, isURL)
  {
  }

  /** A failed transform goes no further than its postback and the exit
      handling: the output is never uploaded. */
  lemma ProcessErrorStops(env: Env, argv: seq<Option_>, cwd: string,
                          isURL: string -> bool, isAscii: string -> bool,
                          child: ChildEnd, up: UploadEnd, log: LogEnd)
    requires StartupOk(env, isURL, isAscii)
    requires child != Exited(Some(0))
    ensures (var taskId := env.taskId.value;
             var input := Some(InputPath(taskId));
             Run(env, argv, cwd, isURL, isAscii, Downloaded, child, up, log)
             == [Fetch(env.archiveURL.value), Spawn(ArgVector(input, cwd, taskId, argv))]
                + TryPostback(env, taskId, "process error: " + OnChildEnd(child, cwd, taskId).message, isURL)
                + (if child.Exited? then ExitHandling(env, taskId, input, cwd, log) else []))
  {
    var taskId := env.taskId.value;
    var input := Some(InputPath(taskId));
    var h: seq<Effect> := if child.Exited? then ExitHandling(env, taskId, input, cwd, log) else [];
    AfterDownloadOk(env, taskId, argv, cwd, isURL, child, up, log);
    AfterChildOnError(env, taskId, input, cwd, isURL, child, up, log);
    EffectsAssoc(Fetch(env.archiveURL.value), Spawn(ArgVector(input, cwd, taskId, argv)),
                 TryPostback(env, taskId, "process error: " + OnChildEnd(child, cwd, taskId).message, isURL), h);
  }

  lemma EffectsAssoc(a: Effect, b: Effect, c: seq<Effect>, d: seq<Effect>)
    ensures [a] + ([b] + (c + d)) == [a, b] + c + d
  {
  }

  lemma AfterDownloadOk(env: Env, taskId: string, argv: seq<Option_>, cwd: string,
                        isURL: string -> bool, child: ChildEnd, up: UploadEnd, log: LogEnd)
    ensures var input := Some(InputPath(taskId));
            AfterDownload(env, taskId, argv, cwd, isURL, Downloaded, child, up, log)
            == [Spawn(ArgVector(input, cwd, taskId, argv))] + AfterChild(env, taskId, input, cwd, isURL, child, up, log)
  {
    var input := Some(InputPath(taskId));
    var b := [Spawn(ArgVector(input, cwd, taskId, argv))];
    assert [] + b == b;
  }

  lemma AfterChildOnError(env: Env, taskId: string, input: Option<string>, cwd: string,
                          isURL: string -> bool, child: ChildEnd, up: UploadEnd, log: LogEnd)
    requires child != Exited(Some(0))
    ensures AfterChild(env, taskId, input, cwd, isURL, child, up, log)
         == TryPostback(env, taskId, "process error: " + OnChildEnd(child, cwd, taskId).message, isURL)
            + (if child.Exited? then ExitHandling(env, taskId, input, cwd, log) else [])
  {
    assert OnChildEnd(child, cwd, taskId).ProcessError?;
    if child.SpawnFailed? {
      var p := TryPostback(env, taskId, "process error: " + child.error, isURL);
      assert p + [] == p;
    }
  }

  /** A download that fails with an empty message runs `barc` on `-inull`;
      with CLEAN_ARTIFACTS set, the exit handler then throws on deleting
      the `null` input, so the process ends before any upload does and
      nothing is posted for a successful exit. */
  lemma NullInputCleanupThrows(env: Env, argv: seq<Option_>, cwd: string,
                               isURL: string -> bool, isAscii: string -> bool,
                               code: Option<int>, up: UploadEnd, log: LogEnd)
    requires StartupOk(env, isURL, isAscii) && Truthy(env.cleanArtifacts)
    ensures var r := Run(env, argv, cwd, isURL, isAscii, DownloadFailed(""), Exited(code), up, log);
            && |r| >= 3 && r[2].Spawn? && r[2].args[0] == "-inull"
            && r[|r| - 1] == Throw(NullPathError)
            && (code == Some(0) ==> Posted(r) == [])
  {
    var taskId := env.taskId.value;
    var r := Run(env, argv, cwd, isURL, isAscii, DownloadFailed(""), Exited(code), up, log);
    var h := ExitHandling(env, taskId, None, cwd, log);
    var pre := if code == Some(0) then UploadStart(env, taskId, OutputPath(cwd, taskId))
               else TryPostback(env, taskId, "process error: " + (UnknownCodePrefix + CodeText(code)), isURL);
    var spawn := Spawn(ArgVector(None, cwd, taskId, argv));
    NullInputArg(cwd, taskId, argv);
    NullInputHandling(env, taskId, cwd, log);
    AfterThrowingExit(env, taskId, None, cwd, isURL, code, up, log);
    AfterEmptyDownloadError(env, taskId, argv, cwd, isURL, Exited(code), up, log);
    EndsWith(r, AfterDownload(env, taskId, argv, cwd, isURL, DownloadFailed(""), Exited(code), up, log),
             AfterChild(env, taskId, None, cwd, isURL, Exited(code), up, log),
             Fetch(env.archiveURL.value), Delete(InputPath(taskId)), spawn, pre, h);
    if code == Some(0) {
      assert PostFree(pre);
    }
  }

  /** A download error with an empty message deletes the partial download
      and still runs `barc`, with no input. */
  lemma AfterEmptyDownloadError(env: Env, taskId: string, argv: seq<Option_>, cwd: string,
                                isURL: string -> bool, child: ChildEnd, up: UploadEnd, log: LogEnd)
    ensures AfterDownload(env, taskId, argv, cwd, isURL, DownloadFailed(""), child, up, log)
         == [Delete(InputPath(taskId))] + [Spawn(ArgVector(None, cwd, taskId, argv))]
            + AfterChild(env, taskId, None, cwd, isURL, child, up, log)
  {
  }

  /** A `null` input reaches `barc` as `-inull`. */
  lemma NullInputArg(cwd: string, taskId: string, argv: seq<Option_>)
    ensures ArgVector(None, cwd, taskId, argv)[0] == "-inull"
  {
    assert NullableText(None) == "null";
  }

  /** With CLEAN_ARTIFACTS set and a `null` input, the exit handling is the
      cleanup alone, ending in the throw. */
  lemma NullInputHandling(env: Env, taskId: string, cwd: string, log: LogEnd)
    requires Truthy(env.cleanArtifacts)
    ensures var h := ExitHandling(env, taskId, None, cwd, log);
            |h| == 3 && h[2] == Throw(NullPathError) && !ThrowFree(h)
  {
    var cleanup := ExitCleanup(None, cwd, taskId, env.cleanArtifacts);
    assert cleanup + [] == cleanup;
  }

  /** When the exit handling throws, the child's end is followed by
      nothing after it. */
  lemma AfterThrowingExit(env: Env, taskId: string, input: Option<string>, cwd: string,
                          isURL: string -> bool, code: Option<int>, up: UploadEnd, log: LogEnd)
    requires !ThrowFree(ExitHandling(env, taskId, input, cwd, log))
    ensures AfterChild(env, taskId, input, cwd, isURL, Exited(code), up, log)
         == (if code == Some(0) then UploadStart(env, taskId, OutputPath(cwd, taskId))
             else TryPostback(env, taskId, "process error: " + (UnknownCodePrefix + CodeText(code)), isURL))
            + ExitHandling(env, taskId, input, cwd, log)
  {
    if code == Some(0) {
      var s := UploadStart(env, taskId, OutputPath(cwd, taskId)) + ExitHandling(env, taskId, input, cwd, log);
      assert s + [] == s;
    }
  }

  /** The shape of a run that gets as far as the child: its third effect
      and its last, and no postback when neither tail posts. */
  lemma EndsWith(r: seq<Effect>, rest: seq<Effect>, after: seq<Effect>,
                 a: Effect, b: Effect, c: Effect, pre: seq<Effect>, h: seq<Effect>)
    requires r == [a] + rest && rest == [b] + [c] + after && after == pre + h
    requires |h| > 0 && !a.Post? && !b.Post? && !c.Post?
    ensures |r| >= 3 && r[2] == c && r[|r| - 1] == h[|h| - 1]
    ensures PostFree(pre) && PostFree(h) ==> Posted(r) == []
  {
    if PostFree(pre) && PostFree(h) {
      assert PostFree(r);
      PostedPostFree(r);
    }
  }
}

=== FILE: text.dfy ===
/** Decimal text: the integer-to-string conversion used by JavaScript template
    strings, C++ stream insertion and std::to_string, the decimal readers
    `validator.isInt` / `parseInt` (on text `isInt` accepts) and C's `atoi`,
    and Node's `path.basename` on '/'-separated paths. */
module Text {

  predicate IsDigit(c: char) {
    '0' <= c <= '9'
  }

  predicate AllDigits(s: string) {
    forall i :: 0 <= i < |s| ==> IsDigit(s[i])
  }

  function DigitValue(c: char): (d: nat)
    requires IsDigit(c)
    ensures d < 10
  {
    c as int - '0' as int
  }

  function DigitChar(d: nat): (c: char)
    requires d < 10
    ensures IsDigit(c) && DigitValue(c) == d
  {
    ('0' as int + d) as char
  }

  /** Canonical decimal text of a natural number: digits only, never empty,
      and without a leading zero unless the number is zero. */
  function NatToString(n: nat): (r: string)
    ensures |r| >= 1 && AllDigits(r)
    ensures r[0] == '0' ==> n == 0 && |r| == 1
    decreases n
  {
    if n < 10 then [DigitChar(n)] else NatToString(n / 10) + [DigitChar(n % 10)]
  }

  /** Decimal text of an integer: a '-' before the digits of a negative one. */
  function IntToString(i: int): (r: string)
    ensures |r| >= 1
    ensures ',' !in r && ' ' !in r && '/' !in r
    ensures i >= 0 ==> AllDigits(r)
  {
    if i < 0 then "-" + NatToString(-i) else NatToString(i)
  }

  /** Value of a string of decimal digits, read left to right. */
  function DigitsValue(s: string): nat
    requires AllDigits(s)
  {
    if |s| == 0 then 0 else DigitsValue(s[..|s| - 1]) * 10 + DigitValue(s[|s| - 1])
  }

  lemma {:induction false} NatToStringRoundTrip(n: nat)
    ensures DigitsValue(NatToString(n)) == n
    decreases n
  {
    if n >= 10 {
      var p := NatToString(n / 10);
      var s := p + [DigitChar(n % 10)];
      assert s[..|s| - 1] == p;
      NatToStringRoundTrip(n / 10);
    }
  }

  /** Optional sign followed by at least one decimal digit (leading zeros
      allowed): the text `validator.isInt` accepts when no bounds are given. */
  predicate IsIntText(s: string) {
    && |s| > 0
    && if s[0] == '-' || s[0] == '+' then |s| > 1 && AllDigits(s[1..]) else AllDigits(s)
  }

  /** The value of text accepted by `IsIntText`; `parseInt` and `Number`
      agree with it on such text. */
  function IntTextValue(s: string): int
    requires IsIntText(s)
  {
    if s[0] == '-' then 0 - DigitsValue(s[1..])
    else if s[0] == '+' then DigitsValue(s[1..])
    else DigitsValue(s)
  }

  /** Printing an integer and reading it back gives the integer. */
  lemma IntToStringRoundTrip(i: int)
    ensures IsIntText(IntToString(i))
    ensures IntTextValue(IntToString(i)) == i
  {
    if i < 0 {
      var r := NatToString(-i);
      assert ("-" + r)[1..] == r;
      NatToStringRoundTrip(-i);
    } else {
      NatToStringRoundTrip(i);
    }
  }

  /** Printing is injective. */
  lemma IntToStringInjective(a: int, b: int)
    requires IntToString(a) == IntToString(b)
    ensures a == b
  {
    IntToStringRoundTrip(a);
    IntToStringRoundTrip(b);
  }

  /** C's `isspace` in the "C" locale. */
  predicate IsSpace(c: char) {
    c == ' ' || c == '\t' || c == '\n' || c == '\r' || c == '\U{B}' || c == '\U{C}'
  }

  function SkipSpace(s: string): (r: string)
    ensures |r| <= |s| && r == s[|s| - |r|..]
    ensures |r| > 0 ==> !IsSpace(r[0])
  {
    if |s| > 0 && IsSpace(s[0]) then SkipSpace(s[1..]) else s
  }

  /** The longest prefix of `s` made of digits. */
  function DigitPrefix(s: string): (r: string)
    ensures AllDigits(r) && r <= s
    ensures |r| < |s| ==> !IsDigit(s[|r|])
  {
    if |s| > 0 && IsDigit(s[0]) then [s[0]] + DigitPrefix(s[1..]) else []
  }

  lemma DigitPrefixOfDigits(s: string)
    requires AllDigits(s)
    ensures DigitPrefix(s) == s
  {
    if |s| > 0 {
      DigitPrefixOfDigits(s[1..]);
    }
  }

  /** C's `atoi` (overflow, which C leaves undefined, is not modelled): skip
      white space, read an optional sign and the longest run of digits; text
      without digits reads as 0. */
  function Atoi(s: string): int {
    var t := SkipSpace(s);
    if |t| > 0 && t[0] == '-' then 0 - DigitsValue(DigitPrefix(t[1..]))
    else if |t| > 0 && t[0] == '+' then DigitsValue(DigitPrefix(t[1..]))
    else DigitsValue(DigitPrefix(t))
  }

  lemma AtoiOfDigits(r: string)
    requires |r| > 0 && AllDigits(r)
    ensures Atoi(r) == DigitsValue(r)
    ensures Atoi("-" + r) == 0 - DigitsValue(r)
  {
    DigitPrefixOfDigits(r);
    assert SkipSpace(r) == r by { assert !IsSpace(r[0]); }
    var m := "-" + r;
    assert SkipSpace(m) == m by { assert !IsSpace(m[0]); }
    assert m[1..] == r;
  }

  lemma AtoiOfNat(n: nat)
    ensures Atoi(NatToString(n)) == n
    ensures Atoi("-" + NatToString(n)) == 0 - n
  {
    AtoiOfDigits(NatToString(n));
    NatToStringRoundTrip(n);
  }

  /** `atoi` reads back what `IntToString` prints. */
  lemma AtoiRoundTrip(i: int)
    ensures Atoi(IntToString(i)) == i
  {
    if i < 0 {
      var n: nat := -i;
      assert IntToString(i) == "-" + NatToString(n);
      AtoiOfNat(n);
    } else {
      AtoiOfNat(i);
    }
  }

  /** `atoi` of text that does not start (after white space) with a sign or
      a digit is 0. */
  lemma AtoiNoDigits(s: string)
    requires |SkipSpace(s)| == 0 || !(IsDigit(SkipSpace(s)[0]) || SkipSpace(s)[0] in "+-")
    ensures Atoi(s) == 0
  {
  }

  /** The part of `s` after its last '/'. */
  function AfterLastSlash(s: string): (r: string)
    ensures '/' !in r
    ensures |r| <= |s| && s[|s| - |r|..] == r
    ensures |r| < |s| ==> s[|s| - |r| - 1] == '/'
  {
    if |s| == 0 then ""
    else if s[|s| - 1] == '/' then ""
    else AfterLastSlash(s[..|s| - 1]) + [s[|s| - 1]]
  }

  function StripTrailingSlashes(s: string): (r: string)
    ensures r <= s
    ensures |r| > 0 ==> r[|r| - 1] != '/'
  {
    if |s| > 0 && s[|s| - 1] == '/' then StripTrailingSlashes(s[..|s| - 1]) else s
  }

  /** Node's `path.basename` for '/'-separated paths: the last path segment,
      ignoring trailing separators. */
  function Basename(path: string): string {
    AfterLastSlash(StripTrailingSlashes(path))
  }

  lemma AfterLastSlashSnoc(a: string, c: char)
    requires c != '/'
    ensures AfterLastSlash(a + [c]) == AfterLastSlash(a) + [c]
  {
    assert (a + [c])[..|a|] == a;
  }

  lemma {:induction false} AfterSlashJoin(dir: string, name: string)
    requires '/' !in name
    ensures AfterLastSlash(dir + "/" + name) == name
    decreases |name|
  {
    if |name| == 0 {
      var p := dir + "/";
      assert p + name == p;
      assert p[|p| - 1] == '/';
    } else {
      var init := name[..|name| - 1];
      var c := name[|name| - 1];
      assert c in name;
      assert name == init + [c];
      assert dir + "/" + name == (dir + "/" + init) + [c];
      assert forall x :: x in init ==> x in name;
      AfterSlashJoin(dir, init);
      AfterLastSlashSnoc(dir + "/" + init, c);
    }
  }

  lemma NoSlashAppend(a: string, b: string)
    requires '/' !in a && '/' !in b
    ensures '/' !in a + b
  {
  }

  /** The last segment of `dir + "/" + name` is `name` when `name` has no
      separator. */
  lemma BasenameOfJoin(dir: string, name: string)
    requires name != "" && '/' !in name
    ensures Basename(dir + "/" + name) == name
  {
    var p := dir + "/" + name;
    assert p[|p| - 1] == name[|name| - 1];
    assert StripTrailingSlashes(p) == p;
    AfterSlashJoin(dir, name);
  }
}

=== FILE: video_mixer.dfy ===
/** The video mixer: the streams to draw this frame, the layout that places
    them, and whether the style sheet is re-picked automatically. Streams
    are handles into a store of stream records, because the mixer shares
    the records with the compositor. */
module VideoMixer {
  import opened Common
  import opened Sorting
  import opened Geometry
  import opened Presets
  import opened MediaStream

  datatype Mixer = Mixer(streams: seq<Handle>, layout: ArchiveLayout, autoLayout: bool)

  /** `video_mixer_add_stream`: 1 and no change when the stream is already
      there, otherwise 0 with the stream appended. */
  function AddStream(m: Mixer, h: Handle): (r: (Mixer, int))
    ensures h in m.streams ==> r == (m, 1)
    ensures h !in m.streams ==> r == (m.(streams := m.streams + [h]), 0)
  {
    if h in m.streams then (m, 1) else (m.(streams := m.streams + [h]), 0)
  }

  /** `video_mixer_clear_streams`. */
  function ClearStreams(m: Mixer): (r: Mixer)
    ensures r.streams == [] && r.layout == m.layout && r.autoLayout == m.autoLayout
  {
    m.(streams := [])
  }

  /** Adding a stream keeps the list free of repeats, and adding it again
      reports 1 and changes nothing. */
  lemma AddStreamIdempotent(m: Mixer, h: Handle)
    requires NoDup(m.streams)
    ensures NoDup(AddStream(m, h).0.streams)
    ensures h in AddStream(m, h).0.streams
    ensures AddStream(AddStream(m, h).0, h) == (AddStream(m, h).0, 1)
  {
    if h !in m.streams {
      var r := m.streams + [h];
      forall i, j | 0 <= i < j < |r| ensures r[i] != r[j] {
        if j == |m.streams| {
          assert r[i] == m.streams[i];
        }
      }
    }
  }

  /** Adds each handle in turn, keeping the codes `video_mixer_add_stream`
      returns. */
  function AddAll(m: Mixer, hs: seq<Handle>): (r: (Mixer, seq<int>))
    ensures |r.1| == |hs|
    ensures r.0.layout == m.layout && r.0.autoLayout == m.autoLayout
    decreases |hs|
  {
    if |hs| == 0 then (m, [])
    else
      var (m1, code) := AddStream(m, hs[0]);
      var (m2, codes) := AddAll(m1, hs[1..]);
      (m2, [code] + codes)
  }

  /** The video half of `barc_tick`: clear the mixer, then add every
      compositor stream. */
  function Refill(m: Mixer, sources: seq<Handle>): (r: Mixer)
  {
    AddAll(ClearStreams(m), sources).0
  }

  /** Adding a list of distinct handles none of which is present appends
      them all in order, each with code 0. */
  lemma {:induction false} AddAllFresh(m: Mixer, hs: seq<Handle>)
    requires NoDup(hs)
    requires forall i :: 0 <= i < |hs| ==> hs[i] !in m.streams
    ensures AddAll(m, hs).0.streams == m.streams + hs
    ensures forall i :: 0 <= i < |hs| ==> AddAll(m, hs).1[i] == 0
    decreases |hs|
  {
    if |hs| > 0 {
      var m1 := m.(streams := m.streams + [hs[0]]);
      assert AddStream(m, hs[0]) == (m1, 0);
      var rest := hs[1..];
      assert NoDup(rest) by {
        forall i, j | 0 <= i < j < |rest| ensures rest[i] != rest[j] {
          assert rest[i] == hs[i + 1] && rest[j] == hs[j + 1];
        }
      }
      forall i | 0 <= i < |rest| ensures rest[i] !in m1.streams {
        assert rest[i] == hs[i + 1];
        assert hs[i + 1] != hs[0];
      }
      AddAllFresh(m1, rest);
      assert m1.streams + rest == m.streams + hs;
    }
  }

  /** With distinct compositor streams, every video tick leaves the mixer
      holding exactly those streams in the compositor's order. */
  lemma RefillCopiesSources(m: Mixer, sources: seq<Handle>)
    requires NoDup(sources)
    ensures Refill(m, sources).streams == sources
    ensures Refill(m, sources).layout == m.layout
  {
    AddAllFresh(ClearStreams(m), sources);
  }

  // ---------------------------------------------------------------------
  // Style sheet selection.
  // ---------------------------------------------------------------------

  /** `video_mixer_set_css_preset`; the listeners notified are dropped. */
  function SetCssPreset(m: Mixer, preset: Option<string>): (r: Mixer)
    ensures r.autoLayout == MixerPreset(preset).auto
    ensures r.layout.styleSheet == MixerPreset(preset).sheet
    ensures r.streams == m.streams && r.layout.streams == m.layout.streams
  {
    var c := MixerPreset(preset);
    m.(layout := SetStyleSheet(m.layout, c.sheet).0, autoLayout := c.auto)
  }

  /** `video_mixer_set_css_custom`. */
  function SetCssCustom(m: Mixer, css: Option<string>): (r: Mixer)
    ensures r.autoLayout == m.autoLayout && r.streams == m.streams
    ensures r.layout.styleSheet == CssCustom(m.layout.styleSheet, css)
  {
    if css.Some? && |css.value| > 0 then m.(layout := SetStyleSheet(m.layout, Css(css.value)).0) else m
  }

  /** Selecting `custom` and then supplying CSS installs that CSS with
      automatic layout off; supplying nothing leaves the placeholder. */
  lemma CustomThenCss(m: Mixer, css: Option<string>)
    ensures var r := SetCssCustom(SetCssPreset(m, Some("custom")), css);
            && !r.autoLayout
            && r.layout.styleSheet == (if Truthy(css) then Css(css.value) else Css("SET_ME"))
  {
  }

  // ---------------------------------------------------------------------
  // Placing the streams.
  // ---------------------------------------------------------------------

  /** Every handle has a record with a name and a class (both are read as
      C strings). */
  ghost predicate Named(hs: seq<Handle>, store: map<Handle, Stream>) {
    forall h :: h in hs ==> h in store && store[h].name.Some? && store[h].streamClass.Some?
  }

  /** The sort key of `z_index_sort`. */
  function ZKey(store: map<Handle, Stream>): Handle -> int {
    h => if h in store then store[h].placement.z else 0
  }

  /** One active stream description per handle, from its name and class. */
  function Infos(hs: seq<Handle>, store: map<Handle, Stream>): (r: seq<StreamInfo>)
    requires Named(hs, store)
    ensures |r| == |hs|
    ensures forall i :: 0 <= i < |hs| ==>
              r[i] == StreamInfo(store[hs[i]].name.value, store[hs[i]].streamClass.value, true)
  {
    seq(|hs|, i requires 0 <= i < |hs| =>
      StreamInfo(store[hs[i]].name.value, store[hs[i]].streamClass.value, true))
  }

  /** The placement a layout position writes: x, y, width, height, fit and
      z (the radius setter has no storage). */
  function Place(s: Stream, p: Position): (r: Stream)
    ensures r.name == s.name && r.streamClass == s.streamClass && r.sources == s.sources
  {
    s.(placement := Placement(p.x, p.y, p.z, p.width, p.height, p.fit))
  }

  /** The inner loop: every stream whose name equals the position's id
      takes the position. */
  function PlaceMatching(store: map<Handle, Stream>, hs: seq<Handle>, p: Position): (r: map<Handle, Stream>)
    ensures r.Keys == store.Keys
    ensures forall h :: h in store ==>
              r[h] == if h in hs && store[h].name == Some(p.streamId) then Place(store[h], p) else store[h]
    decreases |hs|
  {
    if |hs| == 0 then store
    else
      var h := hs[0];
      var s1 := if h in store && store[h].name == Some(p.streamId) then store[h := Place(store[h], p)] else store;
      PlaceMatching(s1, hs[1..], p)
  }

  /** The outer loop, position by position in layout order. */
  function PlaceAll(store: map<Handle, Stream>, hs: seq<Handle>, ps: seq<Position>): (r: map<Handle, Stream>)
    ensures r.Keys == store.Keys
    decreases |ps|
  {
    if |ps| == 0 then store
    else PlaceMatching(PlaceAll(store, hs, ps[..|ps| - 1]), hs, ps[|ps| - 1])
  }

  /** The last position with the given id, if any. */
  function LastWithId(ps: seq<Position>, id: string): (r: Option<Position>)
    ensures r.Some? ==> r.value in ps && r.value.streamId == id
    ensures r.None? ==> forall i :: 0 <= i < |ps| ==> ps[i].streamId != id
    decreases |ps|
  {
    if |ps| == 0 then None
    else if ps[|ps| - 1].streamId == id then Some(ps[|ps| - 1])
    else LastWithId(ps[..|ps| - 1], id)
  }

  /** A stream in the list takes the last position carrying its name; a
      stream with no such position, or not in the list, is untouched. */
  lemma {:induction false} PlaceAllLastWins(store: map<Handle, Stream>, hs: seq<Handle>, ps: seq<Position>, h: Handle)
    requires h in store
    ensures var r := PlaceAll(store, hs, ps)[h];
            if h in hs && store[h].name.Some? && LastWithId(ps, store[h].name.value).Some?
            then r == Place(store[h], LastWithId(ps, store[h].name.value).value)
            else r == store[h]
    decreases |ps|
  {
    if |ps| > 0 {
      PlaceAllLastWins(store, hs, ps[..|ps| - 1], h);
    }
  }

  /** What `populate_stream_coords` leaves behind. */
  datatype Coords = Coords(mixer: Mixer, store: map<Handle, Stream>, positions: seq<Position>)

  /** Sorting the handles keeps them named. */
  lemma SortKeepsNamed(hs: seq<Handle>, store: map<Handle, Stream>)
    requires Named(hs, store)
    ensures Named(SortBy(hs, ZKey(store)), store)
  {
    forall h | h in SortBy(hs, ZKey(store)) ensures h in hs {
      SortByMembers(hs, ZKey(store), h);
    }
  }

  /** The layout to run: in automatic mode, with the sheet re-picked. */
  function SheetFor(m: Mixer, infos: seq<StreamInfo>): (l: ArchiveLayout)
    ensures l.styleSheet == if m.autoLayout then AutoSheet(infos) else m.layout.styleSheet
    ensures l.listeners == m.layout.listeners
  {
    if m.autoLayout then SetStyleSheet(m.layout, AutoSheet(infos)).0 else m.layout
  }

  /** `populate_stream_coords`: sort the streams by z, describe them, in
      automatic mode re-pick the sheet, lay them out, and write each
      position into the streams it names. */
  function PopulateStreamCoords(m: Mixer, store: map<Handle, Stream>,
                                render: (seq<StreamInfo>, Sheet) -> seq<Position>): (r: Coords)
    requires Named(m.streams, store)
    ensures SortedBy(r.mixer.streams, ZKey(store))
    ensures multiset(r.mixer.streams) == multiset(m.streams)
    ensures Named(r.mixer.streams, store)
    ensures r.mixer.autoLayout == m.autoLayout
    ensures r.mixer.layout.styleSheet ==
              if m.autoLayout then AutoSheet(Infos(r.mixer.streams, store)) else m.layout.styleSheet
    ensures r.mixer.layout.streams == r.positions && r.mixer.layout.listeners == m.layout.listeners
    ensures SortedBy(r.positions, ZOf) && forall i :: 0 <= i < |r.positions| ==> Visible(r.positions[i])
    ensures r.store.Keys == store.Keys
  {
    var sorted := SortBy(m.streams, ZKey(store));
    SortKeepsNamed(m.streams, store);
    var infos := Infos(sorted, store);
    var laid := Layout(SheetFor(m, infos), infos, render);
    Coords(Mixer(sorted, laid.0, m.autoLayout), PlaceAll(store, sorted, laid.1), laid.1)
  }

  /** After populating, a stream of the mixer carries the last layout
      position with its name, and every other record is as before. */
  lemma PopulatePlacesByName(m: Mixer, store: map<Handle, Stream>,
                             render: (seq<StreamInfo>, Sheet) -> seq<Position>, h: Handle)
    requires Named(m.streams, store) && h in store
    ensures var r := PopulateStreamCoords(m, store, render);
            if h !in m.streams then r.store[h] == store[h]
            else
              var last := LastWithId(r.positions, store[h].name.value);
              r.store[h] == if last.Some? then Place(store[h], last.value) else store[h]
  {
    var r := PopulateStreamCoords(m, store, render);
    SortByMembers(m.streams, ZKey(store), h);
    PlaceAllLastWins(store, r.mixer.streams, r.positions, h);
  }

  // ---------------------------------------------------------------------
  // Pushing a frame.
  // ---------------------------------------------------------------------

  /** One stream's contribution to the composed frame. */
  datatype Subframe = Subframe(frame: nat, placement: Placement)

  /** The loop of `video_mixer_async_push_frame` over the streams: a stream
      whose read fails or yields no frame is skipped; the result is the
      last stream's read code, -1 when there are none. */
  function Subframes(hs: seq<Handle>, store: map<Handle, Stream>, t: real,
                     readers: (Handle, Handle, real) -> VideoRead, ret: int): (r: (seq<Subframe>, int))
    requires forall h :: h in hs ==> h in store
    ensures |r.0| <= |hs|
    ensures |hs| == 0 ==> r.1 == ret
    ensures |hs| > 0 ==> r.1 == VideoForTime(store[hs[|hs| - 1]], t, readers).ret
    decreases |hs|
  {
    if |hs| == 0 then ([], ret)
    else
      var read := VideoForTime(store[hs[0]], t, readers);
      var (rest, code) := Subframes(hs[1..], store, t, readers, read.ret);
      if read.frame.None? || read.ret != 0 then (rest, code)
      else ([Subframe(read.frame.value, store[hs[0]].placement)] + rest, code)
  }

  /** Every subframe comes from a successful read, and every successful
      read with a frame yields one. */
  lemma {:induction false} SubframesAreSuccessfulReads(hs: seq<Handle>, store: map<Handle, Stream>, t: real,
                                                       readers: (Handle, Handle, real) -> VideoRead, ret: int)
    requires forall h :: h in hs ==> h in store
    ensures |Subframes(hs, store, t, readers, ret).0| ==
            |Filter(hs, h => h in store && VideoForTime(store[h], t, readers).ret == 0
                             && VideoForTime(store[h], t, readers).frame.Some?)|
    decreases |hs|
  {
    if |hs| > 0 {
      SubframesAreSuccessfulReads(hs[1..], store, t, readers, VideoForTime(store[hs[0]], t, readers).ret);
    }
  }

  /** `video_mixer_async_push_frame` without the frame builder: place the
      streams, then read each one in z order. */
  function PushFrame(m: Mixer, store: map<Handle, Stream>, t: real,
                     render: (seq<StreamInfo>, Sheet) -> seq<Position>,
                     readers: (Handle, Handle, real) -> VideoRead): (r: (Coords, seq<Subframe>, int))
    requires Named(m.streams, store)
    ensures |m.streams| == 0 ==> r.2 == -1 && r.1 == []
  {
    var c := PopulateStreamCoords(m, store, render);
    var (subs, ret) := Subframes(c.mixer.streams, c.store, t, readers, -1);
    (c, subs, ret)
  }
}

=== FILE: worker.dfy ===
/** The queue worker's job handling: download the archive, run `barc` on
    it, upload the result and report to the queue through `done`. The
    download, the child's end and the upload are inputs; the result says
    which steps started and how `done` was called. */
module Worker {
  import opened Common
  import opened Text

  /** Job data the worker reads (after `parseJobArgs`): width and height are
      numbers, preset and URL strings; absent fields are `None`. */
  datatype JobData = JobData(
    archiveURL: Option<string>,
    width: Option<int>,
    height: Option<int>,
    cssPreset: Option<string>)

  /** JavaScript truthiness of an optional number. */
  predicate NumberTruthy(n: Option<int>) {
    n.Some? && n.value != 0
  }

  /** How `done` was called, if at all. */
  datatype Done = NotCalled | Failed(message: string) | Succeeded(s3Key: string)

  datatype Upload = Upload(key: string, acl: string)

  /** The synchronous start of the download: opening the download file and
      issuing the request, either of which may throw (`https.get` rejects
      an `http:` URL, which `validator.isURL` accepts). */
  datatype DownloadStart = Requested | StartThrew(error: string)

  datatype DownloadEnd = Downloaded | DownloadFailed(message: string)
  datatype ChildEnd = Exited(code: Option<int>) | SpawnFailed(error: string)
  datatype UploadEnd = Uploaded | UploadFailed(error: string)

  /** Which steps started, and the final report. */
  datatype JobRun = JobRun(
    downloaded: bool,
    spawned: Option<seq<string>>,
    upload: Option<Upload>,
    done: Done)

  const MissingURL: string := "Missing archiveURL."
  const DownloadFailure: string := "Failed to download archive"
  const ExitPrefix: string := "Process exited with code "

  function OutputPath(cwd: string, jobId: nat): string {
    cwd + "/" + (IntToString(jobId) + ".mp4")
  }

  function DownloadPath(jobId: nat): string {
    IntToString(jobId) + "-download"
  }

  function NullableText(p: Option<string>): string {
    if p.None? then "null" else p.value
  }

  /** Template-string text of an exit code that may be `null`. */
  function CodeText(code: Option<int>): string {
    if code.None? then "null" else IntToString(code.value)
  }

  /** The argument vector: input, output, then `-w`, `-h` and `-p` in that
      order, each only when its field is truthy. */
  function ArgVector(input: Option<string>, cwd: string, jobId: nat, data: JobData): (r: seq<string>)
    ensures |r| == 2 + (if NumberTruthy(data.width) then 1 else 0)
                     + (if NumberTruthy(data.height) then 1 else 0)
                     + (if Truthy(data.cssPreset) then 1 else 0)
    ensures r[0] == "-i" + NullableText(input) && r[1] == "-o" + OutputPath(cwd, jobId)
    ensures NumberTruthy(data.width) ==> r[2] == "-w" + IntToString(data.width.value)
    ensures Truthy(data.cssPreset) ==> r[|r| - 1] == "-p" + data.cssPreset.value
    ensures NumberTruthy(data.height) ==>
              r[if NumberTruthy(data.width) then 3 else 2] == "-h" + IntToString(data.height.value)
  {
    ["-i" + NullableText(input), "-o" + OutputPath(cwd, jobId)]
    + (if NumberTruthy(data.width) then ["-w" + IntToString(data.width.value)] else [])
    + (if NumberTruthy(data.height) then ["-h" + IntToString(data.height.value)] else [])
    + (if Truthy(data.cssPreset) then ["-p" + data.cssPreset.value] else [])
  }

  /** `<s3_prefix>/<jobId>/<basename of output>`. */
  function UploadKey(prefix: string, jobId: nat, output: string): string {
    prefix + "/" + IntToString(jobId) + "/" + Basename(output)
  }

  lemma UploadKeyOfOutput(prefix: string, cwd: string, jobId: nat)
    ensures UploadKey(prefix, jobId, OutputPath(cwd, jobId)) == prefix + "/" + IntToString(jobId) + "/" + IntToString(jobId) + ".mp4"
  {
    var id := IntToString(jobId);
    assert '/' !in id;
    var name := id + ".mp4";
    NoSlashAppend(id, ".mp4");
    BasenameOfJoin(cwd, name);
  }

  /** The job handler: `processJob` inside the `try` of the queue's
      callback, with its continuations. An exception thrown while the
      download starts is caught and handed to `done`. A download error with
      an empty message is falsy, so processing carries on with a `null`
      path. Spawn and upload errors are only logged: `done` is never called
      for them. */
  function ProcessJob(data: JobData, jobId: nat, cwd: string, s3Prefix: string, isURL: string -> bool,
                      start: DownloadStart, dl: DownloadEnd, child: ChildEnd, up: UploadEnd): (r: JobRun)
    ensures !(Truthy(data.archiveURL) && isURL(data.archiveURL.value)) ==>
              r == JobRun(false, None, None, Failed(MissingURL))
    ensures Truthy(data.archiveURL) && isURL(data.archiveURL.value) && start.StartThrew? ==>
              r == JobRun(false, None, None, Failed(start.error))
    ensures r.downloaded <==> Truthy(data.archiveURL) && isURL(data.archiveURL.value) && start.Requested?
    ensures r.spawned.Some? ==> r.downloaded
    ensures r.downloaded && !(dl.DownloadFailed? && dl.message != "") ==> r.spawned.Some?
    ensures r.spawned.Some? ==>
              r.spawned.value == ArgVector(if dl.Downloaded? then Some(DownloadPath(jobId)) else None, cwd, jobId, data)
    ensures r.upload.Some? ==> r.spawned.Some? && child == Exited(Some(0))
    ensures r.done.Succeeded? ==> r.upload.Some? && r.done.s3Key == r.upload.value.key
    ensures r.done.Failed? ==>
              || r.done.message in {MissingURL, DownloadFailure}
              || (start.StartThrew? && r.done.message == start.error)
              || (child.Exited? && r.done.message == ExitPrefix + CodeText(child.code))
  {
    if !(Truthy(data.archiveURL) && isURL(data.archiveURL.value)) then
      JobRun(false, None, None, Failed(MissingURL))
    else if start.StartThrew? then
      JobRun(false, None, None, Failed(start.error))
    else if dl.DownloadFailed? && dl.message != "" then
      JobRun(true, None, None, Failed(DownloadFailure))
    else
      var input := if dl.Downloaded? then Some(DownloadPath(jobId)) else None;
      var args := ArgVector(input, cwd, jobId, data);
      match child
      case SpawnFailed(_) => JobRun(true, Some(args), None, NotCalled)
      case Exited(code) =>
        if code != Some(0) then
          JobRun(true, Some(args), None, Failed(ExitPrefix + CodeText(code)))
        else
          var key := UploadKey(s3Prefix, jobId, OutputPath(cwd, jobId));
          JobRun(true, Some(args), Some(Upload(key, "private")),
                 if up.Uploaded? then Succeeded(key) else NotCalled)
  }

  /** A download error reports `Failed to download archive` and spawns
      nothing. */
  lemma DownloadErrorStops(data: JobData, jobId: nat, cwd: string, s3Prefix: string, isURL: string -> bool,
                           m: string, child: ChildEnd, up: UploadEnd)
    requires Truthy(data.archiveURL) && isURL(data.archiveURL.value) && m != ""
    ensures ProcessJob(data, jobId, cwd, s3Prefix, isURL, Requested, DownloadFailed(m), child, up)
         == JobRun(true, None, None, Failed(DownloadFailure))
  {
  }

  /** A non-zero exit reports the code and uploads nothing; `atoi` of the
      text after the prefix gives the code back. */
  lemma NonZeroExitReported(data: JobData, jobId: nat, cwd: string, s3Prefix: string, isURL: string -> bool,
                            code: int, up: UploadEnd)
    requires Truthy(data.archiveURL) && isURL(data.archiveURL.value) && code != 0
    ensures var r := ProcessJob(data, jobId, cwd, s3Prefix, isURL, Requested, Downloaded, Exited(Some(code)), up);
            && r.upload.None? && r.spawned.Some?
            && r.done.Failed? && r.done.message[..|ExitPrefix|] == ExitPrefix
            && Atoi(r.done.message[|ExitPrefix|..]) == code
  {
    var m := ExitPrefix + IntToString(code);
    assert m[..|ExitPrefix|] == ExitPrefix && m[|ExitPrefix|..] == IntToString(code);
    AtoiRoundTrip(code);
  }

  /** Exit code 0 starts a private upload under `<prefix>/<jobId>/<jobId>.mp4`;
      only a completed upload reports success, with that key. */
  lemma ZeroExitUploads(data: JobData, jobId: nat, cwd: string, s3Prefix: string, isURL: string -> bool,
                        up: UploadEnd)
    requires Truthy(data.archiveURL) && isURL(data.archiveURL.value)
    ensures var r := ProcessJob(data, jobId, cwd, s3Prefix, isURL, Requested, Downloaded, Exited(Some(0)), up);
            var key := s3Prefix + "/" + IntToString(jobId) + "/" + IntToString(jobId) + ".mp4";
            && r.upload == Some(Upload(key, "private"))
            && r.done == (if up.Uploaded? then Succeeded(key) else NotCalled)
  {
    UploadKeyOfOutput(s3Prefix, cwd, jobId);
  }

  /** A failed spawn never calls `done`. */
  lemma SpawnErrorNeverDone(data: JobData, jobId: nat, cwd: string, s3Prefix: string, isURL: string -> bool,
                            dl: DownloadEnd, e: string, up: UploadEnd)
    requires Truthy(data.archiveURL) && isURL(data.archiveURL.value)
    requires !(dl.DownloadFailed? && dl.message != "")
    ensures ProcessJob(data, jobId, cwd, s3Prefix, isURL, Requested, dl, SpawnFailed(e), up).done == NotCalled
  {
  }

  /** An exception while the download starts reaches `done` through the
      handler's `catch`: nothing is downloaded, spawned or uploaded. */
  lemma StartThrowReported(data: JobData, jobId: nat, cwd: string, s3Prefix: string, isURL: string -> bool,
                           e: string, dl: DownloadEnd, child: ChildEnd, up: UploadEnd)
    requires Truthy(data.archiveURL) && isURL(data.archiveURL.value)
    ensures var r := ProcessJob(data, jobId, cwd, s3Prefix, isURL, StartThrew(e), dl, child, up);
            && !r.downloaded && r.spawned.None? && r.upload.None?
            && r.done == Failed(e)
  {
  }
}
